=== FILE: README.md ===
# NetshPortForwardManager, modelled in Dafny

This project models the core of NetshPortForwardManager. The system manages Windows `netsh interface portproxy` rules in three parts:

- **PortProxyAgent**, a service on each Windows host. It:
  - receives encrypted commands (add, delete, list and reset rules);
  - runs netsh and answers with encrypted responses;
  - monitors two health endpoints and fails port-proxy rules over from one target address to the other.
- **PortProxyClient**, a desktop application. It:
  - keeps an inventory of agents, target servers, silos and server pairs;
  - resolves target host names through a DNS cache;
  - edits rules with their metadata (description, category, tags, target) in a keyed store;
  - gathers the rule list from the local netsh and every connected agent;
  - configures the agents' failover.
- **NetshPortForwardManager**, the original stand-alone manager: a rule list and an add/edit form over the local netsh.

## How the model is built

- Values (rules, commands, responses, servers, silos, pairs, configurations) are datatypes.
- The services and view models whose fields change are classes. Their methods say with `modifies` what they change, and with `ensures` what the new state is.
- Loops in the source are `while` loops with invariants, proved against a specification function. Examples: parsing the netsh listing, remapping rules on failover, removing orphaned metadata, importing rules.
- Every validator builds its error list the same way: one message per failed check, in the order of the checks. `Text.Failures` is that list, given the checks' outcomes and their messages. Its lemmas say which messages are present and in what order, and each validator instantiates them for its own checks.
- The things the code calls but does not define are parameters:
  - the netsh process is a `NetshTool.Host`, whose answer is a function of the command lines run so far and the new one;
  - the cryptographic primitives are an `Envelope.Primitives` value;
  - the framework's address, host-name and URL parsers are a `Platform.Parsers` value;
  - the clock is a tick count `now`;
  - fresh GUIDs, HTTP health probes, DNS lookups and the agents' answers are given to the operations that use them.

The files follow the source:

| file | source |
|---|---|
| `agent_models.dfy` | the agent's wire records |
| `netsh_tool.dfy` | the netsh process |
| `netsh_executor.dfy` | the agent's NetshExecutor |
| `envelope.dfy` | the shared message envelope |
| `encryption_services.dfy` | the two encryption services |
| `agent_service.dfy`, `agent_controller.dfy` | the agent's command processing and HTTP endpoints |
| `agent_failover_configuration.dfy`, `failover_service.dfy` | the agent's failover |
| `client_models.dfy`, `rule_validation.dfy` | the client's and manager's models and the validation service |
| `mapping.dfy`, `dns_service.dfy`, `server_service.dfy` | the client's inventory |
| `rule_metadata_service.dfy` | the metadata store |
| `client_netsh_service.dfy` | the client's netsh service |
| `client_failover.dfy`, `failover_config.dfy`, `failover_configuration_view_model.dfy` | the client's failover models and form |
| `add_edit_rule_view_model.dfy`, `manager_add_edit_rule_view_model.dfy` | the two rule forms |
| `rule_collection.dfy`, `client_main_view_model.dfy`, `manager_main_view_model.dfy` | the two main windows |
| `common.dfy` | the shared text, number and clock helpers |

## Model

| member | source | states |
|---|---|---|
| NetshTool.Host.Run | PortProxyAgent/Services/NetshExecutor.cs:158-194 | running a command line appends it to the history, and the answer is the tool's answer to that line after the earlier ones |
| AgentModels.NewCommand | PortProxyAgent/Models/AgentCommand.cs:14-56 | a new command has the given verb and id, the protocol "v4tov4", and empty endpoint fields |
| NetshExecutor.HeaderProtocol | PortProxyAgent/Services/NetshExecutor.cs:223-246 | a section header names one of the four protocols, taken from its "Listen on ipvX" and "Connect to ipvY" parts |
| NetshExecutor.StepShape | PortProxyAgent/Services/NetshExecutor.cs:214-281 | one listing line appends at most one rule, under the current protocol, and keeps the protocol one of the four |
| NetshExecutor.ScanExtends | PortProxyAgent/Services/NetshExecutor.cs:214-282 | rules are only appended: what a prefix of the listing yields is a prefix of the result, and each line adds at most one rule |
| NetshExecutor.ScanProtocols | PortProxyAgent/Services/NetshExecutor.cs:212-246 | every parsed rule carries one of v4tov4, v4tov6, v6tov4 or v6tov6 |
| NetshExecutor.NoDashesNoRules | PortProxyAgent/Services/NetshExecutor.cs:254-262 | when no line reads as the dashes line under the column titles, no data section opens, so the listing yields no rule |
| NetshExecutor.DataRowYieldsRule | PortProxyAgent/Services/NetshExecutor.cs:261-280 | a data row with at least four fields yields one rule: listen address, listen port, connect address and connect port in that order, under the current protocol |
| NetshExecutor.ParseNetshOutput | PortProxyAgent/Services/NetshExecutor.cs:196-292 | the loop over the lines returns exactly the rules the line-by-line scan of the listing yields |
| NetshExecutor.ReadLine | PortProxyAgent/Services/NetshExecutor.cs:216-281 | reading one line moves the parser's flag, protocol and rule list exactly as one step of the line-by-line scan does |
| NetshExecutor.Executor.AddRule | PortProxyAgent/Services/NetshExecutor.cs:19-53 | the response is `AddResponse` of the tool's result: one `add` command line for the command's protocol and endpoints is run; the response echoes the command id and the tool's success and output, with the success or failure message |
| NetshExecutor.Executor.DeleteRule | PortProxyAgent/Services/NetshExecutor.cs:55-88 | the response is `DeleteResponse` of the tool's result: one `delete` command line for the protocol and listen endpoint is run; the response has the command id, the tool's success and output, and the matching message |
| NetshExecutor.Executor.ListRules | PortProxyAgent/Services/NetshExecutor.cs:90-126 | the response is `ListResponse` of the tool's result: one `show all` is run; rules are parsed only from a successful, non-empty listing; the message counts them or carries the error; the response has a fresh id |
| NetshExecutor.Executor.ResetAllRules | PortProxyAgent/Services/NetshExecutor.cs:128-156 | the response is `ResetResponse` of the tool's result: one `reset` is run; the response has a fresh id, the tool's success and output, and the matching message |
| Envelope.Seal | PortProxyAgent/Services/EncryptionService.cs:59-99 | a sealed message carries the time of sealing, the base64 IV, and the tag the secret gives for its ciphertext, IV and timestamp |
| Envelope.Decrypt | PortProxyAgent/Services/EncryptionService.cs:21-57 | a message that fails verification is refused with UnauthorizedAccessException("Message verification failed"); an authentic message is decoded and decrypted, and only an authentic message can decrypt |
| Envelope.SealThenOpen | PortProxyAgent/Services/EncryptionService.cs:21-99 | a sealed message is authentic for five minutes and decrypts to its plaintext |
| Envelope.TamperedMessageRejected | PortProxyAgent/Services/EncryptionService.cs:101-134 | changing the ciphertext, the IV or the timestamp of an authentic message while keeping its tag makes verification fail |
| Envelope.ShiftedBoundaryAccepted | PortProxyAgent/Services/EncryptionService.cs:101-134 | moving the end of the ciphertext to the front of the IV gives a different message that still verifies, because the signed text has no separators |
| Envelope.FixedTimeEquals | PortProxyAgent/Services/EncryptionService.cs:117-128 | the length check followed by the OR of XORs over every character is true exactly when the two tags are equal |
| Envelope.VerifyMessage | PortProxyAgent/Services/EncryptionService.cs:101-141 | a message is accepted exactly when it is at most five minutes old and carries the tag the secret gives |
| AgentEncryption.DecryptMessage | PortProxyAgent/Services/EncryptionService.cs:21-57 | the agent's decryption is the envelope's: verification first, then the decode or decrypt failure as thrown, or the plaintext |
| ClientEncryption.Rewrapped | PortProxyClient/Services/AgentEncryptionService.cs:99-102 | a success passes through, and every failure becomes an InvalidOperationException whose message is "Failed to decrypt message: " and the inner message |
| ClientEncryption.DecryptMessage | PortProxyClient/Services/AgentEncryptionService.cs:70-103 | the client's decryption is the agent's, with every failure rewrapped |
| ClientEncryption.RefusedEnvelopeMessage | PortProxyClient/Services/AgentEncryptionService.cs:75-78 | a refused envelope reaches the caller as "Failed to decrypt message: Message verification failed" |
| ClientEncryption.SealedOnEitherSideOpens | PortProxyClient/Services/AgentEncryptionService.cs:24-103 | the two sides derive keys and tags alike, so an envelope sealed on either side opens on the other within five minutes |
| AgentService.VerbOf | PortProxyAgent/Services/AgentService.cs:49-61 | the command name selects add, delete, list or reset exactly when its lower-cased form is that word; anything else is unknown |
| AgentService.ToolCalls | PortProxyAgent/Services/AgentService.cs:49-61 | a command causes at most one netsh call, and none exactly when its name is unknown |
| AgentService.Interpret | PortProxyAgent/Services/AgentService.cs:34-43 | one outcome per branch: a decryption failure is refused with its message ("Message verification failed" for a forged or stale envelope), a parse error with the parser's message, a null command with "Failed to deserialize command"; a command that deserializes is accepted as that command |
| AgentService.SealedCommandAccepted | PortProxyAgent/Services/AgentService.cs:34-43 | a command sealed with the agent's secret, and read back by the JSON layer, is accepted as that command for five minutes |
| AgentService.ForgedEnvelopeAnswered | PortProxyAgent/Services/AgentService.cs:74-89 | a forged or stale envelope is answered with an unsuccessful response "Command processing error: Message verification failed" |
| AgentService.Agent.Dispatch | PortProxyAgent/Services/AgentService.cs:49-61 | the matching executor operation runs, adding exactly its netsh call to the history, and its response is returned unchanged: the add, delete, list or reset response the executor builds from that call's result; an unknown name gets "Unknown command: " and the name |
| AgentService.Agent.ProcessCommand | PortProxyAgent/Services/AgentService.cs:30-90 | the reply is the sealed serialization of the response; a refused envelope runs nothing and gets the error response; an accepted command runs exactly its netsh calls and its response is the executor's response to that call, or the unknown-command response |
| AgentService.Agent.GetStatus | PortProxyAgent/Services/AgentService.cs:92-108 | one "show all" call; online, version "1.0.0", uptime measured from the start time, and the active-rule count is the number of parsed rules, or 0 when listing failed |
| AgentController.Controller.ExecuteCommand | PortProxyAgent/Controllers/AgentController.cs:35-64 | without a secret: 500 "Agent not configured" and no netsh call; otherwise 200 with the sealed response; never 401, so a forged envelope gets 200 with a verification error and runs nothing |
| AgentController.Controller.ConfigureFailover | PortProxyAgent/Controllers/AgentController.cs:109-135 | 400 with every validation message exactly when the configuration has errors, nothing applied; a valid configuration is applied and answered 200 |
| AgentController.Controller.ManualFailover | PortProxyAgent/Controllers/AgentController.cs:169-187 | 200 exactly when failover is enabled and the rule listing succeeds, otherwise 500 "Manual failover failed" |
| AgentFailoverConfiguration.Default | PortProxyAgent/Models/FailoverConfiguration.cs:14-87 | a new configuration is disabled and not failed over, checks every 30 s with a 10 s timeout, has no mappings, zero failure counters and DateTime.MinValue as its last check |
| AgentFailoverConfiguration.GetValidationErrors | PortProxyAgent/Models/FailoverConfiguration.cs:107-130 | no errors when disabled; when enabled, each of the five messages is present exactly when its requirement is violated |
| AgentFailoverConfiguration.ValidIffNoErrors | PortProxyAgent/Models/FailoverConfiguration.cs:92-130 | IsValid holds exactly when GetValidationErrors is empty |
| AgentFailoverConfiguration.ErrorsFollowCheckOrder | PortProxyAgent/Models/FailoverConfiguration.cs:112-126 | every message is one of the five requirement messages, and any two come out in the order their requirements are checked, so none twice |
| FailoverService.CheckHealthEndpoint | PortProxyAgent/Services/FailoverService.cs:271-286 | a failed request reads as Dead; a body reads as its trimmed text when that is "Alive" or "Dead", and as Unknown otherwise |
| FailoverService.FailoverDecisionTable | PortProxyAgent/Services/FailoverService.cs:239-258 | a triggered failover always flips the side; the flag changes exactly when a failover is needed and the listing succeeds; Unknown or equal health never moves it; (Dead, Alive) ends on B and (Alive, Dead) on A |
| FailoverService.Increment32 | PortProxyAgent/Services/FailoverService.cs:230 | a failure counter below the 32-bit maximum goes up by one, and the maximum wraps to the minimum |
| FailoverService.DetermineTargetAddress | PortProxyAgent/Services/FailoverService.cs:367-384 | an address that is a key (its first entry) becomes that entry's B address when failing to B and stays when failing back; an address that is no key but some entry's value (the earliest such entry) stays when failing to B and becomes that entry's A address when failing back; an address in no entry stays |
| FailoverService.TargetIdempotent | PortProxyAgent/Services/FailoverService.cs:367-384 | when no address is both an A and a B address, remapping the target again in the same direction changes nothing |
| FailoverService.FailoverRoundTrip | PortProxyAgent/Services/FailoverService.cs:367-384 | with a one-to-one mapping, failing over and then back restores each A address, and failing back and then over restores each B address |
| FailoverService.ChainedMappingNotIdempotent | PortProxyAgent/Services/FailoverService.cs:370-373 | with a -> b and b -> c, a remaps to b and b to c, so a second pass moves the rule again |
| FailoverService.ArgumentsIgnoreId | PortProxyAgent/Services/FailoverService.cs:391-436 | the fresh command ids do not change the netsh arguments |
| FailoverService.UpdateRunShape | PortProxyAgent/Services/FailoverService.cs:386-449 | a rule update runs a v4tov4 delete of the listen endpoint, then on success an add to the new target, then on a failed add one add restoring the old target; it succeeds exactly when two commands ran |
| FailoverService.Remapped | PortProxyAgent/Services/FailoverService.cs:325-353 | after a pass in which every update worked, each rule keeps its position and fields except that its connect address is its target |
| FailoverService.RemapRunBounds | PortProxyAgent/Services/FailoverService.cs:325-353 | a pass changes at most the rules whose target differs, runs one to three commands for each of them and none for the others, and only appends to the history |
| FailoverService.SecondPassIdle | PortProxyAgent/Services/FailoverService.cs:325-353 | with separate A and B groups, a second pass in the same direction after a fully successful one has nothing to do and runs no command |
| FailoverService.PassHistory | PortProxyAgent/Services/FailoverService.cs:301-365 | a pass always starts with the listing; a failed listing is all it runs |
| FailoverService.Service.constructor | PortProxyAgent/Services/FailoverService.cs:20-30 | the service starts with the default configuration and no timer |
| FailoverService.Service.StopMonitoring | PortProxyAgent/Services/FailoverService.cs:177-195 | afterwards no timer runs |
| FailoverService.Service.StartMonitoring | PortProxyAgent/Services/FailoverService.cs:138-175 | a timer with the check interval starts only when enabled and none runs, and only when the period is one System.Threading.Timer accepts |
| FailoverService.Service.Configure | PortProxyAgent/Services/FailoverService.cs:32-61 | the configuration is stored as given and reported as applied; afterwards a timer runs exactly when it is enabled with an acceptable interval |
| FailoverService.Service.UpdateRuleTarget | PortProxyAgent/Services/FailoverService.cs:386-449 | the netsh calls made and the result are exactly those of UpdateRun |
| FailoverService.Service.RemapRules | PortProxyAgent/Services/FailoverService.cs:325-353 | the rules changed and the netsh calls made are exactly those of RemapRun |
| FailoverService.Service.RemapRule | PortProxyAgent/Services/FailoverService.cs:326-351 | one rule: the netsh calls made and the new count are exactly one step of RemapRun |
| FailoverService.Service.ExecuteFailover | PortProxyAgent/Services/FailoverService.cs:301-365 | it fails exactly when the listing fails, and then runs nothing more; otherwise every listed rule is processed and the pass is RemapRun over the parsed rules |
| FailoverService.Service.FailoverPass | PortProxyAgent/Services/FailoverService.cs:118 | a pass as its callers see it: it succeeds exactly when the listing does, and runs exactly the netsh calls of PassHistory |
| FailoverService.Service.ExecuteManualFailover | PortProxyAgent/Services/FailoverService.cs:100-136 | refused with nothing run when disabled; otherwise it runs one failover pass, succeeds exactly when the listing does, and only then records the requested side |
| FailoverService.Service.PerformHealthCheck | PortProxyAgent/Services/FailoverService.cs:197-258 | when disabled nothing changes; otherwise both health results, the time and the counters are recorded, the last error cleared, the flag moves as NextFailedOver says, and the netsh calls are one failover pass toward the live side exactly when a failover is needed, none otherwise |
| FailoverService.Service.GetStatus | PortProxyAgent/Services/FailoverService.cs:63-87 | one listing; the status copies the stored state, and the managed-rule count is the number of parsed rules, or 0 when the listing failed |
| Text.Trim | PortProxyAgent/Services/FailoverService.cs:278 | the result neither starts nor ends with white space, and it is empty exactly when the input is blank |
| Text.ToLower | PortProxyAgent/Services/AgentService.cs:49 | the same length, with each ASCII capital replaced by its small letter and every other character kept |
| Text.Join | PortProxyClient/Services/ValidationService.cs:47 | no parts join to "", and one part joins to itself |
| Text.JoinEmptyIff | PortProxyClient/Services/ValidationService.cs:47 | joining non-empty messages gives "" exactly when there are none |
| Text.Failures | PortProxyClient/Services/ValidationService.cs:25-45 | the validators' error list: at most one message per check |
| Text.FailuresFromChecks | PortProxyClient/Services/ValidationService.cs:25-45 | only the checks' own messages come out, and none at all exactly when no check failed |
| Text.FailuresPresentExactly | PortProxyClient/Services/ValidationService.cs:25-45 | with distinct messages, each is present exactly when its check failed |
| Text.FailuresInCheckOrder | PortProxyClient/Services/ValidationService.cs:25-45 | with distinct messages, any two come out in the order of their checks |
| Text.FailuresAppend | PortProxyClient/Services/ValidationService.cs:25-45 | two groups of checks made one after the other report the first group's messages, then the second's |
| Text.TryParseInt32 | PortProxyClient/Services/ValidationService.cs:11 | a parsed value lies in the 32-bit range, and "" does not parse |
| Text.BlankIsNotNumber | PortProxyClient/Services/ValidationService.cs:11 | a blank string does not parse as a number |
| Text.ParseIntOfNatToString | PortProxyClient/Services/ValidationService.cs:11 | a number that fits in 32 bits, written out in decimal, parses back to itself |
| Text.DigitsValueOfNatToString | PortProxyClient/Services/ValidationService.cs:11 | the digits of a number's decimal rendering have that number as their value |
| Clock.WholeUnits | PortProxyClient/Models/FailoverConfiguration.cs:261-266 | the cast of a non-negative span's total to int is the number of whole units it contains |
| Mappings.Lookup | PortProxyAgent/Services/FailoverService.cs:370-372 | there is no value exactly when no entry has the key, and a found value is paired with the key |
| Mappings.FirstWithValue | PortProxyAgent/Services/FailoverService.cs:376-380 | no entry exactly when no entry holds the value; otherwise the earliest entry holding it |
| Mappings.Put | PortProxyClient/Services/ServerService.cs:688 | an existing key keeps its position and the size; a new key is appended; other entries are untouched |
| Mappings.PutLookup | PortProxyClient/Services/ServerService.cs:688 | after the assignment the key reads back the new value and every other key reads back what it did before |
| Mappings.PutKeepsDistinctKeys | PortProxyClient/Services/ServerService.cs:688 | the assignment never creates a duplicate key |
| Protocols.ProtocolString | PortProxyClient/Models/PortForwardRule.cs:177 | the name is one of "v4tov4", "v4tov6", "v6tov4", "v6tov6", already in lower case |
| Protocols.ProtocolStringInjective | PortProxyClient/Models/PortForwardRule.cs:177 | different protocols have different names |
| ServerPairs.GetPartnerServerId | PortProxyClient/Models/ServerPair.cs:92-108 | there is a partner exactly when the pair contains the id (ignoring case); it is one of the two sides, and side B when the id names side A |
| ServerPairs.PartnerOfPartner | PortProxyClient/Models/ServerPair.cs:101-119 | in a pair with two different sides, the partner is the other side and its partner is the id again, up to case |
| ServerPairs.SameSidesAnswerB | PortProxyClient/Models/ServerPair.cs:101-108 | a pair whose sides coincide (which IsValid refuses) answers side B for either id |
| TargetServers.DisplayText | PortProxyClient/Models/TargetServer.cs:110 | the text is the name, " (", the DNS name and ")" |
| TargetServers.ResolvedAddress | PortProxyClient/Models/TargetServer.cs:112-114 | the resolved address when it is not blank, the DNS name otherwise |
| TargetServers.TagsText | PortProxyClient/Models/TargetServer.cs:120 | "None" without tags, otherwise all the tags joined with ", " |
| TargetServers.LocalhostNotBlank | PortProxyClient/Models/TargetServer.cs:130-141 | "localhost" in any case passes the blank check |
| TargetServers.LocalhostAccepted | PortProxyClient/Models/TargetServer.cs:130-141 | "localhost" in any case is a valid DNS name or address whatever the framework parsers say |
| Silos.CountConnected | PortProxyClient/Models/Silo.cs:99 | the number of positions holding a Connected agent, at most the number of agents |
| Silos.CountOffline | PortProxyClient/Models/Silo.cs:100 | the number of positions holding a Disconnected or Error agent, at most the number of agents |
| Silos.OnlineOfflineWithinTotal | PortProxyClient/Models/Silo.cs:98-100 | online and offline never exceed the total, and add up to it exactly when no agent is connecting |
| Silos.HealthPercentage | PortProxyClient/Models/Silo.cs:101 | between 0 and 100, 0 for an empty silo, and otherwise exactly online / total × 100 |
| Silos.PercentageThresholds | PortProxyClient/Models/Silo.cs:101-156 | for a non-empty silo, the percentage reaches a threshold exactly when online × 100 reaches threshold × total |
| Silos.UpdateHealthStatus | PortProxyClient/Models/Silo.cs:142-158 | only the status and check time change; an empty silo is Unknown with its old check time; otherwise Healthy from 90 % online, Degraded from 70 %, Unhealthy below, stamped with the current time |
| Silos.RoleText | PortProxyClient/Models/Silo.cs:104-109 | "ACTIVE" exactly for Active, "PASSIVE" exactly for Passive, "UNKNOWN" otherwise |
| ValidationService.RenderedPortValid | PortProxyClient/Services/ValidationService.cs:9-12 | every port number from 1 to 65535, written in decimal, is a valid port |
| ValidationService.BlankPortInvalid | PortProxyClient/Services/ValidationService.cs:9-12 | a blank port is never valid |
| ValidationService.FieldError | PortProxyClient/Services/ValidationService.cs:27-30 | one field gives at most one message, and none exactly when it is filled in and valid |
| ValidationService.ValidateRule | PortProxyClient/Services/ValidationService.cs:23-48 | the message is the collected messages joined with "; ", and it is empty exactly when both ports are valid and both addresses are address literals or localhost |
| ValidationService.RuleErrorsPerField | PortProxyClient/Services/ValidationService.cs:23-48 | each field contributes "required" exactly when blank and its range or address message exactly when filled in but invalid; at most four messages |
| ValidationService.RuleErrorsInCheckOrder | PortProxyClient/Services/ValidationService.cs:23-48 | every message is one of the eight, and any two come out in the order the checks are made: listen port, forward port, listen address, forward address |
| ClientRules.DisplayAddress | PortProxyClient/Models/PortForwardRule.cs:180-184 | the resolved address when it is not blank; otherwise the original DNS name exactly when the rule uses it and it is not blank; otherwise the forward address |
| ClientRules.ServerIdReadBack | PortProxyClient/Models/PortForwardRule.cs:208-219 | writing ServerId reads back the value, except that blanking an agent-era id falls back to the legacy id; no other field changes |
| ClientRules.ServerNameReadBack | PortProxyClient/Models/PortForwardRule.cs:222-233 | the same read-back for ServerName |
| ClientRules.ServerInfo | PortProxyClient/Models/PortForwardRule.cs:186-188 | the display address alone without a server name; otherwise the name, " (", exactly the display address, and ")" |
| ClientRules.TagsText | PortProxyClient/Models/PortForwardRule.cs:190 | empty without tags, otherwise all the tags joined with ", " |
| ClientRules.CategoryBadgeColor | PortProxyClient/Models/PortForwardRule.cs:192-200 | web, database, admin, api and monitoring (ignoring case) get #2196F3, #4CAF50, #FF9800, #9C27B0 and #607D8B; the grey #757575 exactly when the category is none of them |
| ClientRules.BadgeColorIgnoresCase | PortProxyClient/Models/PortForwardRule.cs:192 | categories differing only in case get the same colour |
| ClientRules.ShortDescription | PortProxyClient/Models/PortForwardRule.cs:202-204 | at most 50 characters; a description of up to 50 is kept; a longer one becomes its first 47 characters and "..." |
| ClientRules.ShortDescriptionIdempotent | PortProxyClient/Models/PortForwardRule.cs:202-204 | shortening a shortened description changes nothing |
| ClientRules.ServiceValidImpliesRuleValid | PortProxyClient/Models/PortForwardRule.cs:242-271 | a rule the validation service accepts and that has a description is valid |
| ClientRules.NewRuleInvalid | PortProxyClient/Models/PortForwardRule.cs:242-249 | a fresh rule, having no description, is never valid |
| ManagerRules.ValidIffServiceSilent | NetshPortForwardManager/Models/PortForwardRule.cs:74-94 | the manager's rule is valid exactly when the client's validation service reports nothing for its four fields |
| ManagerRules.HostNamesRefused | NetshPortForwardManager/Models/PortForwardRule.cs:87-94 | a forward address that is neither an address literal nor localhost makes the rule invalid |
| Dns.FirstIpv4 | PortProxyClient/Services/DnsService.cs:66 | nothing exactly when no address is IPv4; otherwise the text of the earliest IPv4 address |
| Dns.FreshResolution | PortProxyClient/Services/DnsService.cs:34-107 | "localhost" in any case is 127.0.0.1; an address literal is its canonical text; otherwise a failed lookup reports its message, and a lookup succeeds exactly when it returned an IPv4 address, which is then the answer, and fails with "No IPv4 address found" otherwise |
| Dns.Resolution | PortProxyClient/Services/DnsService.cs:17-107 | an entry younger than five minutes answers from the cache, which stays as it was; otherwise the fresh answer is given and cached under the exact name; no other entry changes |
| Dns.RepeatWithinTimeoutIsCached | PortProxyClient/Services/DnsService.cs:22-32 | a repeated query within five minutes of a fresh answer comes from the cache with the same verdict and address, whatever the lookup would now say |
| Dns.FailureIsCached | PortProxyClient/Services/DnsService.cs:83-92 | a lookup with no IPv4 address fails with "No IPv4 address found", and the failure keeps being answered for five minutes |
| Dns.DnsService.constructor | PortProxyClient/Services/DnsService.cs:14 | the cache starts empty |
| Dns.DnsService.ResolveDns | PortProxyClient/Services/DnsService.cs:17-107 | the answer and the new cache are those of Resolution |
| Dns.DnsService.CacheResult | PortProxyClient/Services/DnsService.cs:154-164 | the name's entry is replaced by the result's address and verdict stamped now |
| Dns.DnsService.ClearCache | PortProxyClient/Services/DnsService.cs:136-139 | the cache is empty afterwards |
| Dns.DnsService.ClearExpiredCache | PortProxyClient/Services/DnsService.cs:141-152 | exactly the entries five minutes old or more are removed; the others stay unchanged |
| Inventory.FirstWithKey | PortProxyClient/Services/ServerService.cs:93 | the position of the first element whose id is exactly the key, or nothing exactly when no element has it |
| Inventory.RemoveAt | PortProxyClient/Services/ServerService.cs:139 | the list without that element, the others in order |
| Inventory.AgentsInSilo | PortProxyClient/Services/ServerService.cs:152-155 | exactly the agents whose silo id is the given one |
| Inventory.AgentsInSiloCounts | PortProxyClient/Services/ServerService.cs:152-155 | each agent of the silo comes out as many times as it is listed, and no other agent comes out |
| Inventory.AgentsInSiloSnoc | PortProxyClient/Services/ServerService.cs:152-155 | the filter keeps list order: an agent listed last comes out last when it belongs to the silo, and adding one outside the silo changes nothing |
| Inventory.RefreshedSilos | PortProxyClient/Services/ServerService.cs:383-402 | every silo keeps its place and id; the first silo with the id gathers exactly its agents; no other silo changes; an unknown id changes nothing |
| Inventory.RefreshedSiloMembers | PortProxyClient/Services/ServerService.cs:383-402 | after a refresh the silo lists exactly its agents, keeps its id, name and role, and is Unknown exactly when it has none |
| Inventory.Overwritten | PortProxyClient/Services/ServerService.cs:100-108 | the editable fields come from the edit; id, live status, last-seen time, version and rule count are kept |
| Inventory.MovedAgentChangesSilo | PortProxyClient/Services/ServerService.cs:112-120 | an agent moved between two silos leaves the old silo's member list and appears in the new one's |
| Inventory.SameKeysSameFirst | PortProxyClient/Services/ServerService.cs:383-386 | lists with the same ids position by position find the same first match |
| Inventory.WithResolution | PortProxyClient/Services/ServerService.cs:219-226 | a successful resolution stores the address, the resolved flag and the check time; a failed one changes nothing |
| Inventory.EditedTarget | PortProxyClient/Services/ServerService.cs:244-250 | name, DNS name, description, environment and tags come from the edit; id, address, resolved flag and check time are kept |
| Inventory.ClearedAssignments | PortProxyClient/Services/ServerService.cs:364-370 | no agent keeps the silo's id; agents of other silos are unchanged; nothing but the silo id changes |
| Inventory.EditedSilo | PortProxyClient/Services/ServerService.cs:341-348 | the editable fields come from the edit; id, status, check time and members are kept |
| Inventory.AtMostOnePair | PortProxyClient/Services/ServerService.cs:592-594 | when pairs share no server, an id is in at most one pair |
| Inventory.FirstPairContaining | PortProxyClient/Services/ServerService.cs:671 | the first pair containing the id ignoring case, or nothing exactly when none does |
| Inventory.PairDescription | PortProxyClient/Services/ServerService.cs:601 | the given description, or the two server names joined by " ↔ " when it is empty |
| Inventory.CompletePair | PortProxyClient/Services/ServerService.cs:683-686 | a pair contributes addresses exactly when both its servers are still in the inventory |
| Inventory.Links | PortProxyClient/Services/ServerService.cs:681-690 | one entry per pair, in order |
| Inventory.AssignAll | PortProxyClient/Services/ServerService.cs:688 | the built mapping never has two entries for one address |
| Inventory.PairMappings | PortProxyClient/Services/ServerService.cs:677-693 | the mapping has no duplicate A address |
| Inventory.LastLinkFrom | PortProxyClient/Services/ServerService.cs:681-690 | the last complete pair whose A side has the address, or nothing when there is none |
| Inventory.AssignAllLastWins | PortProxyClient/Services/ServerService.cs:681-690 | an address maps to the B address of the last complete pair from it, or to nothing |
| Inventory.PairMappingsLastWins | PortProxyClient/Services/ServerService.cs:677-693 | an address maps to the B side of the last complete pair whose A side has it; later pairs overwrite earlier ones; incomplete pairs give nothing, so all-incomplete pairs give an empty mapping |
| Inventory.NoLinksNoMappings | PortProxyClient/Services/ServerService.cs:677-693 | with no complete pair the mapping is empty |
| Inventory.ServerService.constructor | PortProxyClient/Services/ServerService.cs:47-61 | all four lists start empty |
| Inventory.ServerService.AddAgentServer | PortProxyClient/Services/ServerService.cs:63-86 | refused exactly when the agent is invalid or its id is taken; otherwise appended and its silo refreshed; the other lists unchanged |
| Inventory.ServerService.UpdateAgentServer | PortProxyClient/Services/ServerService.cs:88-124 | refused exactly when the edit is invalid or no agent has the id; otherwise the first such agent is overwritten and the old silo (when it changed) and the new silo are refreshed, in that order |
| Inventory.ServerService.DeleteAgentServer | PortProxyClient/Services/ServerService.cs:126-145 | refused exactly when no agent has the id; otherwise the agent's silo is refreshed before the agent is removed, so that silo still lists the deleted agent |
| Inventory.ServerService.GetAgentServer | PortProxyClient/Services/ServerService.cs:147-150 | an agent exactly when one has the id, and then one of the list with that id |
| Inventory.ServerService.GetAgentServersBySilo | PortProxyClient/Services/ServerService.cs:152-155 | exactly the agents assigned to the silo, each as many times as it is listed |
| Inventory.ServerService.AddTargetServer | PortProxyClient/Services/ServerService.cs:204-233 | refused exactly when invalid or the id is taken; a target with no address but a DNS name is resolved first and keeps the address only on success; then it is appended |
| Inventory.ServerService.UpdateTargetServer | PortProxyClient/Services/ServerService.cs:235-268 | refused exactly when invalid or no target has the id; otherwise the target takes the edit and is re-resolved, keeping its previous address when resolution fails |
| Inventory.ServerService.DeleteTargetServer | PortProxyClient/Services/ServerService.cs:270-281 | the first target with the id is removed, or nothing changes when there is none; pairs naming it stay |
| Inventory.ServerService.GetTargetServer | PortProxyClient/Services/ServerService.cs:283-286 | a target exactly when one has the id, and then one of the list with that id |
| Inventory.ServerService.ResolveTargetAddress | PortProxyClient/Services/ServerService.cs:288-312 | "" for an unknown id; the stored address when there is one; otherwise the resolved address, which is stored, or the DNS name on failure; a non-blank answer is the target's resolved address afterwards |
| Inventory.ServerService.AddSilo | PortProxyClient/Services/ServerService.cs:314-331 | refused exactly when invalid or the id is taken; otherwise appended |
| Inventory.ServerService.UpdateSilo | PortProxyClient/Services/ServerService.cs:333-356 | refused exactly when invalid or no silo has the id; otherwise the first such silo takes the edited fields |
| Inventory.ServerService.DeleteSilo | PortProxyClient/Services/ServerService.cs:358-376 | refused exactly when no silo has the id; otherwise its agents are unassigned and the silo removed |
| Inventory.ServerService.GetSilo | PortProxyClient/Services/ServerService.cs:378-381 | a silo exactly when one has the id, and then one of the list with that id |
| Inventory.ServerService.UpdateSiloHealth | PortProxyClient/Services/ServerService.cs:383-402 | the silos become RefreshedSilos; nothing else changes |
| Inventory.ServerService.CreateServerPair | PortProxyClient/Services/ServerService.cs:580-616 | accepted exactly when both ids name target servers and neither is already in a pair; the new pair is appended; pairs sharing no server still share none afterwards |
| Inventory.ServerService.DeleteServerPair | PortProxyClient/Services/ServerService.cs:621-640 | the first pair with the id is removed, or nothing changes; disjoint pairs stay disjoint |
| Inventory.ServerService.GetServerPair | PortProxyClient/Services/ServerService.cs:669-672 | a pair that contains the id, or nothing exactly when no pair does |
| Inventory.ServerService.GetPairedServer | PortProxyClient/Services/ServerService.cs:645-656 | the first target whose id is the partner's in the first pair containing the id, whenever there is one; nothing when the partner was deleted |
| Inventory.ServerService.GetServerPairMappings | PortProxyClient/Services/ServerService.cs:677-693 | the mapping is PairMappings of the current pairs and targets |
| RuleMetadataStore.RuleKeys | PortProxyClient/Services/RuleMetadataService.cs:223 | exactly the keys of the given rules |
| RuleMetadataStore.KeyLayout | PortProxyClient/Services/RuleMetadataService.cs:36-46 | GenerateRuleKey's key is the agent, a ':', the lower-cased address, a ':' and the port, in that order |
| RuleMetadataStore.RuleKeyAgent | PortProxyClient/Services/RuleMetadataService.cs:50-54 | a rule without an agent is keyed under "local", any other under its agent id, so the agent part of a key is never blank |
| RuleMetadataStore.KeyIgnoresAddressCase | PortProxyClient/Services/RuleMetadataService.cs:36-46 | listen addresses differing only in case give the same key |
| RuleMetadataStore.FirstSeparator | PortProxyClient/Services/RuleMetadataService.cs:43 | the first ':' of a key follows the agent part when that part has none |
| RuleMetadataStore.LastSeparator | PortProxyClient/Services/RuleMetadataService.cs:43 | the last ':' of a key precedes the port when the port has none |
| RuleMetadataStore.KeyInjective | PortProxyClient/Services/RuleMetadataService.cs:36-55 | when agent ids and ports contain no ':', equal keys mean the same agent, the same port and the same address up to case, IPv6 addresses with ':' included |
| RuleMetadataStore.SameKeySameEndpoint | PortProxyClient/Services/RuleMetadataService.cs:50-54 | two rules share a key only with the same agent (blank counting as "local"), the same listen port and the same listen address up to case, when agent ids and ports contain no ':' |
| RuleMetadataStore.WithMetadata | PortProxyClient/Services/RuleMetadataService.cs:163-179 | copying metadata over a rule never changes its netsh fields, its agent or its key |
| RuleMetadataStore.ApplyAfterStore | PortProxyClient/Services/RuleMetadataService.cs:112-179 | applying what was stored for a rule gives the rule back, with the store time as its modification date |
| RuleMetadataStore.MetadataStore.constructor | PortProxyClient/Services/RuleMetadataService.cs:17-25 | the store starts empty and unsaved |
| RuleMetadataStore.MetadataStore.StoreRuleMetadata | PortProxyClient/Services/RuleMetadataService.cs:112-135 | the rule's key maps to its snapshot, other keys are untouched, and the dictionary is saved |
| RuleMetadataStore.MetadataStore.GetRuleMetadata | PortProxyClient/Services/RuleMetadataService.cs:140-144 | an entry exactly when the key built from the parts is stored, and then that entry |
| RuleMetadataStore.MetadataStore.GetMetadataFor | PortProxyClient/Services/RuleMetadataService.cs:149-153 | the lookup by the rule's parts, with "local" for a rule without an agent |
| RuleMetadataStore.MetadataStore.ApplyMetadataToRule | PortProxyClient/Services/RuleMetadataService.cs:158-184 | without an entry the rule is unchanged; with one, only the metadata fields are overwritten, never the netsh fields or the key |
| RuleMetadataStore.MetadataStore.RemoveRuleMetadataByKey | PortProxyClient/Services/RuleMetadataService.cs:201-208 | only that key goes, and a save follows exactly when it was there |
| RuleMetadataStore.MetadataStore.RemoveRuleMetadata | PortProxyClient/Services/RuleMetadataService.cs:189-196 | the rule's key goes, and a save follows exactly when it was there |
| RuleMetadataStore.MetadataStore.CleanupOrphanedMetadata | PortProxyClient/Services/RuleMetadataService.cs:221-237 | exactly the entries whose key belongs to no current rule are removed; every current rule's entry stays as it was; a save follows exactly when something was removed |
| RuleMetadataStore.MetadataStore.RemoveKeys | PortProxyClient/Services/RuleMetadataService.cs:226-231 | the entries under the given keys are removed and every other entry keeps its value; it reports a change exactly when some key was given; nothing is saved |
| ClientNetsh.CommandsMatchAgent | PortProxyClient/Services/NetshService.cs:45-68 | the client's add, delete, show and reset command lines for a rule are the ones the agent runs for the same rule |
| ClientNetsh.Candidate | PortProxyClient/Services/NetshService.cs:130-137 | the rule takes listen address, listen port, connect address and connect port from the first four fields, as v4tov4, with no description |
| ClientNetsh.ParseRuleLine | PortProxyClient/Services/NetshService.cs:112-145 | skipped and short lines give nothing; a rule is given only when it passes IsValid and is built from the line's fields |
| ClientNetsh.ParseRuleLineNeverYields | PortProxyClient/Services/NetshService.cs:130-139 | no line ever gives a rule, because the parsed rule has no description and IsValid requires one |
| ClientNetsh.ParsedRules | PortProxyClient/Services/NetshService.cs:28-39 | at most one rule per line, each valid |
| ClientNetsh.ParsedRulesEmpty | PortProxyClient/Services/NetshService.cs:17-43 | the parsed listing is always empty |
| ClientNetsh.NetshService.constructor | PortProxyClient/Services/NetshService.cs:10 | the service runs netsh through the given host |
| ClientNetsh.NetshService.GetAllRules | PortProxyClient/Services/NetshService.cs:12-15 | one "show all" call, whose result is returned |
| ClientNetsh.NetshService.ParseRules | PortProxyClient/Services/NetshService.cs:17-43 | one "show all" call; nothing when it failed, otherwise the lines parsed in order, which is always empty |
| ClientNetsh.NetshService.AddRule | PortProxyClient/Services/NetshService.cs:45-54 | exactly the add command line for the rule is run and its result returned |
| ClientNetsh.NetshService.DeleteRule | PortProxyClient/Services/NetshService.cs:56-63 | exactly the delete command line for the rule is run and its result returned |
| ClientNetsh.NetshService.ResetAllRules | PortProxyClient/Services/NetshService.cs:65-68 | exactly the reset command line is run and its result returned |
| ClientFailover.Default | PortProxyClient/Models/FailoverConfiguration.cs:14-19 | a new configuration is disabled, without URLs or mappings, checking every 30 s with a 10 s timeout |
| ClientFailover.WithServerMappings | PortProxyClient/Models/FailoverConfiguration.cs:96-104 | a missing dictionary is stored as an empty one, a given one as it is; nothing else changes |
| ClientFailover.GetValidationErrors | PortProxyClient/Models/FailoverConfiguration.cs:124-147 | no errors when disabled, at most five otherwise |
| ClientFailover.ToAgent | PortProxyClient/Models/FailoverConfiguration.cs:14-19 | the agent receives the client's six settings unchanged |
| ClientFailover.SameValidationAsAgent | PortProxyClient/Models/FailoverConfiguration.cs:109-147 | the client's verdict and messages, in order, are the agent's for the same settings, and valid means no errors |
| ClientFailover.StatusText | PortProxyClient/Models/FailoverConfiguration.cs:219-234 | "Disabled" exactly when disabled; otherwise "Error: " and a pending error; otherwise the failed-over text exactly when failed over and the normal text exactly when not |
| ClientFailover.HealthSummary | PortProxyClient/Models/FailoverConfiguration.cs:239-248 | "Not monitoring" when disabled, otherwise both health results |
| ClientFailover.LastCheckText | PortProxyClient/Models/FailoverConfiguration.cs:253-270 | "Never" exactly for the minimum date; "Just now" under a minute, a future stamp included; then 1-59 whole minutes, 1-23 whole hours, or whole days |
| ClientFailover.AgoText | PortProxyClient/Models/FailoverConfiguration.cs:264-268 | the count followed by the unit |
| SiloFailoverConfig.Default | PortProxyClient/Models/FailoverConfig.cs:13-19 | manual mode, 30 s checks, 3 failures, 80 % health, 30 min cooldown, disabled, never failed over |
| SiloFailoverConfig.ModeText | PortProxyClient/Models/FailoverConfig.cs:136-141 | "Manual" and "Automatic" exactly for those modes, "Unknown" exactly for any other value |
| SiloFailoverConfig.LastFailoverTextMatchesLastCheckText | PortProxyClient/Models/FailoverConfig.cs:143-160 | although it checks the units in the opposite order, the failover text reads the same as the status's last-check text for the same time |
| SiloFailoverConfig.CooldownRemaining | PortProxyClient/Models/FailoverConfig.cs:162-167 | never negative; positive exactly during the cooldown, and then the time left until it ends |
| SiloFailoverConfig.NoCooldownWithoutFailover | PortProxyClient/Models/FailoverConfig.cs:162-163 | a policy that never failed over, or with no cooldown after a past failover, is not cooling down |
| SiloFailoverConfig.DefaultNeedsOnlyNames | PortProxyClient/Models/FailoverConfig.cs:169-180 | the defaults pass every numeric check, so a default policy is valid exactly when its id, name and two distinct silos are given; the bare default is invalid |
| FailoverForm.FormErrors | PortProxyClient/ViewModels/FailoverConfigurationViewModel.cs:204-230 | nothing when disabled; at most six non-empty messages; none exactly when the form is disabled or meets all six requirements |
| FailoverForm.ErrorsPresentExactly | PortProxyClient/ViewModels/FailoverConfigurationViewModel.cs:214-230 | when enabled, each of the six messages is present exactly when its condition holds (blank URL A, blank URL B, interval not positive, timeout not positive, interval not above the timeout, no server pairs) |
| FailoverForm.ErrorsInCheckOrder | PortProxyClient/ViewModels/FailoverConfigurationViewModel.cs:214-230 | any two messages come out in the order the form checks their conditions |
| FailoverForm.FormMessage | PortProxyClient/ViewModels/FailoverConfigurationViewModel.cs:204-232 | the message is the form's errors joined with "; ", and it is empty exactly when the form is disabled or meets all six requirements |
| FailoverForm.FormStricterThanConfiguration | PortProxyClient/ViewModels/FailoverConfigurationViewModel.cs:204-232 | whatever the form accepts, once it carries a mapping, is a valid configuration; a 10 s interval with a 10 s timeout is valid for the configuration and the agent yet refused by the form |
| FailoverForm.FailoverConfigurationViewModel.constructor | PortProxyClient/ViewModels/FailoverConfigurationViewModel.cs:24-33 | the form starts on the default settings with no message, loading |
| FailoverForm.FailoverConfigurationViewModel.ValidateConfiguration | PortProxyClient/ViewModels/FailoverConfigurationViewModel.cs:204-232 | the message becomes the form's message for the current settings and pair count; nothing else changes |
| FailoverForm.FailoverConfigurationViewModel.SetEnabled | PortProxyClient/ViewModels/FailoverConfigurationViewModel.cs:40-49 | the flag is stored and the message re-computed |
| FailoverForm.FailoverConfigurationViewModel.SetHealthUrlA | PortProxyClient/ViewModels/FailoverConfigurationViewModel.cs:51-60 | URL A is stored and the message re-computed |
| FailoverForm.FailoverConfigurationViewModel.SetHealthUrlB | PortProxyClient/ViewModels/FailoverConfigurationViewModel.cs:62-71 | URL B is stored and the message re-computed |
| FailoverForm.FailoverConfigurationViewModel.SetCheckIntervalSeconds | PortProxyClient/ViewModels/FailoverConfigurationViewModel.cs:73-82 | the interval is stored and the message re-computed |
| FailoverForm.FailoverConfigurationViewModel.SetTimeoutSeconds | PortProxyClient/ViewModels/FailoverConfigurationViewModel.cs:84-93 | the timeout is stored and the message re-computed |
| FailoverForm.FailoverConfigurationViewModel.SaveConfiguration | PortProxyClient/ViewModels/FailoverConfigurationViewModel.cs:132-171 | nothing is sent unless the form can save; otherwise the server pairs' mapping replaces the mappings, that configuration is sent, success is reported exactly when the agent accepts, the message names a refusal or an exception, and saving ends |
| FailoverForm.FailoverConfigurationViewModel.LoadConfiguration | PortProxyClient/ViewModels/FailoverConfigurationViewModel.cs:178-201 | a status sets the flag and the interval and re-validates; no status changes nothing; an exception is reported; loading ends either way |
| CommandPreview.CommandLine | PortProxyClient/ViewModels/AddEditRuleViewModel.cs:315-329 | the previewed line is "netsh " followed by exactly the arguments the agent runs to add that rule, and is never the placeholder |
| CommandPreview.Preview | PortProxyClient/ViewModels/AddEditRuleViewModel.cs:315-329 | the placeholder exactly when one of the four endpoint fields is blank, otherwise the command line |
| ClientRuleForm.TrimmedTags | PortProxyClient/ViewModels/AddEditRuleViewModel.cs:270-281 | no more tags than pieces, each non-empty, trimmed and without a comma |
| ClientRuleForm.ParseTags | PortProxyClient/ViewModels/AddEditRuleViewModel.cs:270-281 | blank text gives no tags; every tag parsed is non-empty, trimmed and comma-free |
| ClientRuleForm.TagsRoundTrip | PortProxyClient/ViewModels/AddEditRuleViewModel.cs:35 | the tags text the form opens with parses back to the rule's tags, whenever each is a tag the form could produce |
| ClientRuleForm.TagsNormalForm | PortProxyClient/ViewModels/AddEditRuleViewModel.cs:270-281 | formatting parsed tags and parsing again gives the same tags |
| ClientRuleForm.RuleTagsTextParsesBack | PortProxyClient/Models/PortForwardRule.cs:190 | a rule's tags text reads back through the form's tag parser as the rule's tags |
| ClientRuleForm.TargetTagsTextParsesBack | PortProxyClient/Models/TargetServer.cs:120 | a tagged target's tags text reads back as its tags; an untagged target's "None" would read back as the single tag "None" |
| ClientRuleForm.FormErrors | PortProxyClient/ViewModels/AddEditRuleViewModel.cs:283-313 | at most seven non-empty messages, none exactly when every check passes |
| ClientRuleForm.ErrorsPresentExactly | PortProxyClient/ViewModels/AddEditRuleViewModel.cs:287-310 | each of the seven messages is present exactly when its check fails (no description, no agent, no target, listen port, forward port, listen address, forward address) |
| ClientRuleForm.ErrorsInCheckOrder | PortProxyClient/ViewModels/AddEditRuleViewModel.cs:287-310 | any two messages come out in the order the form makes their checks |
| ClientRuleForm.FormMessage | PortProxyClient/ViewModels/AddEditRuleViewModel.cs:283-313 | the message is the form's errors joined with "; ", and it is empty exactly when the rule has a description, both servers are chosen, both ports are in range and both addresses are literal or localhost |
| ClientRuleForm.AcceptedRuleIsValid | PortProxyClient/ViewModels/AddEditRuleViewModel.cs:283-313 | a rule the form accepts is a valid client rule and passes the validation service |
| ClientRuleForm.TargetAddress | PortProxyClient/ViewModels/AddEditRuleViewModel.cs:216-229 | a resolved target fills in its address, an unresolved one its DNS name |
| ClientRuleForm.UnresolvedHostTargetRefused | PortProxyClient/ViewModels/AddEditRuleViewModel.cs:216-313 | choosing an unresolved target known by a host name makes the form refuse the rule |
| ClientRuleForm.WithSelection | PortProxyClient/ViewModels/AddEditRuleViewModel.cs:235-268 | the agent and target fields follow the selection, empty without one; the legacy id and name read back the agent's; DNS use follows the target's DNS name; every other field is kept |
| ClientRuleForm.CloneRule | PortProxyClient/ViewModels/AddEditRuleViewModel.cs:352-381 | the copy agrees with the original on every field and on ServerId and ServerName, except that it is modified now and keeps legacy values only where the agent fields are blank |
| ClientRuleForm.BlankRule | PortProxyClient/ViewModels/AddEditRuleViewModel.cs:26-32 | a new rule listens on 0.0.0.0, V4ToV4, with empty description, category, tags and server ids |
| ClientRuleForm.AddEditRuleViewModel.constructor | PortProxyClient/ViewModels/AddEditRuleViewModel.cs:23-61 | the form works on a copy of the rule or a blank one, shows its tags joined with ", ", preselects the servers the rule names when the inventory is at hand, and shows the current preview with no message |
| ClientRuleForm.AddEditRuleViewModel.UpdatePreviewCommand | PortProxyClient/ViewModels/AddEditRuleViewModel.cs:315-329 | the preview becomes the one for the current rule; nothing else changes |
| ClientRuleForm.AddEditRuleViewModel.ValidateInput | PortProxyClient/ViewModels/AddEditRuleViewModel.cs:283-313 | the message becomes the form's message for the current rule and selection; nothing else changes |
| ClientRuleForm.AddEditRuleViewModel.SetListenPort | PortProxyClient/ViewModels/AddEditRuleViewModel.cs:65-75 | the field is stored, and the preview and message are current |
| ClientRuleForm.AddEditRuleViewModel.SetListenAddress | PortProxyClient/ViewModels/AddEditRuleViewModel.cs:77-87 | the field is stored, and the preview and message are current |
| ClientRuleForm.AddEditRuleViewModel.SetForwardPort | PortProxyClient/ViewModels/AddEditRuleViewModel.cs:89-99 | the field is stored, and the preview and message are current |
| ClientRuleForm.AddEditRuleViewModel.SetForwardAddress | PortProxyClient/ViewModels/AddEditRuleViewModel.cs:101-111 | the field is stored, and the preview and message are current |
| ClientRuleForm.AddEditRuleViewModel.SetProtocol | PortProxyClient/ViewModels/AddEditRuleViewModel.cs:113-122 | the protocol is stored and only the preview is refreshed |
| ClientRuleForm.AddEditRuleViewModel.SetDescription | PortProxyClient/ViewModels/AddEditRuleViewModel.cs:146-155 | the description is stored and the message re-computed |
| ClientRuleForm.AddEditRuleViewModel.SetCategory | PortProxyClient/ViewModels/AddEditRuleViewModel.cs:157-165 | the category is stored and nothing else changes |
| ClientRuleForm.AddEditRuleViewModel.SetTagsText | PortProxyClient/ViewModels/AddEditRuleViewModel.cs:167-176 | the text is kept as typed and the rule's tags become the tags parsed from it |
| ClientRuleForm.AddEditRuleViewModel.UpdateTagsFromText | PortProxyClient/ViewModels/AddEditRuleViewModel.cs:270-281 | the rule's tags become the tags parsed from the text |
| ClientRuleForm.AddEditRuleViewModel.SetSelectedAgent | PortProxyClient/ViewModels/AddEditRuleViewModel.cs:182-191 | the agent is selected and the message re-computed |
| ClientRuleForm.AddEditRuleViewModel.SetSelectedTarget | PortProxyClient/ViewModels/AddEditRuleViewModel.cs:193-202 | the target is selected, its address fills in the forward address, and the preview and message are current |
| ClientRuleForm.AddEditRuleViewModel.OnTargetServerSelectionChanged | PortProxyClient/ViewModels/AddEditRuleViewModel.cs:216-233 | a selected target's address or DNS name becomes the forward address; the preview and message are current |
| ClientRuleForm.AddEditRuleViewModel.UpdateRuleFromServerSelection | PortProxyClient/ViewModels/AddEditRuleViewModel.cs:235-268 | the rule takes its server fields from the selection |
| ClientRuleForm.AddEditRuleViewModel.ValidateAndSave | PortProxyClient/ViewModels/AddEditRuleViewModel.cs:206-214 | the rule takes the selection and is saved exactly when the form accepts it; a saved rule is valid and names the chosen agent and target |
| ManagerRuleForm.FormErrors | NetshPortForwardManager/ViewModels/AddEditRuleViewModel.cs:115-132 | at most four non-empty messages, none exactly when the rule is valid |
| ManagerRuleForm.ErrorsPresentExactly | NetshPortForwardManager/ViewModels/AddEditRuleViewModel.cs:117-129 | each of the four messages is present exactly when its field is invalid |
| ManagerRuleForm.ErrorsInCheckOrder | NetshPortForwardManager/ViewModels/AddEditRuleViewModel.cs:117-129 | any two messages come out in the order the form checks: listen port, forward port, listen address, forward address |
| ManagerRuleForm.FormMessage | NetshPortForwardManager/ViewModels/AddEditRuleViewModel.cs:115-132 | the message is the form's errors joined with "; ", and it is empty exactly when the rule is valid |
| ManagerRuleForm.FilledFormMatchesService | NetshPortForwardManager/ViewModels/AddEditRuleViewModel.cs:115-132 | with the four fields filled in, the manager's form reports exactly what the client's validation service reports |
| ManagerRuleForm.CloneRule | NetshPortForwardManager/ViewModels/AddEditRuleViewModel.cs:169-179 | the copy equals the original |
| ManagerRuleForm.BlankRule | NetshPortForwardManager/ViewModels/AddEditRuleViewModel.cs:17-21 | a new rule listens on 0.0.0.0, V4ToV4, with empty ports and forward address |
| ManagerRuleForm.AddEditRuleViewModel.constructor | NetshPortForwardManager/ViewModels/AddEditRuleViewModel.cs:15-25 | the form works on a copy of the rule or a blank one and shows its preview with no message |
| ManagerRuleForm.AddEditRuleViewModel.UpdatePreviewCommand | NetshPortForwardManager/ViewModels/AddEditRuleViewModel.cs:134-148 | the preview becomes the one for the current rule; nothing else changes |
| ManagerRuleForm.AddEditRuleViewModel.ValidateInput | NetshPortForwardManager/ViewModels/AddEditRuleViewModel.cs:115-132 | the message becomes the form's message for the current rule; nothing else changes |
| ManagerRuleForm.AddEditRuleViewModel.SetListenPort | NetshPortForwardManager/ViewModels/AddEditRuleViewModel.cs:29-39 | the field is stored, and the preview and message are current |
| ManagerRuleForm.AddEditRuleViewModel.SetListenAddress | NetshPortForwardManager/ViewModels/AddEditRuleViewModel.cs:41-51 | the field is stored, and the preview and message are current |
| ManagerRuleForm.AddEditRuleViewModel.SetForwardPort | NetshPortForwardManager/ViewModels/AddEditRuleViewModel.cs:53-63 | the field is stored, and the preview and message are current |
| ManagerRuleForm.AddEditRuleViewModel.SetForwardAddress | NetshPortForwardManager/ViewModels/AddEditRuleViewModel.cs:65-75 | the field is stored, and the preview and message are current |
| ManagerRuleForm.AddEditRuleViewModel.SetProtocol | NetshPortForwardManager/ViewModels/AddEditRuleViewModel.cs:77-86 | the protocol is stored and only the preview is refreshed |
| ManagerRuleForm.AddEditRuleViewModel.ValidateAndSave | NetshPortForwardManager/ViewModels/AddEditRuleViewModel.cs:109-113 | the form re-validates and saves exactly a valid rule |
| RuleCollection.ImportInto | PortProxyClient/ViewModels/MainViewModel.cs:499-512 | the list only grows: it starts with the old list and gains at most one rule per imported rule |
| RuleCollection.HasKeyInExtension | PortProxyClient/ViewModels/MainViewModel.cs:503-506 | an endpoint already taken stays taken as the import appends |
| RuleCollection.ImportAddsOnlyNew | PortProxyClient/ViewModels/MainViewModel.cs:499-512 | every appended rule is an imported one whose endpoint was free before the import |
| RuleCollection.ImportCoversIncoming | PortProxyClient/ViewModels/MainViewModel.cs:499-512 | after the import every imported endpoint is taken |
| RuleCollection.ImportKeepsKeysDistinct | NetshPortForwardManager/ViewModels/MainViewModel.cs:262-274 | a list without duplicate endpoints keeps none after the import |
| RuleCollection.ImportOfPresentKeys | NetshPortForwardManager/ViewModels/MainViewModel.cs:262-274 | importing only endpoints already taken changes nothing |
| RuleCollection.ImportTwiceAddsNothing | NetshPortForwardManager/ViewModels/MainViewModel.cs:262-274 | importing the same rules a second time adds nothing |
| RuleCollection.RemoveFirst | PortProxyClient/ViewModels/MainViewModel.cs:377 | a list without the element comes back unchanged |
| RuleCollection.RemoveFirstAt | PortProxyClient/ViewModels/MainViewModel.cs:377 | when the element first occurs at some position, exactly that occurrence is taken out and the elements before and after it keep their order |
| RuleCollection.RemoveFirstTakesOne | NetshPortForwardManager/ViewModels/MainViewModel.cs:170 | removing takes exactly one occurrence away, as multisets and by length |
| ClientMain.ParseProtocolFromString | PortProxyClient/ViewModels/MainViewModel.cs:595-605 | compared without letter case, each protocol name and the ipv4 and ipv6 aliases give their protocol, anything else or nothing gives v4tov4 |
| ClientMain.ProtocolNameRoundTrip | PortProxyClient/ViewModels/MainViewModel.cs:595-605 | each protocol's own name parses back to it |
| ClientMain.ParseProtocolIgnoresCase | PortProxyClient/ViewModels/MainViewModel.cs:595-605 | names differing only in letter case parse alike |
| ClientMain.AgentRule | PortProxyClient/ViewModels/MainViewModel.cs:231-243 | a listed rule carries the agent's id and name and the placeholder description and category |
| ClientMain.AgentRuleRoundTrip | PortProxyClient/ViewModels/MainViewModel.cs:229-243 | a listed rule with a canonical protocol name converts into a client rule that goes back to the agent as the same rule |
| ClientMain.FromAgent | PortProxyClient/ViewModels/MainViewModel.cs:226-250 | one converted rule per listed rule, in order, keeping its endpoints, parsed protocol and the agent's id whatever the metadata says |
| ClientMain.FromAgents | PortProxyClient/ViewModels/MainViewModel.cs:219-256 | every loaded rule belongs to one of the agents asked; if no listing succeeds nothing is loaded |
| ClientMain.FromAgentsAppend | PortProxyClient/ViewModels/MainViewModel.cs:219-256 | loading two lists of agents gives the two loads one after the other |
| ClientMain.FromAgentsBlock | PortProxyClient/ViewModels/MainViewModel.cs:219-256 | each agent's converted listing appears whole, in listing order, between the rules of the agents before and after it; a failed listing contributes nothing |
| ClientMain.ConnectedAgents | PortProxyClient/ViewModels/MainViewModel.cs:218 | exactly the connected agents, no more than were given |
| ClientMain.ConnectedAgentsAppend | PortProxyClient/ViewModels/MainViewModel.cs:218 | the filter keeps order: the connected agents of two lists are those of each, in sequence |
| ClientMain.LoadedRulesBelongToConnectedAgents | PortProxyClient/ViewModels/MainViewModel.cs:217-256 | every rule loaded from the agents belongs to a connected agent |
| ClientMain.MainViewModel.constructor | PortProxyClient/ViewModels/MainViewModel.cs:28-37 | the window starts with no rules, no selection and the "Initializing..." status |
| ClientMain.MainViewModel.WithStoredMetadata | PortProxyClient/ViewModels/MainViewModel.cs:202-208 | each local rule, in order, gets the metadata stored for it |
| ClientMain.MainViewModel.RulesOfAgent | PortProxyClient/ViewModels/MainViewModel.cs:229-249 | one agent's listing becomes its converted rules with their stored metadata, in order |
| ClientMain.MainViewModel.LoadAgentRules | PortProxyClient/ViewModels/MainViewModel.cs:217-256 | the connected agents' rules, agent by agent, with the status naming the last agent asked; the list itself is untouched |
| ClientMain.MainViewModel.LoadRules | PortProxyClient/ViewModels/MainViewModel.cs:179-288 | the netsh listing is asked for (and parsed on success); the list becomes the connected agents' rules with their metadata; orphaned metadata is dropped only when some rule was loaded; the status reports the count or that none were found |
| ClientMain.MainViewModel.LoadLocalRules | PortProxyClient/ViewModels/MainViewModel.cs:196-215 | the listing is asked for once, and once more only when it succeeded; no local rule results; the list and the selection are untouched |
| ClientMain.MainViewModel.AddRule | PortProxyClient/ViewModels/MainViewModel.cs:290-356 | an agent rule goes to its agent, a local one to netsh; success exactly when the agent is known and accepts, or netsh succeeds; only then is the rule appended and its metadata stored and saved; the status says which |
| ClientMain.MainViewModel.DeleteRule | PortProxyClient/ViewModels/MainViewModel.cs:358-425 | routed like an add; only on success is the rule's first occurrence removed, its metadata dropped and a selection of it cleared |
| ClientMain.MainViewModel.ForgetRule | PortProxyClient/ViewModels/MainViewModel.cs:404-408 | the rule's metadata entry is removed, its first occurrence leaves the list, and a selection of it is cleared |
| ClientMain.MainViewModel.ResetAllRules | PortProxyClient/ViewModels/MainViewModel.cs:427-453 | netsh is reset; on success the whole list, agent rules included, and the selection are cleared |
| ClientMain.MainViewModel.ImportRules | PortProxyClient/ViewModels/MainViewModel.cs:481-522 | a failed read changes nothing; otherwise the list, emptied first when replacing, takes each imported rule whose listen endpoint is free, and the count is the number appended |
| ManagerMain.MainViewModel.constructor | NetshPortForwardManager/ViewModels/MainViewModel.cs:20-28 | the window starts with no rules, no selection and the "Initializing..." status |
| ManagerMain.MainViewModel.LoadRules | NetshPortForwardManager/ViewModels/MainViewModel.cs:104-133 | a failed listing leaves the list alone and reports the error; otherwise the list becomes the parsed rules in order |
| ManagerMain.MainViewModel.AddRule | NetshPortForwardManager/ViewModels/MainViewModel.cs:135-159 | success exactly when netsh succeeds, and only then is the rule appended |
| ManagerMain.MainViewModel.DeleteRule | NetshPortForwardManager/ViewModels/MainViewModel.cs:161-188 | success exactly when netsh succeeds, and only then is the rule's first occurrence removed and a selection of it cleared |
| ManagerMain.MainViewModel.ResetAllRules | NetshPortForwardManager/ViewModels/MainViewModel.cs:190-215 | success exactly when netsh succeeds, and only then are the list and the selection cleared |
| ManagerMain.MainViewModel.ImportRules | NetshPortForwardManager/ViewModels/MainViewModel.cs:243-284 | a failed read changes nothing; otherwise the list, emptied first when replacing, takes each imported rule whose listen endpoint is free, and the count is the number appended |
| ManagerMain.ImportedListenEndpointsDistinct | NetshPortForwardManager/ViewModels/MainViewModel.cs:262-274 | after importing into a list without duplicate endpoints there are still none, every imported endpoint is present, and a second import adds nothing |
| AgentService.Agent.constructor | PortProxyAgent/Services/AgentService.cs:17-28 | the service runs commands through the given executor and remembers when it started |
| AgentController.Controller.constructor | PortProxyAgent/Controllers/AgentController.cs:19-27 | the controller serves the given agent service with the configured secret key |
| NetshExecutor.Executor.constructor | PortProxyAgent/Services/NetshExecutor.cs:14-17 | the executor runs every command through the given netsh tool |

## Left out

- Cryptography: AES-CBC with PKCS7, PBKDF2 key derivation, HMAC-SHA256, base64 and random IVs are the fields of an `Envelope.Primitives` value. The round trip assumes, as a precondition, that decryption inverts encryption.
- Envelope.TamperedMessageRejected: assumes `Envelope.CollisionFree`, that UTF-8 encoding, HMAC-SHA256 under each key, base64 and the "O" date format are all injective. HMAC is not injective, so this is an idealisation standing for "no collision is found". The lemma covers a change to one field only: moving characters between the ciphertext and the IV keeps the tag (`Envelope.ShiftedBoundaryAccepted`).
- RuleMetadataStore.GenerateRuleKey: the default argument `agentServerId = "local"` and the null fallbacks "0.0.0.0", "0" and "local" are not modelled, because strings are never null in the model and every caller passes an agent.
- Process execution: running `netsh.exe` is the `NetshTool.Host` answer function. Its exit code, its standard-error text and a process that fails to start are folded into one success flag and one error text.
- NetshPortForwardManager/Services/NetshService.cs is not part of this model. What the manager's netsh service answers is passed as a `ToolResult`, and what it parses is passed as a rule list.
- HTTP and the network:
  - the health probe's HTTP GET and its timeout become a `Probe` value;
  - the agents' answers (AgentCommunicationService) become the `AgentReply`, `SaveOutcome`, `LoadOutcome` and list-rules parameters;
  - DNS lookups become a `LookupOutcome`;
  - DnsService.TestConnectivityAsync (an ICMP ping) and ResolveBatchAsync (concurrent lookups) are network and concurrency code and are not modelled.
- Files and JSON: loading and saving the inventory, the metadata store, the failover configuration and the rule import file are not modelled. The metadata store records each save as the saved dictionary appended to a `saves` history. The import file's content is a `Result` parameter.
- Timers, locks and background services: the failover timer, its lock object, AgentBackgroundService, FailoverBackgroundService, the registration and update services, and Program.cs are not modelled. A timer tick is a call to `FailoverService.Service.PerformHealthCheck`. The timer itself is the service's `timer` field, which is set while monitoring.
- Exceptions: the catch-all branches that log and report "Internal server error" or an exception's message are left out wherever the modelled code cannot throw. Where the source turns a failure into a value (a dead probe, a refused envelope, a failed listing), that path is modelled.
- Null values: optional values are `Option`. Strings and collections that the source null-checks but that are never null along the modelled paths are plain values.
- Object identity:
  - RuleCollection.RemoveFirst: Collection.Remove finds the rule by reference; the model finds the first equal rule.
  - ClientMain.MainViewModel.DeleteRule and ClientMain.MainViewModel.ForgetRule: the source removes the rule by reference and clears the selection when it is that same object; the model compares rules by value, so an equal copy elsewhere in the list counts as the rule.
  - ManagerMain.MainViewModel.DeleteRule: the manager's PortForwardRule is a class (NetshPortForwardManager/Models/PortForwardRule.cs:7). `Rules.Remove(rule)` and `SelectedRule == rule` (NetshPortForwardManager/ViewModels/MainViewModel.cs:170-172) compare references; the model removes the first equal rule and clears a selection equal to it, so an equal but distinct rule object counts as the rule.
  - Inventory.ServerService: agents, targets, silos and pairs are values, so an in-place field update is an element replacement. A silo's member list holds copies, not references.
- Floating point: Silos.HealthPercentage is an exact `real` rather than a `double`. The Healthy and Degraded thresholds are compared exactly. The failover policy's health threshold is bounds-checked only.
- Clock: time is an integer tick count, and `DateTime.MinValue` is 0. SiloFailoverConfig.CooldownRemaining does not model the exception `DateTime` throws when adding the cooldown goes past its largest value.
- ClientFailover.LastCheckText: takes one clock for the stamp and for `now`. The agent stamps LastHealthCheck with DateTime.UtcNow (PortProxyAgent/Services/FailoverService.cs:221), but the client subtracts it from the local DateTime.Now (PortProxyClient/Models/FailoverConfiguration.cs:260), so outside UTC the text is off by the local offset: at UTC+2 a check made a moment ago reads "2 hours ago". The model does not capture that offset.
- ClientRules.ShortDescription: counts Dafny characters (Unicode scalar values), while `Description.Length` and `Substring(0, 47)` (PortProxyClient/Models/PortForwardRule.cs:202-203) count UTF-16 code units. A description with characters outside the Basic Multilingual Plane is therefore cut at a different place, and the source can even split a surrogate pair; the model does not capture that.
- Text: ToLowerInvariant and OrdinalIgnoreCase comparisons fold ASCII letters only. Whitespace is the exact set that `char.IsWhiteSpace` accepts.
- User interface: property-change events, commands, dialogs, message boxes, window titles, visibility flags, the rule count text and the filtered rule view are not modelled. Neither are the transient status texts a method overwrites before it returns ("Loading rules...", "Adding rule...").
- The manager's debug-only sample rules (AddTestRules) and the administrator-role check in the client's LoadRulesAsync are not modelled.
- Logging, including the diagnostic writes in the view models, is not modelled.
- AgentService's failover pass-throughs (ConfigureFailoverAsync, GetFailoverStatusAsync, ExecuteManualFailoverAsync) only add an exception guard. `AgentController.Controller` calls the failover service directly.
- The controller's GetStatus, Ping and GetFailoverStatus endpoints only wrap a call in `Ok`. The status itself is `AgentService.Agent.GetStatus` and `FailoverService.Service.GetStatus`.
- PortProxyClient/Models/AgentServer.cs display properties (icons, colours, "last seen" text) are not modelled. Its URL check is the `isHttpUrl` parser.
- ServerManagementViewModel and the other views are not modelled. Their pairing operations are the ServerService methods.

## Where the code and its description differ

In each case the model follows the code.

- Agent failover reports success even when rules fail. ExecuteFailoverAsync answers true even when every per-rule update failed, so the failed-over flag flips anyway (`FailoverService.Service.ExecuteFailover`).
- The remap deletes with the wrong protocol. It deletes each rule with the command's default protocol "v4tov4", not the rule's own protocol (`FailoverService.ArgumentsIgnoreId`, `FailoverService.Service.UpdateRuleTarget`).
- Forged envelopes get 200, not 401. A forged or stale envelope is answered with 200 and a sealed error response. The controller's 401 branch is never reached (`AgentService.ForgedEnvelopeAnswered`, `AgentController.Controller.ExecuteCommand`).
- ConfigureAsync does not validate. Only the controller checks a configuration before applying it.
- The client's local listing is always empty. The client's netsh parser never yields a rule: a parsed line has no description, and a client rule without one is invalid (`ClientNetsh.ParseRuleLineNeverYields`). So the local part of the client's rule load is always empty.
- Deleted agents stay in their silo's list. DeleteAgentServerAsync refreshes the agent's silo before removing the agent, so the silo's member list still contains it.
- The rule form refuses unresolved targets. Choosing an unresolved target known by a host name fills in that host name, which the client rule form then refuses (`ClientRuleForm.UnresolvedHostTargetRefused`).
- The failover form is stricter than the configuration. It refuses an interval equal to the timeout, which both failover configurations accept (`FailoverForm.FormStricterThanConfiguration`).
- The client's reset also empties agent rules. It resets only the local netsh, but on success it empties the whole list, agent rules included.
- An import with replace keeps the selection. Importing with replace empties the list but does not clear the selection, in both main windows.
- Adding an agent never generates an id. Every Add operation of the inventory would give a blank id a fresh GUID, but it checks validity first, and validity demands a non-blank id. The GUID branch is never taken.

=== FILE: add_edit_rule_view_model.dfy ===
/** The command line the rule editors show while a rule is being filled in. */
module CommandPreview {
  import opened Text
  import opened Protocols
  import NetshExecutor
  import AgentModels

  const Placeholder: string := "Fill in all fields to see command preview"

  /** The netsh line for a filled-in rule: the agent's add command, prefixed with the tool's name. */
  function CommandLine(protocol: ProtocolType, listenPort: string, listenAddress: string,
                       forwardPort: string, forwardAddress: string): (s: string)
    ensures s == "netsh " + NetshExecutor.AddArguments(AgentModels.AgentCommand(
             "add", listenPort, listenAddress, forwardPort, forwardAddress, ProtocolString(protocol), "", ""))
    ensures s != Placeholder
  {
    var rest := "interface portproxy add " + ProtocolString(protocol) + " listenport=" + listenPort
                + " listenaddress=" + listenAddress + " connectport=" + forwardPort
                + " connectaddress=" + forwardAddress;
    NotPlaceholder(rest);
    "netsh " + rest
  }

  lemma NotPlaceholder(rest: string)
    ensures "netsh " + rest != Placeholder
  {
    assert ("netsh " + rest)[0] == 'n' && Placeholder[0] == 'F';
  }

  /**
   * UpdatePreviewCommand: the placeholder until all four fields are filled
   * in, then exactly the command line the agent runs to add that rule.
   */
  function Preview(protocol: ProtocolType, listenPort: string, listenAddress: string,
                   forwardPort: string, forwardAddress: string): (s: string)
    ensures s == Placeholder <==>
      (IsBlank(listenPort) || IsBlank(listenAddress) || IsBlank(forwardPort) || IsBlank(forwardAddress))
    ensures s != Placeholder ==> s == CommandLine(protocol, listenPort, listenAddress, forwardPort, forwardAddress)
  {
    if IsBlank(listenPort) || IsBlank(listenAddress) || IsBlank(forwardPort) || IsBlank(forwardAddress) then
      Placeholder
    else
      CommandLine(protocol, listenPort, listenAddress, forwardPort, forwardAddress)
  }
}

/** The client's add / edit rule form. */
module ClientRuleForm {
  import opened Common
  import opened Text
  import opened Platform
  import opened Protocols
  import opened ClientRules
  import opened AgentServers
  import opened TargetServers
  import ValidationService
  import CommandPreview
  import Inventory

  // ------------------------------------------------------------------ tags

  predicate IsComma(c: char) { c == ',' }

  predicate CommaFree(s: string) {
    forall i :: 0 <= i < |s| ==> !IsComma(s[i])
  }

  /** What a tag can be after editing: non-empty, trimmed, without a comma. */
  predicate IsTag(t: string) {
    t != "" && !IsWhiteSpace(t[0]) && !IsWhiteSpace(t[|t| - 1]) && CommaFree(t)
  }

  /** The tags text the form opens with: the rule's tags joined with ", ". */
  function FormatTags(tags: seq<string>): string {
    Join(", ", tags)
  }

  /** Trims every piece and drops those left empty, keeping the order. */
  function TrimmedTags(pieces: seq<string>): (tags: seq<string>)
    requires forall k :: 0 <= k < |pieces| ==> CommaFree(pieces[k])
    ensures |tags| <= |pieces|
    ensures forall k :: 0 <= k < |tags| ==> IsTag(tags[k])
  {
    if pieces == [] then []
    else
      var t := Trim(pieces[0]);
      TrimKeepsCommaFree(pieces[0]);
      var head, rest := (if t == "" then [] else [t]), TrimmedTags(pieces[1..]);
      TagsAppend(head, rest);
      head + rest
  }

  lemma TagsAppend(head: seq<string>, rest: seq<string>)
    requires forall k :: 0 <= k < |head| ==> IsTag(head[k])
    requires forall k :: 0 <= k < |rest| ==> IsTag(rest[k])
    ensures forall k :: 0 <= k < |head + rest| ==> IsTag((head + rest)[k])
  {
    forall k | 0 <= k < |head + rest|
      ensures IsTag((head + rest)[k])
    {
      if k >= |head| {
        assert (head + rest)[k] == rest[k - |head|];
      }
    }
  }

  /** Trimming only removes characters from the ends. */
  lemma TrimKeepsCommaFree(p: string)
    requires CommaFree(p)
    ensures var t := Trim(p); t == "" || IsTag(t)
  {
    var start := TrimStart(p);
    CommaFreeSlice(p, |p| - |start|, |p|);
    var t := TrimEnd(start);
    CommaFreeSlice(start, 0, |t|);
    assert t == Trim(p);
  }

  lemma CommaFreeSlice(s: string, lo: nat, hi: nat)
    requires CommaFree(s) && lo <= hi <= |s|
    ensures CommaFree(s[lo..hi])
  {
    assert forall i :: 0 <= i < hi - lo ==> s[lo..hi][i] == s[lo + i];
  }

  /** UpdateTagsFromText: the comma-separated pieces, trimmed, empty ones dropped; none for blank text. */
  function ParseTags(text: string): (tags: seq<string>)
    ensures IsBlank(text) ==> tags == []
    ensures forall k :: 0 <= k < |tags| ==> IsTag(tags[k])
  {
    if IsBlank(text) then []
    else
      var pieces := Split(text, IsComma);
      assert forall k :: 0 <= k < |pieces| ==> CommaFree(pieces[k]);
      TrimmedTags(pieces)
  }

  /** The pieces after the first, each as it follows ", " in the joined text. */
  function Spaced(tags: seq<string>): (r: seq<string>)
    ensures |r| == |tags|
    ensures forall k :: 0 <= k < |tags| ==> r[k] == " " + tags[k]
    ensures (forall k :: 0 <= k < |tags| ==> IsTag(tags[k])) ==> forall k :: 0 <= k < |r| ==> CommaFree(r[k])
  {
    seq(|tags|, i requires 0 <= i < |tags| => " " + tags[i])
  }

  lemma TrimTag(t: string)
    requires IsTag(t)
    ensures Trim(t) == t && Trim(" " + t) == t
  {
    assert TrimStart(t) == t;
    assert (" " + t)[1..] == t;
    assert TrimStart(" " + t) == TrimStart(t);
    assert TrimEnd(t) == t;
  }

  lemma {:induction false} SplitJoinedTags(tags: seq<string>, current: string)
    requires |tags| >= 1 && forall k :: 0 <= k < |tags| ==> IsTag(tags[k])
    requires CommaFree(current)
    ensures SplitAcc(Join(", ", tags), IsComma, current) == [current + tags[0]] + Spaced(tags[1..])
    decreases |tags|
  {
    if |tags| == 1 {
      SplitAccWord(tags[0], [], IsComma, current);
      assert tags[0] + [] == tags[0];
      assert Spaced(tags[1..]) == [];
    } else {
      var rest := Join(", ", tags[1..]);
      assert Join(", ", tags) == tags[0] + ", " + rest;
      assert IsTag(tags[0]);
      SplitPastSeparator(tags[0], rest, current);
      var more := tags[1..];
      assert forall k :: 0 <= k < |more| ==> IsTag(more[k]) by {
        assert forall k :: 0 <= k < |more| ==> more[k] == tags[k + 1];
      }
      SplitJoinedTags(more, " ");
      SpacedCons(more);
      assert more[0] == tags[1] && more[1..] == tags[2..];
    }
  }

  /** A comma-free piece followed by ", " closes the current piece and opens the next with a space. */
  lemma SplitPastSeparator(first: string, rest: string, current: string)
    requires CommaFree(first) && CommaFree(current) && current + first != []
    ensures SplitAcc(first + ", " + rest, IsComma, current) == [current + first] + SplitAcc(rest, IsComma, " ")
  {
    assert first + ", " + rest == first + ([','] + ([' '] + rest));
    SplitAccWord(first, [','] + ([' '] + rest), IsComma, current);
    SplitAccSeparator(',', [' '] + rest, IsComma, current + first);
    SplitAccWord([' '], rest, IsComma, []);
    assert [] + [' '] == " ";
  }

  lemma SpacedCons(tags: seq<string>)
    requires |tags| >= 1
    ensures Spaced(tags) == [" " + tags[0]] + Spaced(tags[1..])
  {
    var a := Spaced(tags);
    var b := [" " + tags[0]] + Spaced(tags[1..]);
    assert |a| == |b|;
    forall k | 0 <= k < |a|
      ensures a[k] == b[k]
    {
      if k > 0 {
        assert b[k] == Spaced(tags[1..])[k - 1] == " " + tags[1..][k - 1];
      }
    }
  }

  /** When no piece trims to nothing, nothing is dropped: each piece becomes its trimmed self. */
  lemma {:induction false} TrimmedNoneDropped(pieces: seq<string>, tags: seq<string>)
    requires |pieces| == |tags|
    requires forall k :: 0 <= k < |pieces| ==> CommaFree(pieces[k])
    requires forall k :: 0 <= k < |pieces| ==> Trim(pieces[k]) == tags[k] && tags[k] != ""
    ensures TrimmedTags(pieces) == tags
    decreases |pieces|
  {
    if pieces != [] {
      var ps, ts := pieces[1..], tags[1..];
      forall k | 0 <= k < |ps|
        ensures CommaFree(ps[k]) && Trim(ps[k]) == ts[k] && ts[k] != ""
      {
        assert ps[k] == pieces[k + 1] && ts[k] == tags[k + 1];
      }
      TrimmedNoneDropped(ps, ts);
      assert Trim(pieces[0]) == tags[0] != "";
      assert TrimmedTags(pieces) == [tags[0]] + TrimmedTags(ps);
      assert [tags[0]] + ts == tags;
    }
  }

  lemma JoinedTagsNotBlank(tags: seq<string>)
    requires |tags| >= 1 && IsTag(tags[0])
    ensures !IsBlank(FormatTags(tags))
  {
    var text := FormatTags(tags);
    if |tags| >= 2 {
      assert text == tags[0] + (", " + Join(", ", tags[1..]));
    }
    assert text[0] == tags[0][0];
  }

  /**
   * Opening the form on a rule and saving it unchanged keeps the rule's tags,
   * whenever each is already a tag the form could have produced.
   */
  lemma TagsRoundTrip(tags: seq<string>)
    requires forall k :: 0 <= k < |tags| ==> IsTag(tags[k])
    ensures ParseTags(FormatTags(tags)) == tags
  {
    if tags != [] {
      var text := FormatTags(tags);
      JoinedTagsNotBlank(tags);
      SplitJoinedTags(tags, []);
      assert [] + tags[0] == tags[0];
      var pieces := Split(text, IsComma);
      assert pieces == [tags[0]] + Spaced(tags[1..]);
      assert ParseTags(text) == TrimmedTags(pieces);
      TrimmedFirstAndSpaced(tags);
    }
  }

  /** The pieces of the joined tags: the first as it is, the others after their space. */
  function JoinedPieces(tags: seq<string>): (r: seq<string>)
    requires |tags| >= 1
    ensures r == [tags[0]] + Spaced(tags[1..])
    ensures (forall k :: 0 <= k < |tags| ==> IsTag(tags[k])) ==> forall k :: 0 <= k < |r| ==> CommaFree(r[k])
  {
    var r := [tags[0]] + Spaced(tags[1..]);
    assert forall k :: 1 <= k < |r| ==> r[k] == " " + tags[k];
    r
  }

  lemma TrimmedFirstAndSpaced(tags: seq<string>)
    requires |tags| >= 1 && forall k :: 0 <= k < |tags| ==> IsTag(tags[k])
    ensures TrimmedTags(JoinedPieces(tags)) == tags
  {
    var pieces := JoinedPieces(tags);
    forall k | 0 <= k < |pieces|
      ensures Trim(pieces[k]) == tags[k] && tags[k] != ""
    {
      TrimTag(tags[k]);
      if k > 0 {
        assert pieces[k] == Spaced(tags[1..])[k - 1] == " " + tags[k];
      }
    }
    TrimmedNoneDropped(pieces, tags);
  }

  /** Parsing is a normal form: re-parsing what it formats gives the same tags. */
  lemma TagsNormalForm(text: string)
    ensures ParseTags(FormatTags(ParseTags(text))) == ParseTags(text)
  {
    TagsRoundTrip(ParseTags(text));
  }

  /** A rule's tags text, as its card shows it, reads back through the form's parser as the rule's tags. */
  lemma RuleTagsTextParsesBack(r: PortForwardRule)
    requires forall k :: 0 <= k < |r.tags| ==> IsTag(r.tags[k])
    ensures ParseTags(ClientRules.TagsText(r)) == r.tags
  {
    if r.tags != [] {
      TagsRoundTrip(r.tags);
    }
  }

  /** A tagged target's tags text reads back as its tags; an untagged one shows "None", which would read back as a tag. */
  lemma TargetTagsTextParsesBack(t: TargetServer)
    requires forall k :: 0 <= k < |t.tags| ==> IsTag(t.tags[k])
    ensures t.tags != [] ==> ParseTags(TargetServers.TagsText(t)) == t.tags
    ensures t.tags == [] ==> ParseTags(TargetServers.TagsText(t)) == ["None"]
  {
    if t.tags != [] {
      TagsRoundTrip(t.tags);
    } else {
      assert IsTag("None");
      TagsRoundTrip(["None"]);
      assert FormatTags(["None"]) == "None";
    }
  }

  // ------------------------------------------------------------ validation

  const DescriptionRequired: string := "Description is required"
  const AgentRequired: string := "Agent server selection is required"
  const TargetRequired: string := "Target server selection is required"

  /** The outcome of each of ValidateInput's checks, in the order it makes them. */
  datatype Checks = Checks(
    hasDescription: bool,
    agentSelected: bool,
    targetSelected: bool,
    listenPortValid: bool,
    forwardPortValid: bool,
    listenAddressValid: bool,
    forwardAddressValid: bool)

  function ChecksOf(parsers: Parsers, r: PortForwardRule, agentSelected: bool, targetSelected: bool): Checks {
    Checks(!IsBlank(r.description), agentSelected, targetSelected,
           ValidationService.IsValidPort(r.listenPort), ValidationService.IsValidPort(r.forwardPort),
           ValidationService.IsValidIPAddress(parsers, r.listenAddress),
           ValidationService.IsValidIPAddress(parsers, r.forwardAddress))
  }

  predicate AllPass(c: Checks) {
    c.hasDescription && c.agentSelected && c.targetSelected && c.listenPortValid && c.forwardPortValid
    && c.listenAddressValid && c.forwardAddressValid
  }

  /** ValidateInput's messages, one per check, in the order it makes the checks. */
  const CheckMessages: seq<string> := [DescriptionRequired, AgentRequired, TargetRequired,
    ValidationService.ListenPortRange, ValidationService.ForwardPortRange,
    ValidationService.ListenAddressInvalid, ValidationService.ForwardAddressInvalid]

  /** Which of the checks failed, in the same order. */
  function FailedChecks(c: Checks): (failed: seq<bool>)
    ensures |failed| == |CheckMessages|
  {
    [!c.hasDescription, !c.agentSelected, !c.targetSelected, !c.listenPortValid, !c.forwardPortValid,
     !c.listenAddressValid, !c.forwardAddressValid]
  }

  /** The seven messages are seven different, non-empty texts. */
  lemma CheckMessagesDistinct()
    ensures Distinct(CheckMessages)
    ensures forall k :: 0 <= k < |CheckMessages| ==> CheckMessages[k] != ""
  {
    assert |DescriptionRequired| == 23 && |AgentRequired| == 34 && |TargetRequired| == 35;
    assert |ValidationService.ListenPortRange| == 39 && |ValidationService.ForwardPortRange| == 40;
    assert |ValidationService.ListenAddressInvalid| == 54 && |ValidationService.ForwardAddressInvalid| == 55;
  }

  /** ValidateInput's messages: each present exactly when its check failed. */
  function FormErrors(c: Checks): (errors: seq<string>)
    ensures |errors| <= 7
    ensures forall i :: 0 <= i < |errors| ==> errors[i] != ""
    ensures errors == [] <==> AllPass(c)
  {
    var failed := FailedChecks(c);
    CheckMessagesDistinct();
    FailuresFromChecks(failed, CheckMessages);
    assert (forall k :: 0 <= k < |failed| ==> !failed[k]) <==>
      !failed[0] && !failed[1] && !failed[2] && !failed[3] && !failed[4] && !failed[5] && !failed[6];
    Failures(failed, CheckMessages)
  }

  /** Each of ValidateInput's messages is reported exactly when its own check failed. */
  lemma ErrorsPresentExactly(c: Checks)
    ensures var errors := FormErrors(c);
      (DescriptionRequired in errors <==> !c.hasDescription)
      && (AgentRequired in errors <==> !c.agentSelected)
      && (TargetRequired in errors <==> !c.targetSelected)
      && (ValidationService.ListenPortRange in errors <==> !c.listenPortValid)
      && (ValidationService.ForwardPortRange in errors <==> !c.forwardPortValid)
      && (ValidationService.ListenAddressInvalid in errors <==> !c.listenAddressValid)
      && (ValidationService.ForwardAddressInvalid in errors <==> !c.forwardAddressValid)
  {
    var failed, errors := FailedChecks(c), FormErrors(c);
    CheckMessagesDistinct();
    FailuresPresentExactly(failed, CheckMessages);
    assert CheckMessages[0] in errors <==> failed[0];
    assert CheckMessages[1] in errors <==> failed[1];
    assert CheckMessages[2] in errors <==> failed[2];
    assert CheckMessages[3] in errors <==> failed[3];
    assert CheckMessages[4] in errors <==> failed[4];
    assert CheckMessages[5] in errors <==> failed[5];
    assert CheckMessages[6] in errors <==> failed[6];
  }

  /** The messages come out in the order ValidateInput makes its checks. */
  lemma ErrorsInCheckOrder(c: Checks)
    ensures forall i, j :: 0 <= i < j < |FormErrors(c)| ==>
      IndexOf(CheckMessages, FormErrors(c)[i]) < IndexOf(CheckMessages, FormErrors(c)[j])
  {
    CheckMessagesDistinct();
    FailuresInCheckOrder(FailedChecks(c), CheckMessages);
  }

  /** What the form accepts: a description, both servers chosen, ports in range, addresses literal or localhost. */
  predicate Acceptable(parsers: Parsers, r: PortForwardRule, agentSelected: bool, targetSelected: bool) {
    AllPass(ChecksOf(parsers, r, agentSelected, targetSelected))
  }

  /** The validation message: the errors joined with "; ", empty exactly when the form is acceptable. */
  function FormMessage(parsers: Parsers, r: PortForwardRule, agentSelected: bool, targetSelected: bool): (m: string)
    ensures m == Join("; ", FormErrors(ChecksOf(parsers, r, agentSelected, targetSelected)))
    ensures m == "" <==> Acceptable(parsers, r, agentSelected, targetSelected)
  {
    var errors := FormErrors(ChecksOf(parsers, r, agentSelected, targetSelected));
    JoinEmptyIff("; ", errors);
    Join("; ", errors)
  }

  /**
   * What the form accepts is a valid rule, and the form's address check and
   * port check are the validation service's: an accepted rule passes
   * ValidateRule too.
   */
  lemma AcceptedRuleIsValid(parsers: Parsers, r: PortForwardRule, agentSelected: bool, targetSelected: bool)
    requires FormMessage(parsers, r, agentSelected, targetSelected) == ""
    ensures ClientRules.IsValid(parsers, r)
    ensures ValidationService.ValidateRule(parsers, r.listenPort, r.listenAddress, r.forwardPort, r.forwardAddress) == ""
  {
    ServiceValidImpliesRuleValid(parsers, r);
  }

  /** The forward address a selected target fills in: its address when resolved, else its DNS name. */
  function TargetAddress(t: TargetServer): (a: string)
    ensures a == t.ipAddress || a == t.dnsName
    ensures t.ipAddress != "" ==> a == t.ipAddress
  {
    if t.ipAddress != "" then t.ipAddress else t.dnsName
  }

  /**
   * A target that is not resolved and is known by a host name fills in that
   * host name, which the form refuses, although a rule forwarding to it would
   * be a valid client rule.
   */
  lemma UnresolvedHostTargetRefused(parsers: Parsers, r: PortForwardRule, t: TargetServer, agentSelected: bool)
    requires t.ipAddress == "" && !parsers.isIpLiteral(t.dnsName) && !EqualsIgnoreCase(t.dnsName, "localhost")
    ensures FormMessage(parsers, r.(forwardAddress := TargetAddress(t)), agentSelected, true) != ""
  {
  }

  // ------------------------------------------------------- rule updates

  /**
   * UpdateRuleFromServerSelection: the agent and target fields follow the
   * selection (empty when nothing is selected), the legacy ServerId and
   * ServerName then read back the agent's id and name, and the DNS name in
   * use is the target's.
   */
  function WithSelection(r: PortForwardRule, agent: Option<AgentServer>, target: Option<TargetServer>): (s: PortForwardRule)
    ensures s.agentServerId == (if agent.Some? then agent.value.id else "")
    ensures s.agentServerName == (if agent.Some? then agent.value.name else "")
    ensures s.targetServerId == (if target.Some? then target.value.id else "")
    ensures s.targetServerName == (if target.Some? then target.value.name else "")
    ensures s.resolvedTargetAddress == (if target.Some? then target.value.ipAddress else "")
    ensures s.originalAddress == (if target.Some? then target.value.dnsName else "")
    ensures s.useDnsName <==> s.originalAddress != ""
    ensures ServerId(s) == s.agentServerId && ServerName(s) == s.agentServerName
    ensures s.(agentServerId := r.agentServerId, agentServerName := r.agentServerName,
               targetServerId := r.targetServerId, targetServerName := r.targetServerName,
               resolvedTargetAddress := r.resolvedTargetAddress, originalAddress := r.originalAddress,
               useDnsName := r.useDnsName, legacyServerId := r.legacyServerId,
               legacyServerName := r.legacyServerName) == r
  {
    var withAgent := if agent.Some? then r.(agentServerId := agent.value.id, agentServerName := agent.value.name)
                     else r.(agentServerId := "", agentServerName := "");
    var withTarget := if target.Some? then
                        withAgent.(targetServerId := target.value.id, targetServerName := target.value.name,
                                   resolvedTargetAddress := target.value.ipAddress)
                      else withAgent.(targetServerId := "", targetServerName := "", resolvedTargetAddress := "");
    var withLegacy := SetServerName(SetServerId(withTarget, withTarget.agentServerId), withTarget.agentServerName);
    var original := if target.Some? then target.value.dnsName else "";
    withLegacy.(originalAddress := original, useDnsName := original != "")
  }

  /**
   * CloneRule at time `now`: the same rule read through every property, with
   * ModifiedDate now; the legacy fields are copied through the ServerId and
   * ServerName setters, so only what the getters show survives.
   */
  function CloneRule(original: PortForwardRule, now: int): (r: PortForwardRule)
    ensures r.modifiedDate == now
    ensures ServerId(r) == ServerId(original) && ServerName(r) == ServerName(original)
    ensures r.legacyServerId == (if IsBlank(original.agentServerId) then original.legacyServerId else "")
    ensures r.legacyServerName == (if IsBlank(original.agentServerName) then original.legacyServerName else "")
    ensures r.(modifiedDate := original.modifiedDate, legacyServerId := original.legacyServerId,
               legacyServerName := original.legacyServerName) == original
  {
    var copied := NewRule(now).(
      listenPort := original.listenPort, listenAddress := original.listenAddress,
      forwardPort := original.forwardPort, forwardAddress := original.forwardAddress,
      protocol := original.protocol, description := original.description, category := original.category,
      agentServerId := original.agentServerId, targetServerId := original.targetServerId,
      agentServerName := original.agentServerName, targetServerName := original.targetServerName,
      resolvedTargetAddress := original.resolvedTargetAddress);
    var legacy := SetServerName(SetServerId(copied, ServerId(original)), ServerName(original));
    legacy.(useDnsName := original.useDnsName, originalAddress := original.originalAddress,
            createdDate := original.createdDate, modifiedDate := now, tags := original.tags)
  }

  /** The rule a new form starts from: every field empty except the 0.0.0.0 listen address. */
  function BlankRule(now: int): (r: PortForwardRule)
    ensures r.listenAddress == "0.0.0.0" && r.protocol == V4ToV4 && r.description == "" && r.category == ""
    ensures r.tags == [] && r.agentServerId == "" && r.targetServerId == ""
  {
    NewRule(now).(listenAddress := "0.0.0.0")
  }

  function PreviewOf(r: PortForwardRule): string {
    CommandPreview.Preview(r.protocol, r.listenPort, r.listenAddress, r.forwardPort, r.forwardAddress)
  }

  class AddEditRuleViewModel {
    const parsers: Parsers
    var rule: PortForwardRule
    var validationMessage: string
    var previewCommand: string
    var tagsText: string
    var selectedAgent: Option<AgentServer>
    var selectedTarget: Option<TargetServer>

    /** The preview shows the command for the rule as it now stands. */
    predicate PreviewCurrent()
      reads this
    {
      previewCommand == PreviewOf(rule)
    }

    /** The message reports the rule and selection as they now stand. */
    predicate MessageCurrent()
      reads this
    {
      validationMessage == FormMessage(parsers, rule, selectedAgent.Some?, selectedTarget.Some?)
    }

    /**
     * A form on a copy of `existing`, or on a blank rule, at time `now`; with
     * the inventory at hand, the servers the rule names are preselected.
     */
    constructor (existing: Option<PortForwardRule>, servers: Option<Inventory.ServerService>, parsers: Parsers, now: int)
      ensures this.parsers == parsers
      ensures rule == if existing.Some? then CloneRule(existing.value, now) else BlankRule(now)
      ensures tagsText == FormatTags(rule.tags)
      ensures selectedAgent == if servers.Some? && rule.agentServerId != ""
                               then servers.value.GetAgentServer(rule.agentServerId) else None
      ensures selectedTarget == if servers.Some? && rule.targetServerId != ""
                                then servers.value.GetTargetServer(rule.targetServerId) else None
      ensures validationMessage == "" && PreviewCurrent()
    {
      this.parsers := parsers;
      var r := if existing.Some? then CloneRule(existing.value, now) else BlankRule(now);
      rule := r;
      validationMessage := "";
      tagsText := Join(", ", r.tags);
      selectedAgent := None;
      selectedTarget := None;
      if servers.Some? {
        if r.agentServerId != "" {
          selectedAgent := servers.value.GetAgentServer(r.agentServerId);
        }
        if r.targetServerId != "" {
          selectedTarget := servers.value.GetTargetServer(r.targetServerId);
        }
      }
      previewCommand := "";
      new;
      UpdatePreviewCommand();
    }

    /** IsValid: no validation message. */
    predicate IsValid()
      reads this
    {
      validationMessage == ""
    }

    method UpdatePreviewCommand()
      modifies this
      ensures PreviewCurrent()
      ensures rule == old(rule) && validationMessage == old(validationMessage) && tagsText == old(tagsText)
      ensures selectedAgent == old(selectedAgent) && selectedTarget == old(selectedTarget)
    {
      if IsBlank(rule.listenPort) || IsBlank(rule.listenAddress) || IsBlank(rule.forwardPort) || IsBlank(rule.forwardAddress) {
        previewCommand := CommandPreview.Placeholder;
        return;
      }
      previewCommand := CommandPreview.CommandLine(rule.protocol, rule.listenPort, rule.listenAddress,
                                                   rule.forwardPort, rule.forwardAddress);
    }

    method ValidateInput()
      modifies this
      ensures MessageCurrent()
      ensures rule == old(rule) && previewCommand == old(previewCommand) && tagsText == old(tagsText)
      ensures selectedAgent == old(selectedAgent) && selectedTarget == old(selectedTarget)
    {
      var c := ChecksOf(parsers, rule, selectedAgent.Some?, selectedTarget.Some?);
      var errors := FormErrors(c);
      validationMessage := Join("; ", errors);
    }

    method SetListenPort(value: string)
      modifies this
      ensures rule == old(rule).(listenPort := value)
      ensures PreviewCurrent() && MessageCurrent()
      ensures tagsText == old(tagsText) && selectedAgent == old(selectedAgent) && selectedTarget == old(selectedTarget)
    {
      rule := rule.(listenPort := value);
      UpdatePreviewCommand();
      ValidateInput();
    }

    method SetListenAddress(value: string)
      modifies this
      ensures rule == old(rule).(listenAddress := value)
      ensures PreviewCurrent() && MessageCurrent()
      ensures tagsText == old(tagsText) && selectedAgent == old(selectedAgent) && selectedTarget == old(selectedTarget)
    {
      rule := rule.(listenAddress := value);
      UpdatePreviewCommand();
      ValidateInput();
    }

    method SetForwardPort(value: string)
      modifies this
      ensures rule == old(rule).(forwardPort := value)
      ensures PreviewCurrent() && MessageCurrent()
      ensures tagsText == old(tagsText) && selectedAgent == old(selectedAgent) && selectedTarget == old(selectedTarget)
    {
      rule := rule.(forwardPort := value);
      UpdatePreviewCommand();
      ValidateInput();
    }

    method SetForwardAddress(value: string)
      modifies this
      ensures rule == old(rule).(forwardAddress := value)
      ensures PreviewCurrent() && MessageCurrent()
      ensures tagsText == old(tagsText) && selectedAgent == old(selectedAgent) && selectedTarget == old(selectedTarget)
    {
      rule := rule.(forwardAddress := value);
      UpdatePreviewCommand();
      ValidateInput();
    }

    /** The protocol refreshes the preview only. */
    method SetProtocol(value: ProtocolType)
      modifies this
      ensures rule == old(rule).(protocol := value)
      ensures PreviewCurrent() && validationMessage == old(validationMessage)
      ensures tagsText == old(tagsText) && selectedAgent == old(selectedAgent) && selectedTarget == old(selectedTarget)
    {
      rule := rule.(protocol := value);
      UpdatePreviewCommand();
    }

    /** The description re-validates; the preview does not depend on it. */
    method SetDescription(value: string)
      modifies this
      ensures rule == old(rule).(description := value)
      ensures MessageCurrent() && previewCommand == old(previewCommand)
      ensures old(PreviewCurrent()) ==> PreviewCurrent()
      ensures tagsText == old(tagsText) && selectedAgent == old(selectedAgent) && selectedTarget == old(selectedTarget)
    {
      rule := rule.(description := value);
      ValidateInput();
    }

    method SetCategory(value: string)
      modifies this
      ensures rule == old(rule).(category := value)
      ensures validationMessage == old(validationMessage) && previewCommand == old(previewCommand)
      ensures old(PreviewCurrent()) ==> PreviewCurrent()
      ensures tagsText == old(tagsText) && selectedAgent == old(selectedAgent) && selectedTarget == old(selectedTarget)
    {
      rule := rule.(category := value);
    }

    /** TagsText: the text is kept as typed and the rule's tags are parsed from it. */
    method SetTagsText(value: string)
      modifies this
      ensures tagsText == value && rule == old(rule).(tags := ParseTags(value))
      ensures validationMessage == old(validationMessage) && previewCommand == old(previewCommand)
      ensures old(PreviewCurrent()) ==> PreviewCurrent()
      ensures selectedAgent == old(selectedAgent) && selectedTarget == old(selectedTarget)
    {
      tagsText := value;
      UpdateTagsFromText();
    }

    method UpdateTagsFromText()
      modifies this
      ensures rule == old(rule).(tags := ParseTags(tagsText))
      ensures tagsText == old(tagsText) && validationMessage == old(validationMessage)
      ensures previewCommand == old(previewCommand)
      ensures selectedAgent == old(selectedAgent) && selectedTarget == old(selectedTarget)
    {
      rule := rule.(tags := []);
      if !IsBlank(tagsText) {
        rule := rule.(tags := TrimmedTags(Split(tagsText, IsComma)));
      }
    }

    method SetSelectedAgent(value: Option<AgentServer>)
      modifies this
      ensures selectedAgent == value && MessageCurrent()
      ensures rule == old(rule) && previewCommand == old(previewCommand) && tagsText == old(tagsText)
      ensures selectedTarget == old(selectedTarget)
    {
      selectedAgent := value;
      ValidateInput();
    }

    /** Choosing a target fills in the forward address from it. */
    method SetSelectedTarget(value: Option<TargetServer>)
      modifies this
      ensures selectedTarget == value && selectedAgent == old(selectedAgent) && tagsText == old(tagsText)
      ensures rule == if value.Some? then old(rule).(forwardAddress := TargetAddress(value.value)) else old(rule)
      ensures PreviewCurrent() && MessageCurrent()
    {
      selectedTarget := value;
      OnTargetServerSelectionChanged();
    }

    method OnTargetServerSelectionChanged()
      modifies this
      ensures rule == if selectedTarget.Some? then old(rule).(forwardAddress := TargetAddress(selectedTarget.value)) else old(rule)
      ensures PreviewCurrent() && MessageCurrent()
      ensures selectedAgent == old(selectedAgent) && selectedTarget == old(selectedTarget) && tagsText == old(tagsText)
    {
      if selectedTarget.Some? {
        var t := selectedTarget.value;
        if t.ipAddress != "" {
          SetForwardAddress(t.ipAddress);
        } else {
          SetForwardAddress(t.dnsName);
        }
      }
      UpdatePreviewCommand();
      ValidateInput();
    }

    method UpdateRuleFromServerSelection()
      modifies this
      ensures rule == WithSelection(old(rule), selectedAgent, selectedTarget)
      ensures validationMessage == old(validationMessage) && previewCommand == old(previewCommand)
      ensures tagsText == old(tagsText) && selectedAgent == old(selectedAgent) && selectedTarget == old(selectedTarget)
    {
      rule := WithSelection(rule, selectedAgent, selectedTarget);
    }

    /**
     * ValidateAndSave: the rule takes its server fields from the selection,
     * is re-validated, and is saved exactly when the form accepts it; a
     * saved rule is a valid rule naming the chosen agent and target.
     */
    method ValidateAndSave() returns (ok: bool)
      modifies this
      ensures rule == WithSelection(old(rule), selectedAgent, selectedTarget)
      ensures MessageCurrent() && (old(PreviewCurrent()) ==> PreviewCurrent())
      ensures ok <==> Acceptable(parsers, rule, selectedAgent.Some?, selectedTarget.Some?)
      ensures ok ==> ClientRules.IsValid(parsers, rule)
                     && rule.agentServerId == selectedAgent.value.id
                     && rule.targetServerId == selectedTarget.value.id
      ensures selectedAgent == old(selectedAgent) && selectedTarget == old(selectedTarget) && tagsText == old(tagsText)
    {
      UpdateRuleFromServerSelection();
      ValidateInput();
      ok := IsValid();
      if ok {
        AcceptedRuleIsValid(parsers, rule, selectedAgent.Some?, selectedTarget.Some?);
      }
    }
  }
}

=== FILE: agent_controller.dfy ===
/** The agent's HTTP endpoints: how each service outcome becomes a status code. */
module AgentController {
  import opened Common
  import opened AgentModels
  import opened NetshExecutor
  import opened Envelope
  import opened AgentFailoverConfiguration
  import opened AgentService
  import opened FailoverService

  /** The ActionResults the actions return. */
  datatype ActionResult<T> =
    | Ok(value: T)
    | BadRequest(errors: seq<string>)
    | Unauthorized(text: string)
    | StatusCode(code: int, text: string)

  function Status<T>(r: ActionResult<T>): int {
    match r
    case Ok(_) => 200
    case BadRequest(_) => 400
    case Unauthorized(_) => 401
    case StatusCode(code, _) => code
  }

  const NotConfigured: string := "Agent not configured"
  const Applied: string := "Failover configuration applied successfully"
  const ApplyFailed: string := "Failed to apply failover configuration"
  const ManualDone: string := "Manual failover executed successfully"
  const ManualFailed: string := "Manual failover failed"

  class Controller {
    const agent: Agent
    const failover: Service
    /** AgentConfiguration.SecretKey. */
    const secretKey: string

    constructor (agent: Agent, failover: Service, secretKey: string)
      ensures this.agent == agent && this.failover == failover && this.secretKey == secretKey
    {
      this.agent := agent;
      this.failover := failover;
      this.secretKey := secretKey;
    }

    /**
     * POST execute. Without a secret it answers 500 and processes nothing;
     * otherwise 200 with the processor's envelope. The processor answers
     * every failure itself, so the 401 branch is never taken: a forged or
     * stale envelope gets 200 and a sealed error response.
     */
    method ExecuteCommand(p: Primitives, codec: Codec, m: EncryptedMessage, iv: Bytes, now: int, freshId: string)
      returns (r: ActionResult<EncryptedMessage>, ghost response: AgentResponse)
      modifies agent.executor.host
      ensures Status(r) != 401
      ensures secretKey == "" ==>
        r == StatusCode(500, NotConfigured) && agent.executor.host.history == old(agent.executor.host.history)
      ensures secretKey != "" ==> r == Ok(Seal(p, codec.serializeResponse(response), secretKey, iv, now))
      ensures secretKey != "" && !Authentic(p, m, secretKey, now) ==>
        response == ErrorResponse(VerificationFailed, now) && agent.executor.host.history == old(agent.executor.host.history)
    {
      if secretKey == "" {
        return StatusCode(500, NotConfigured), AgentResponse("", false, "", "", now, []);
      }
      var reply;
      reply, response := agent.ProcessCommand(p, codec, m, secretKey, iv, now, freshId);
      r := Ok(reply);
    }

    /**
     * POST configure-failover. An invalid configuration is answered 400 with
     * every validation message and is not applied; a valid one is applied
     * and answered 200.
     */
    method ConfigureFailover(c: FailoverConfiguration) returns (r: ActionResult<string>)
      modifies failover`config, failover`timer
      ensures !IsValid(c) ==>
        r == BadRequest(GetValidationErrors(c)) && failover.config == old(failover.config) && failover.timer == old(failover.timer)
      ensures IsValid(c) ==> r == Ok(Applied) && failover.config == c
      ensures Status(r) == 400 <==> GetValidationErrors(c) != []
    {
      ValidIffNoErrors(c);
      if !IsValid(c) {
        return BadRequest(GetValidationErrors(c));
      }
      var ok := failover.Configure(c);
      r := if ok then Ok(Applied) else StatusCode(500, ApplyFailed);
    }

    /** POST manual-failover: 200 exactly when the service reports success, otherwise 500. */
    method ManualFailover(failToB: bool, id: string, now: int) returns (r: ActionResult<string>)
      modifies failover`config, failover.executor.host
      ensures var ok := old(failover.config).enabled
                && failover.executor.host.respond(old(failover.executor.host.history), ShowAllArguments).success;
        r == if ok then Ok(ManualDone) else StatusCode(500, ManualFailed)
    {
      var ok := failover.ExecuteManualFailover(failToB, id, now);
      r := if ok then Ok(ManualDone) else StatusCode(500, ManualFailed);
    }
  }
}

=== FILE: agent_failover_configuration.dfy ===
/** The agent's failover settings and their validation. */
module AgentFailoverConfiguration {
  import opened Text
  import opened Mappings
  import Clock

  datatype FailoverConfiguration = FailoverConfiguration(
    enabled: bool,
    healthUrlA: string,
    healthUrlB: string,
    checkIntervalSeconds: int,
    timeoutSeconds: int,
    /** A-address to B-address, in insertion order. */
    serverMappings: Mapping,
    currentlyFailedOver: bool,
    lastHealthCheck: int,
    lastHealthA: string,
    lastHealthB: string,
    consecutiveFailuresA: int,
    consecutiveFailuresB: int,
    lastError: string)

  /** The settings a freshly constructed configuration holds. */
  function Default(): (c: FailoverConfiguration)
    ensures !c.enabled && !c.currentlyFailedOver
    ensures c.checkIntervalSeconds == 30 && c.timeoutSeconds == 10
    ensures c.serverMappings == [] && c.lastHealthCheck == Clock.MinValue
    ensures c.consecutiveFailuresA == 0 && c.consecutiveFailuresB == 0
  {
    FailoverConfiguration(false, "", "", 30, 10, [], false, Clock.MinValue, "", "", 0, 0, "")
  }

  const UrlAMissing: string := "Health URL A is required when failover is enabled"
  const UrlBMissing: string := "Health URL B is required when failover is enabled"
  const IntervalNotPositive: string := "Check interval must be greater than 0"
  const TimeoutNotPositive: string := "Timeout must be greater than 0"
  const NoMappings: string := "At least one server mapping is required"

  /** A disabled configuration is always valid; an enabled one needs both URLs, positive timings and a mapping. */
  predicate IsValid(c: FailoverConfiguration) {
    !c.enabled ||
    (!IsBlank(c.healthUrlA) && !IsBlank(c.healthUrlB) &&
     c.checkIntervalSeconds > 0 && c.timeoutSeconds > 0 && |c.serverMappings| > 0)
  }

  /** The requirements' messages, in the order they are checked. */
  const CheckMessages: seq<string> := [UrlAMissing, UrlBMissing, IntervalNotPositive, TimeoutNotPositive, NoMappings]

  /** Which requirements are violated, in the same order. */
  function FailedChecks(c: FailoverConfiguration): (failed: seq<bool>)
    ensures |failed| == |CheckMessages|
  {
    [IsBlank(c.healthUrlA), IsBlank(c.healthUrlB), c.checkIntervalSeconds <= 0, c.timeoutSeconds <= 0,
     |c.serverMappings| == 0]
  }

  /** The five messages are five different, non-empty texts. */
  lemma CheckMessagesDistinct()
    ensures Distinct(CheckMessages)
    ensures forall k :: 0 <= k < |CheckMessages| ==> CheckMessages[k] != ""
  {
    assert UrlAMissing[11] == 'A' && UrlBMissing[11] == 'B';
    assert |UrlAMissing| == 49 && |UrlBMissing| == 49 && |IntervalNotPositive| == 37;
    assert |TimeoutNotPositive| == 30 && |NoMappings| == 39;
  }

  /** One message per violated requirement, in a fixed order; none when disabled. */
  function GetValidationErrors(c: FailoverConfiguration): (errors: seq<string>)
    ensures !c.enabled ==> errors == []
    ensures |errors| <= 5
    ensures c.enabled ==> (UrlAMissing in errors <==> IsBlank(c.healthUrlA))
    ensures c.enabled ==> (UrlBMissing in errors <==> IsBlank(c.healthUrlB))
    ensures c.enabled ==> (IntervalNotPositive in errors <==> c.checkIntervalSeconds <= 0)
    ensures c.enabled ==> (TimeoutNotPositive in errors <==> c.timeoutSeconds <= 0)
    ensures c.enabled ==> (NoMappings in errors <==> |c.serverMappings| == 0)
  {
    if !c.enabled then []
    else
      var failed := FailedChecks(c);
      var errors := Failures(failed, CheckMessages);
      CheckMessagesDistinct();
      FailuresPresentExactly(failed, CheckMessages);
      assert CheckMessages[0] in errors <==> failed[0];
      assert CheckMessages[1] in errors <==> failed[1];
      assert CheckMessages[2] in errors <==> failed[2];
      assert CheckMessages[3] in errors <==> failed[3];
      assert CheckMessages[4] in errors <==> failed[4];
      errors
  }

  /** The two checks agree: a configuration is valid exactly when it has no validation errors. */
  lemma ValidIffNoErrors(c: FailoverConfiguration)
    ensures IsValid(c) <==> GetValidationErrors(c) == []
  {
    var e := GetValidationErrors(c);
    if c.enabled && IsValid(c) {
      var failed := FailedChecks(c);
      FailuresFromChecks(failed, CheckMessages);
      assert forall k :: 0 <= k < |failed| ==> !failed[k];
    }
    if c.enabled && !IsValid(c) {
      if IsBlank(c.healthUrlA) { assert UrlAMissing in e; }
      else if IsBlank(c.healthUrlB) { assert UrlBMissing in e; }
      else if c.checkIntervalSeconds <= 0 { assert IntervalNotPositive in e; }
      else if c.timeoutSeconds <= 0 { assert TimeoutNotPositive in e; }
      else { assert NoMappings in e; }
    }
  }

  /** Messages come out at most once each, in the order the requirements are checked. */
  lemma ErrorsFollowCheckOrder(c: FailoverConfiguration)
    ensures forall i :: 0 <= i < |GetValidationErrors(c)| ==> GetValidationErrors(c)[i] in CheckMessages
    ensures forall i, j :: 0 <= i < j < |GetValidationErrors(c)| ==>
              IndexOf(CheckMessages, GetValidationErrors(c)[i]) < IndexOf(CheckMessages, GetValidationErrors(c)[j])
  {
    if c.enabled {
      var errors := GetValidationErrors(c);
      CheckMessagesDistinct();
      FailuresFromChecks(FailedChecks(c), CheckMessages);
      FailuresInCheckOrder(FailedChecks(c), CheckMessages);
      forall i | 0 <= i < |errors|
        ensures errors[i] in CheckMessages
      {
        assert CheckMessages[IndexOf(CheckMessages, errors[i])] == errors[i];
      }
    }
  }
}

=== FILE: agent_models.dfy ===
/** The agent's wire records: commands, responses and the rules it reports. */
module AgentModels {
  /** An instruction from the client. A new command's protocol is "v4tov4". */
  datatype AgentCommand = AgentCommand(
    command: string,
    listenPort: string,
    listenAddress: string,
    connectPort: string,
    connectAddress: string,
    protocol: string,
    description: string,
    commandId: string)

  /** One port-proxy entry as the agent reports it. */
  datatype PortProxyRule = PortProxyRule(
    listenPort: string,
    listenAddress: string,
    connectPort: string,
    connectAddress: string,
    protocol: string)

  datatype AgentResponse = AgentResponse(
    commandId: string,
    success: bool,
    message: string,
    output: string,
    timestamp: int,
    rules: seq<PortProxyRule>)

  const DefaultProtocol: string := "v4tov4"

  /** `new AgentCommand { Command = verb, CommandId = id }` with every other property at its default. */
  function NewCommand(verb: string, id: string): (c: AgentCommand)
    ensures c.command == verb && c.commandId == id && c.protocol == DefaultProtocol
    ensures c.listenPort == "" && c.listenAddress == "" && c.connectPort == "" && c.connectAddress == ""
  {
    AgentCommand(verb, "", "", "", "", DefaultProtocol, "", id)
  }
}

=== FILE: agent_service.dfy ===
/**
 * The agent's command processor: it opens the envelope, reads the command,
 * runs the matching rule-store operation and seals the response with the
 * same secret. Every failure along the way is answered with a sealed error
 * response, so nothing propagates to the caller.
 */
module AgentService {
  import opened Common
  import opened Text
  import opened AgentModels
  import opened NetshTool
  import opened NetshExecutor
  import opened Envelope
  import AgentEncryption
  import Exceptions
  import Clock

  /** The JSON layer, left abstract. */
  datatype Codec = Codec(
    /** Deserialize<AgentCommand>: a JsonException's message, the JSON literal null (None), or a command. */
    parseCommand: string -> Result<Option<AgentCommand>, string>,
    serializeResponse: AgentResponse -> string)

  datatype Verb = AddVerb | DeleteVerb | ListVerb | ResetVerb | UnknownVerb

  /** The switch on the lower-cased command name. */
  function VerbOf(command: string): (v: Verb)
    ensures v == AddVerb <==> ToLower(command) == "add"
    ensures v == DeleteVerb <==> ToLower(command) == "delete"
    ensures v == ListVerb <==> ToLower(command) == "list"
    ensures v == ResetVerb <==> ToLower(command) == "reset"
  {
    match ToLower(command)
    case "add" => AddVerb
    case "delete" => DeleteVerb
    case "list" => ListVerb
    case "reset" => ResetVerb
    case _ => UnknownVerb
  }

  /** The dispatch ignores letter case: "ADD" and "Reset" select the add and reset operations. */
  lemma VerbIgnoresCase()
    ensures VerbOf("ADD") == AddVerb && VerbOf("Delete") == DeleteVerb
    ensures VerbOf("LiSt") == ListVerb && VerbOf("RESET") == ResetVerb
    ensures VerbOf("remove") == UnknownVerb
  {
    assert ToLower("ADD") == "add";
    assert ToLower("Delete") == "delete";
    assert ToLower("LiSt") == "list";
    assert ToLower("RESET") == "reset";
    assert ToLower("remove") == "remove";
  }

  /** The netsh command lines a command causes, in order. */
  function ToolCalls(c: AgentCommand): (calls: seq<string>)
    ensures |calls| <= 1
    ensures calls == [] <==> VerbOf(c.command) == UnknownVerb
  {
    match VerbOf(c.command)
    case AddVerb => [AddArguments(c)]
    case DeleteVerb => [DeleteArguments(c)]
    case ListVerb => [ShowAllArguments]
    case ResetVerb => [ResetArguments]
    case UnknownVerb => []
  }

  const DeserializeFailed: string := "Failed to deserialize command"
  const ErrorPrefix: string := "Command processing error: "

  /** The response built in the catch block. */
  function ErrorResponse(message: string, now: int): AgentResponse {
    AgentResponse("error", false, ErrorPrefix + message, "", now, [])
  }

  /** The response to a command name none of the four cases matches. */
  function UnknownCommandResponse(c: AgentCommand, now: int): AgentResponse {
    AgentResponse(c.commandId, false, "Unknown command: " + c.command, "", now, [])
  }

  /** What an incoming envelope amounts to before any rule-store call: a failure's message, or a command. */
  datatype Request = Refused(reason: string) | Accepted(command: AgentCommand)

  function Interpret(p: Primitives, codec: Codec, m: EncryptedMessage, secret: string, now: int): (q: Request)
    ensures !Authentic(p, m, secret, now) ==> q == Refused(VerificationFailed)
    ensures q.Accepted? ==>
      Authentic(p, m, secret, now) && Decrypt(p, m, secret, now).Success?
      && codec.parseCommand(Decrypt(p, m, secret, now).value) == Success(Some(q.command))
    ensures Decrypt(p, m, secret, now).Failure? ==> q == Refused(Decrypt(p, m, secret, now).error.message)
    ensures Decrypt(p, m, secret, now).Success? && codec.parseCommand(Decrypt(p, m, secret, now).value).Failure? ==>
      q == Refused(codec.parseCommand(Decrypt(p, m, secret, now).value).error)
    ensures Decrypt(p, m, secret, now).Success? && codec.parseCommand(Decrypt(p, m, secret, now).value) == Success(None) ==>
      q == Refused(DeserializeFailed)
    ensures (Decrypt(p, m, secret, now).Success? && codec.parseCommand(Decrypt(p, m, secret, now).value).Success?
             && codec.parseCommand(Decrypt(p, m, secret, now).value).value.Some?) ==>
      q == Accepted(codec.parseCommand(Decrypt(p, m, secret, now).value).value.value)
  {
    match Decrypt(p, m, secret, now)
    case Failure(e) => Refused(e.message)
    case Success(text) =>
      match codec.parseCommand(text)
      case Failure(e) => Refused(e)
      case Success(None) => Refused(DeserializeFailed)
      case Success(Some(c)) => Accepted(c)
  }

  /**
   * A stale or forged envelope is answered, not rejected: the reply is a
   * sealed error response saying the verification failed, and no command runs.
   */
  lemma ForgedEnvelopeAnswered(p: Primitives, codec: Codec, m: EncryptedMessage, secret: string, now: int)
    requires !Authentic(p, m, secret, now)
    ensures Interpret(p, codec, m, secret, now) == Refused("Message verification failed")
    ensures ErrorResponse(Interpret(p, codec, m, secret, now).reason, now).message
         == "Command processing error: " + "Message verification failed"
    ensures !ErrorResponse(Interpret(p, codec, m, secret, now).reason, now).success
  {
  }

  /**
   * A command sealed with the agent's secret and read back by the codec is
   * accepted as that command for five minutes.
   */
  lemma SealedCommandAccepted(p: Primitives, codec: Codec, text: string, c: AgentCommand, secret: string, iv: Bytes,
                              sealedAt: int, now: int)
    requires Inverses(p) && |iv| == 16
    requires now - sealedAt <= MessageExpirationMinutes * Clock.TicksPerMinute
    requires codec.parseCommand(text) == Success(Some(c))
    ensures Interpret(p, codec, Seal(p, text, secret, iv, sealedAt), secret, now) == Accepted(c)
  {
    SealThenOpen(p, text, secret, iv, sealedAt, now);
  }

  /** The response the switch gives a known command whose netsh run answered `t`. */
  function KnownResponse(c: AgentCommand, t: ToolResult, freshId: string, now: int): AgentResponse {
    match VerbOf(c.command)
    case AddVerb => AddResponse(c, t, now)
    case DeleteVerb => DeleteResponse(c, t, now)
    case ListVerb => ListResponse(freshId, t, now)
    case ResetVerb => ResetResponse(freshId, t, now)
    case UnknownVerb => UnknownCommandResponse(c, now)
  }

  /** AgentStatus as GetStatusAsync fills it. */
  datatype AgentStatus = AgentStatus(
    isOnline: bool,
    startTime: int,
    uptime: int,
    activeRulesCount: nat,
    lastHealthCheck: int,
    version: string)

  const Version: string := "1.0.0"

  class Agent {
    const executor: Executor
    /** When the service was constructed. */
    const startTime: int

    constructor (executor: Executor, startTime: int)
      ensures this.executor == executor && this.startTime == startTime
    {
      this.executor := executor;
      this.startTime := startTime;
    }

    /** The switch in ProcessCommandAsync: exactly the matching executor operation, or none for an unknown name. */
    method Dispatch(c: AgentCommand, freshId: string, now: int) returns (r: AgentResponse)
      modifies executor.host
      ensures executor.host.history == old(executor.host.history) + ToolCalls(c)
      ensures VerbOf(c.command) == UnknownVerb ==> r == UnknownCommandResponse(c, now)
      ensures VerbOf(c.command) != UnknownVerb ==>
        r == KnownResponse(c, executor.host.respond(old(executor.host.history), ToolCalls(c)[0]), freshId, now)
      ensures VerbOf(c.command) != UnknownVerb ==>
        var t := executor.host.respond(old(executor.host.history), ToolCalls(c)[0]);
        r.success == t.success
        && r.commandId == (if VerbOf(c.command) in {AddVerb, DeleteVerb} then c.commandId else freshId)
    {
      match VerbOf(c.command)
      case AddVerb => r := executor.AddRule(c, now);
      case DeleteVerb => r := executor.DeleteRule(c, now);
      case ListVerb => r := executor.ListRules(freshId, now);
      case ResetVerb => r := executor.ResetAllRules(freshId, now);
      case UnknownVerb => r := UnknownCommandResponse(c, now);
    }

    /**
     * ProcessCommandAsync. `iv` is the IV the response's encryption draws;
     * `response` names the response that was sealed.
     */
    method ProcessCommand(p: Primitives, codec: Codec, m: EncryptedMessage, secret: string, iv: Bytes, now: int, freshId: string)
      returns (reply: EncryptedMessage, ghost response: AgentResponse)
      modifies executor.host
      ensures reply == Seal(p, codec.serializeResponse(response), secret, iv, now)
      ensures var q := Interpret(p, codec, m, secret, now);
        q.Refused? ==> response == ErrorResponse(q.reason, now) && executor.host.history == old(executor.host.history)
      ensures var q := Interpret(p, codec, m, secret, now);
        q.Accepted? ==>
          (executor.host.history == old(executor.host.history) + ToolCalls(q.command)
           && (VerbOf(q.command.command) == UnknownVerb ==> response == UnknownCommandResponse(q.command, now))
           && (VerbOf(q.command.command) != UnknownVerb ==>
                 response == KnownResponse(q.command, executor.host.respond(old(executor.host.history), ToolCalls(q.command)[0]),
                                           freshId, now)))
    {
      var text := AgentEncryption.DecryptMessage(p, m, secret, now);
      var r: AgentResponse;
      if text.Failure? {
        r := ErrorResponse(text.error.message, now);
      } else {
        var parsed := codec.parseCommand(text.value);
        if parsed.Failure? {
          r := ErrorResponse(parsed.error, now);
        } else if parsed.value.None? {
          r := ErrorResponse(DeserializeFailed, now);
        } else {
          r := Dispatch(parsed.value.value, freshId, now);
        }
      }
      reply := Seal(p, codec.serializeResponse(r), secret, iv, now);
      response := r;
    }

    /** GetStatusAsync: online, with the number of listed rules, or 0 when listing failed. */
    method GetStatus(freshId: string, now: int) returns (s: AgentStatus)
      modifies executor.host
      ensures executor.host.history == old(executor.host.history) + [ShowAllArguments]
      ensures var t := executor.host.respond(old(executor.host.history), ShowAllArguments);
        s.activeRulesCount == (if t.success && t.output != "" then |Scan(OutputLines(t.output)).1| else 0)
      ensures s.isOnline && s.version == Version && s.uptime == now - startTime && s.startTime == startTime
    {
      var listing := executor.ListRules(freshId, now);
      var count := if listing.success then |listing.rules| else 0;
      s := AgentStatus(true, startTime, now - startTime, count, now, Version);
    }
  }
}

=== FILE: client_failover.dfy ===
/**
 * The client's copy of the agent's failover settings, and the failover status
 * the agent reports, with the texts the client shows for it.
 */
module ClientFailover {
  import opened Common
  import opened Text
  import opened Mappings
  import Clock
  import Agent = AgentFailoverConfiguration

  datatype FailoverConfiguration = FailoverConfiguration(
    enabled: bool,
    healthUrlA: string,
    healthUrlB: string,
    checkIntervalSeconds: int,
    timeoutSeconds: int,
    /** A-address to B-address. */
    serverMappings: Mapping)

  function Default(): (c: FailoverConfiguration)
    ensures !c.enabled && c.healthUrlA == "" && c.healthUrlB == ""
    ensures c.checkIntervalSeconds == 30 && c.timeoutSeconds == 10 && c.serverMappings == []
  {
    FailoverConfiguration(false, "", "", 30, 10, [])
  }

  /** The ServerMappings setter: a missing dictionary is stored as an empty one. */
  function WithServerMappings(c: FailoverConfiguration, m: Option<Mapping>): (r: FailoverConfiguration)
    ensures m.None? ==> r.serverMappings == []
    ensures m.Some? ==> r.serverMappings == m.value
    ensures r.(serverMappings := c.serverMappings) == c
  {
    c.(serverMappings := if m.Some? then m.value else [])
  }

  predicate IsValid(c: FailoverConfiguration) {
    !c.enabled ||
    (!IsBlank(c.healthUrlA) && !IsBlank(c.healthUrlB) &&
     c.checkIntervalSeconds > 0 && c.timeoutSeconds > 0 && |c.serverMappings| > 0)
  }

  /** GetValidationErrors: one message per violated requirement; none when disabled. */
  function GetValidationErrors(c: FailoverConfiguration): (errors: seq<string>)
    ensures !c.enabled ==> errors == []
    ensures |errors| <= 5
  {
    if !c.enabled then []
    else
      Failures([IsBlank(c.healthUrlA), IsBlank(c.healthUrlB), c.checkIntervalSeconds <= 0, c.timeoutSeconds <= 0,
                |c.serverMappings| == 0], Agent.CheckMessages)
  }

  /** The settings as the agent receives them. */
  function ToAgent(c: FailoverConfiguration): (a: Agent.FailoverConfiguration)
    ensures a.enabled == c.enabled && a.healthUrlA == c.healthUrlA && a.healthUrlB == c.healthUrlB
    ensures a.checkIntervalSeconds == c.checkIntervalSeconds && a.timeoutSeconds == c.timeoutSeconds
    ensures a.serverMappings == c.serverMappings
  {
    Agent.Default().(enabled := c.enabled, healthUrlA := c.healthUrlA, healthUrlB := c.healthUrlB,
                     checkIntervalSeconds := c.checkIntervalSeconds, timeoutSeconds := c.timeoutSeconds,
                     serverMappings := c.serverMappings)
  }

  /**
   * The client validates exactly as the agent does: the same verdict and the
   * same messages in the same order, so a configuration is valid exactly when
   * it has no validation errors.
   */
  lemma SameValidationAsAgent(c: FailoverConfiguration)
    ensures IsValid(c) <==> Agent.IsValid(ToAgent(c))
    ensures GetValidationErrors(c) == Agent.GetValidationErrors(ToAgent(c))
    ensures IsValid(c) <==> GetValidationErrors(c) == []
  {
    Agent.ValidIffNoErrors(ToAgent(c));
  }

  /** FailoverStatus as the client receives it. */
  datatype FailoverStatus = FailoverStatus(
    enabled: bool,
    currentlyFailedOver: bool,
    lastHealthCheck: int,
    healthStatusA: string,
    healthStatusB: string,
    rulesManaged: int,
    lastFailoverTime: Option<int>,
    lastError: string,
    checkIntervalSeconds: int)

  const FailedOverText: string := "Failed Over (B Servers Active)"
  const NormalText: string := "Normal (A Servers Active)"

  /** StatusText: disabled first, then a pending error, then which side is active. */
  function StatusText(s: FailoverStatus): (t: string)
    ensures t == "Disabled" <==> !s.enabled
    ensures s.enabled && s.lastError != "" ==> t == "Error: " + s.lastError
    ensures s.enabled && s.lastError == "" ==> (t == FailedOverText <==> s.currentlyFailedOver)
    ensures s.enabled && s.lastError == "" ==> (t == NormalText <==> !s.currentlyFailedOver)
  {
    if !s.enabled then "Disabled"
    else if s.lastError != "" then
      assert ("Error: " + s.lastError)[0] == 'E';
      "Error: " + s.lastError
    else if s.currentlyFailedOver then FailedOverText
    else NormalText
  }

  function HealthSummary(s: FailoverStatus): (t: string)
    ensures !s.enabled ==> t == "Not monitoring"
    ensures s.enabled ==> t == "A: " + s.healthStatusA + ", B: " + s.healthStatusB
  {
    if !s.enabled then "Not monitoring" else "A: " + s.healthStatusA + ", B: " + s.healthStatusB
  }

  /**
   * LastCheckText at time `now`: "Never" for the minimum date, "Just now"
   * under a minute (a check stamped in the future included), then whole
   * minutes under an hour, whole hours under a day, and whole days.
   */
  function LastCheckText(s: FailoverStatus, now: int): (t: string)
    ensures t == "Never" <==> s.lastHealthCheck == Clock.MinValue
    ensures s.lastHealthCheck != Clock.MinValue && now - s.lastHealthCheck < Clock.TicksPerMinute ==> t == "Just now"
    ensures var span := now - s.lastHealthCheck;
      s.lastHealthCheck != Clock.MinValue && Clock.TicksPerMinute <= span < Clock.TicksPerHour ==>
        var n := span / Clock.TicksPerMinute; 1 <= n < 60 && t == IntToString(n) + " minutes ago"
    ensures var span := now - s.lastHealthCheck;
      s.lastHealthCheck != Clock.MinValue && Clock.TicksPerHour <= span < Clock.TicksPerDay ==>
        var n := span / Clock.TicksPerHour; 1 <= n < 24 && t == IntToString(n) + " hours ago"
    ensures var span := now - s.lastHealthCheck;
      s.lastHealthCheck != Clock.MinValue && Clock.TicksPerDay <= span ==>
        var n := span / Clock.TicksPerDay; 1 <= n && t == IntToString(n) + " days ago"
  {
    if s.lastHealthCheck == Clock.MinValue then "Never"
    else
      var span := now - s.lastHealthCheck;
      if span < Clock.TicksPerMinute then "Just now"
      else if span < Clock.TicksPerHour then
        Clock.DivBounds(span, Clock.TicksPerMinute, 60);
        AgoText(Clock.WholeUnits(span, Clock.TicksPerMinute), " minutes ago")
      else if span < Clock.TicksPerDay then
        Clock.DivBounds(span, Clock.TicksPerHour, 24);
        AgoText(Clock.WholeUnits(span, Clock.TicksPerHour), " hours ago")
      else
        Clock.DivBounds(span, Clock.TicksPerDay, span + 1);
        AgoText(Clock.WholeUnits(span, Clock.TicksPerDay), " days ago")
  }

  /** "<n><unit>": longer than "Never" and "Just now" whenever the unit is. */
  function AgoText(n: int, unit: string): (t: string)
    ensures |t| > |unit|
  {
    IntToString(n) + unit
  }
}

=== FILE: client_main_view_model.dfy ===
/**
 * The client's main window: the rule list gathered from the local netsh and
 * every connected agent, and the add, delete, reset and import operations on
 * it, with the rule metadata kept alongside.
 */
module ClientMain {
  import opened Common
  import opened Text
  import opened Protocols
  import opened ClientRules
  import opened AgentServers
  import opened RuleCollection
  import opened NetshTool
  import AgentModels
  import ClientNetsh
  import RuleMetadataStore
  import Inventory

  /**
   * ParseProtocolFromString: the agent's protocol name, compared without
   * letter case; "ipv4" and "ipv6" are accepted as aliases, and anything
   * else, a missing name included, is v4tov4.
   */
  function ParseProtocolFromString(protocol: Option<string>): (p: ProtocolType)
    ensures p == V4ToV6 <==> protocol.Some? && ToLower(protocol.value) == "v4tov6"
    ensures p == V6ToV4 <==> protocol.Some? && ToLower(protocol.value) == "v6tov4"
    ensures p == V6ToV6 <==> protocol.Some? && ToLower(protocol.value) in {"v6tov6", "ipv6"}
    ensures protocol.None? ==> p == V4ToV4
  {
    match protocol
    case None => V4ToV4
    case Some(s) =>
      var t := ToLower(s);
      if t == "v4tov4" || t == "ipv4" then V4ToV4
      else if t == "v4tov6" then V4ToV6
      else if t == "v6tov4" then V6ToV4
      else if t == "v6tov6" || t == "ipv6" then V6ToV6
      else V4ToV4
  }

  /** Every protocol's own name parses back to it. */
  lemma ProtocolNameRoundTrip(p: ProtocolType)
    ensures ParseProtocolFromString(Some(ProtocolString(p))) == p
  {
    var s := ProtocolString(p);
    assert ToLower(s) == s;
  }

  /** Names that differ only in letter case parse alike. */
  lemma ParseProtocolIgnoresCase(a: string, b: string)
    requires EqualsIgnoreCase(a, b)
    ensures ParseProtocolFromString(Some(a)) == ParseProtocolFromString(Some(b))
  {
  }

  /** The key import de-duplicates on: listen port and listen address, compared exactly. */
  function ListenKey(r: PortForwardRule): (string, string) {
    (r.listenPort, r.listenAddress)
  }

  /**
   * A rule an agent reported, as the client first builds it: the agent's
   * fields, the agent's id and name, and a placeholder description and
   * category that stored metadata may replace.
   */
  function AgentRule(a: AgentServer, p: AgentModels.PortProxyRule, now: int): (r: PortForwardRule)
    ensures r.agentServerId == a.id && r.agentServerName == a.name
    ensures r.description == "Rule from " + a.name && r.category == "Agent"
  {
    NewRule(now).(listenPort := p.listenPort, listenAddress := p.listenAddress,
                  forwardPort := p.connectPort, forwardAddress := p.connectAddress,
                  protocol := ParseProtocolFromString(Some(p.protocol)),
                  agentServerId := a.id, agentServerName := a.name,
                  description := "Rule from " + a.name, category := "Agent")
  }

  /**
   * An agent rule in a canonical protocol name turns into a client rule that
   * the client would send back to the agent as the same rule.
   */
  lemma AgentRuleRoundTrip(a: AgentServer, p: AgentModels.PortProxyRule, now: int, verb: string)
    requires p.protocol in {"v4tov4", "v4tov6", "v6tov4", "v6tov6"}
    ensures var c := ClientNetsh.AsAgentCommand(AgentRule(a, p, now), verb);
      AgentModels.PortProxyRule(c.listenPort, c.listenAddress, c.connectPort, c.connectAddress, c.protocol) == p
  {
    var q :| ProtocolString(q) == p.protocol by {
      if p.protocol == "v4tov4" { assert ProtocolString(V4ToV4) == p.protocol; }
      else if p.protocol == "v4tov6" { assert ProtocolString(V4ToV6) == p.protocol; }
      else if p.protocol == "v6tov4" { assert ProtocolString(V6ToV4) == p.protocol; }
      else { assert ProtocolString(V6ToV6) == p.protocol; }
    }
    ProtocolNameRoundTrip(q);
  }

  /** ApplyMetadataToRule against a given dictionary. */
  function Stored(metadata: map<string, RuleMetadataStore.RuleMetadata>, rule: PortForwardRule): PortForwardRule {
    if RuleMetadataStore.RuleKey(rule) in metadata then RuleMetadataStore.WithMetadata(rule, metadata[RuleMetadataStore.RuleKey(rule)]) else rule
  }

  /**
   * The rules loaded from one agent's listing, in order: each keeps the
   * listed endpoints, the parsed protocol and the agent's id, whatever the
   * stored metadata says.
   */
  function FromAgent(metadata: map<string, RuleMetadataStore.RuleMetadata>, a: AgentServer,
                     listed: seq<AgentModels.PortProxyRule>, now: int): (r: seq<PortForwardRule>)
    ensures |r| == |listed|
    ensures forall k :: 0 <= k < |r| ==>
      r[k].listenPort == listed[k].listenPort && r[k].listenAddress == listed[k].listenAddress
      && r[k].forwardPort == listed[k].connectPort && r[k].forwardAddress == listed[k].connectAddress
      && r[k].protocol == ParseProtocolFromString(Some(listed[k].protocol)) && r[k].agentServerId == a.id
  {
    if listed == [] then []
    else FromAgent(metadata, a, listed[..|listed| - 1], now) + [Stored(metadata, AgentRule(a, listed[|listed| - 1], now))]
  }

  /** One agent's rules: its converted listing, or nothing when the listing failed. */
  function Contribution(metadata: map<string, RuleMetadataStore.RuleMetadata>, a: AgentServer,
                        listRules: AgentServer -> Option<seq<AgentModels.PortProxyRule>>, now: int): (r: seq<PortForwardRule>)
    ensures listRules(a).None? ==> r == []
    ensures listRules(a).Some? ==> r == FromAgent(metadata, a, listRules(a).value, now)
    ensures forall i :: 0 <= i < |r| ==> r[i].agentServerId == a.id
  {
    match listRules(a)
    case Some(listed) => FromAgent(metadata, a, listed, now)
    case None => []
  }

  /**
   * The rules loaded from a list of agents, agent by agent: an agent whose
   * listing failed contributes nothing, and every rule belongs to one of the
   * agents.
   */
  function FromAgents(metadata: map<string, RuleMetadataStore.RuleMetadata>, agents: seq<AgentServer>,
                      listRules: AgentServer -> Option<seq<AgentModels.PortProxyRule>>, now: int): (r: seq<PortForwardRule>)
    ensures forall i :: 0 <= i < |r| ==> exists j :: 0 <= j < |agents| && agents[j].id == r[i].agentServerId
    ensures (forall j :: 0 <= j < |agents| ==> listRules(agents[j]).None?) ==> r == []
  {
    if agents == [] then []
    else
      var init := FromAgents(metadata, agents[..|agents| - 1], listRules, now);
      var a := agents[|agents| - 1];
      var own := Contribution(metadata, a, listRules, now);
      assert forall i :: 0 <= i < |own| ==> own[i].agentServerId == a.id;
      assert forall j :: 0 <= j < |agents| - 1 ==> agents[..|agents| - 1][j] == agents[j];
      init + own
  }

  /** The agents whose status is Connected, in their order. */
  function ConnectedAgents(agents: seq<AgentServer>): (r: seq<AgentServer>)
    ensures |r| <= |agents|
    ensures forall a :: a in r <==> a in agents && a.status == Connected
  {
    if agents == [] then []
    else
      var init := ConnectedAgents(agents[..|agents| - 1]);
      var a := agents[|agents| - 1];
      assert agents == agents[..|agents| - 1] + [a];
      if a.status == Connected then init + [a] else init
  }

  /** An agent added last contributes its rules last. */
  lemma FromAgentsSnoc(metadata: map<string, RuleMetadataStore.RuleMetadata>, agents: seq<AgentServer>, a: AgentServer,
                       listRules: AgentServer -> Option<seq<AgentModels.PortProxyRule>>, now: int)
    ensures FromAgents(metadata, agents + [a], listRules, now)
            == FromAgents(metadata, agents, listRules, now) + Contribution(metadata, a, listRules, now)
  {
    assert (agents + [a])[..|agents|] == agents;
  }

  /** The inductive step of FromAgentsAppend: one more agent on the right. */
  lemma FromAgentsAppendStep(metadata: map<string, RuleMetadataStore.RuleMetadata>, xs: seq<AgentServer>,
                             init: seq<AgentServer>, last: AgentServer,
                             listRules: AgentServer -> Option<seq<AgentModels.PortProxyRule>>, now: int)
    requires FromAgents(metadata, xs + init, listRules, now)
             == FromAgents(metadata, xs, listRules, now) + FromAgents(metadata, init, listRules, now)
    ensures FromAgents(metadata, (xs + init) + [last], listRules, now)
            == FromAgents(metadata, xs, listRules, now) + FromAgents(metadata, init + [last], listRules, now)
  {
    FromAgentsSnoc(metadata, xs + init, last, listRules, now);
    FromAgentsSnoc(metadata, init, last, listRules, now);
    ConcatAssociates(FromAgents(metadata, xs, listRules, now), FromAgents(metadata, init, listRules, now),
                     Contribution(metadata, last, listRules, now));
  }

  lemma ConcatAssociates<T>(a: seq<T>, b: seq<T>, c: seq<T>)
    ensures (a + b) + c == a + (b + c)
  {
  }

  /** Loading two lists of agents one after the other gives the two loads in sequence. */
  lemma {:induction false} FromAgentsAppend(metadata: map<string, RuleMetadataStore.RuleMetadata>, xs: seq<AgentServer>,
                                            ys: seq<AgentServer>,
                                            listRules: AgentServer -> Option<seq<AgentModels.PortProxyRule>>, now: int)
    ensures FromAgents(metadata, xs + ys, listRules, now)
            == FromAgents(metadata, xs, listRules, now) + FromAgents(metadata, ys, listRules, now)
    decreases |ys|
  {
    if ys == [] {
      assert xs + ys == xs;
    } else {
      var init, last := ys[..|ys| - 1], ys[|ys| - 1];
      assert ys == init + [last];
      assert xs + ys == (xs + init) + [last];
      FromAgentsAppend(metadata, xs, init, listRules, now);
      FromAgentsAppendStep(metadata, xs, init, last, listRules, now);
    }
  }

  /**
   * Agent `j`'s listing appears whole, between the rules of the agents
   * before it and those after it: a successful listing's rules are all loaded,
   * in listing order.
   */
  lemma FromAgentsBlock(metadata: map<string, RuleMetadataStore.RuleMetadata>, agents: seq<AgentServer>, j: nat,
                        listRules: AgentServer -> Option<seq<AgentModels.PortProxyRule>>, now: int)
    requires j < |agents|
    ensures FromAgents(metadata, agents, listRules, now)
            == FromAgents(metadata, agents[..j], listRules, now)
               + Contribution(metadata, agents[j], listRules, now)
               + FromAgents(metadata, agents[j + 1..], listRules, now)
  {
    assert agents == agents[..j] + [agents[j]] + agents[j + 1..];
    FromAgentsAppend(metadata, agents[..j] + [agents[j]], agents[j + 1..], listRules, now);
    FromAgentsAppend(metadata, agents[..j], [agents[j]], listRules, now);
    assert ([agents[j]])[..0] == [];
  }

  /** The connected agents of two lists one after the other are those of each, in sequence. */
  lemma {:induction false} ConnectedAgentsAppend(xs: seq<AgentServer>, ys: seq<AgentServer>)
    ensures ConnectedAgents(xs + ys) == ConnectedAgents(xs) + ConnectedAgents(ys)
    decreases |ys|
  {
    if ys == [] {
      assert xs + ys == xs;
    } else {
      var init := ys[..|ys| - 1];
      assert (xs + ys)[..|xs + ys| - 1] == xs + init;
      ConnectedAgentsAppend(xs, init);
    }
  }

  /** Every rule loaded from the agents belongs to a connected agent. */
  lemma LoadedRulesBelongToConnectedAgents(metadata: map<string, RuleMetadataStore.RuleMetadata>, agents: seq<AgentServer>,
                                           listRules: AgentServer -> Option<seq<AgentModels.PortProxyRule>>, now: int)
    ensures var r := FromAgents(metadata, ConnectedAgents(agents), listRules, now);
      forall i :: 0 <= i < |r| ==> exists a :: a in agents && a.status == Connected && a.id == r[i].agentServerId
  {
    var connected := ConnectedAgents(agents);
    var r := FromAgents(metadata, connected, listRules, now);
    forall i | 0 <= i < |r|
      ensures exists a :: a in agents && a.status == Connected && a.id == r[i].agentServerId
    {
      var j :| 0 <= j < |connected| && connected[j].id == r[i].agentServerId;
      assert connected[j] in connected;
    }
  }

  const NoRulesFound: string := "No port forwarding rules found"
  const AgentNotFound: string := "Agent server not found"

  /** The status after a load that found rules. */
  function ReadyText(ruleCount: nat, agentCount: nat): string {
    "Ready - " + IntToString(ruleCount) + " rules loaded (" + IntToString(agentCount) + " agents connected)"
  }

  /** What an agent answered to an add or delete: AgentOperationResult's Success and Message. */
  datatype AgentReply = AgentReply(success: bool, message: string)

  class MainViewModel {
    const netsh: ClientNetsh.NetshService
    const store: RuleMetadataStore.MetadataStore
    const servers: Inventory.ServerService
    var rules: seq<PortForwardRule>
    var selectedRule: Option<PortForwardRule>
    var statusText: string

    constructor (netsh: ClientNetsh.NetshService, store: RuleMetadataStore.MetadataStore, servers: Inventory.ServerService)
      ensures this.netsh == netsh && this.store == store && this.servers == servers
      ensures rules == [] && selectedRule == None && statusText == "Initializing..."
    {
      this.netsh := netsh;
      this.store := store;
      this.servers := servers;
      rules := [];
      selectedRule := None;
      statusText := "Initializing...";
    }

    /** ApplyMetadataToRule on each rule of a list, in order. */
    method WithStoredMetadata(rs: seq<PortForwardRule>) returns (out: seq<PortForwardRule>)
      ensures |out| == |rs|
      ensures forall i :: 0 <= i < |rs| ==> out[i] == Stored(store.metadata, rs[i])
    {
      out := [];
      var i := 0;
      while i < |rs|
        invariant 0 <= i <= |rs|
        invariant |out| == i
        invariant forall k :: 0 <= k < i ==> out[k] == Stored(store.metadata, rs[k])
      {
        out := out + [store.ApplyMetadataToRule(rs[i])];
        i := i + 1;
      }
    }

    /**
     * The inner loop of LoadRulesAsync for one agent's listing: each listed
     * rule is converted and gets the metadata stored for it.
     */
    method RulesOfAgent(agent: AgentServer, listed: seq<AgentModels.PortProxyRule>, now: int)
      returns (agentRules: seq<PortForwardRule>)
      ensures agentRules == FromAgent(store.metadata, agent, listed, now)
    {
      agentRules := [];
      var k := 0;
      while k < |listed|
        invariant 0 <= k <= |listed|
        invariant agentRules == FromAgent(store.metadata, agent, listed[..k], now)
      {
        assert listed[..k + 1][..k] == listed[..k];
        var rule := AgentRule(agent, listed[k], now);
        rule := store.ApplyMetadataToRule(rule);
        agentRules := agentRules + [rule];
        k := k + 1;
      }
      assert listed[..k] == listed;
    }

    /**
     * The agent loop of LoadRulesAsync: each connected agent's listing in
     * turn, the status naming the agent being asked.
     */
    method LoadAgentRules(connectedAgents: seq<AgentServer>,
                          listRules: AgentServer -> Option<seq<AgentModels.PortProxyRule>>, now: int)
      returns (allRules: seq<PortForwardRule>)
      modifies this
      ensures allRules == FromAgents(store.metadata, connectedAgents, listRules, now)
      ensures rules == old(rules) && selectedRule == old(selectedRule)
      ensures |connectedAgents| > 0 ==> statusText == "Loading rules from " + connectedAgents[|connectedAgents| - 1].name + "..."
      ensures |connectedAgents| == 0 ==> statusText == old(statusText)
    {
      allRules := [];
      var j := 0;
      while j < |connectedAgents|
        invariant 0 <= j <= |connectedAgents|
        invariant allRules == FromAgents(store.metadata, connectedAgents[..j], listRules, now)
        invariant rules == old(rules) && selectedRule == old(selectedRule)
        invariant j > 0 ==> statusText == "Loading rules from " + connectedAgents[j - 1].name + "..."
        invariant j == 0 ==> statusText == old(statusText)
      {
        var agent := connectedAgents[j];
        statusText := "Loading rules from " + agent.name + "...";
        var agentRules: seq<PortForwardRule> := [];
        match listRules(agent) {
          case Some(listed) =>
            agentRules := RulesOfAgent(agent, listed, now);
          case None =>
        }
        assert connectedAgents[..j + 1][..j] == connectedAgents[..j];
        assert FromAgents(store.metadata, connectedAgents[..j + 1], listRules, now)
            == FromAgents(store.metadata, connectedAgents[..j], listRules, now) + agentRules;
        allRules := allRules + agentRules;
        j := j + 1;
      }
      assert connectedAgents[..j] == connectedAgents;
    }

    /**
     * The local part of LoadRulesAsync: the listing is asked for and, when it
     * succeeds, parsed again and given the stored metadata; no line yields a
     * rule, so the local part is always empty.
     */
    method LoadLocalRules(now: int) returns (localRules: seq<PortForwardRule>)
      modifies this, netsh.host
      ensures var listing := netsh.host.respond(old(netsh.host.history), ClientNetsh.ShowAllArguments);
        netsh.host.history == old(netsh.host.history) + [ClientNetsh.ShowAllArguments]
          + (if listing.success then [ClientNetsh.ShowAllArguments] else [])
      ensures localRules == []
      ensures rules == old(rules) && selectedRule == old(selectedRule)
    {
      localRules := [];
      var netshResult := netsh.GetAllRules();
      if netshResult.success {
        var parsed := netsh.ParseRules(now);
        localRules := WithStoredMetadata(parsed);
      } else {
        statusText := "Warning: Failed to load local netsh rules: " + netshResult.error;
      }
    }

    /**
     * LoadRulesAsync at time `now`, with `listRules` the agents' answers to
     * ListRulesAsync (None for a failure, a missing list or an exception).
     * The list becomes the rules of the connected agents, in agent order,
     * each with its stored metadata applied; the local listing adds no rule,
     * because no netsh line yields one. Orphaned metadata is cleaned up only
     * when some rule was loaded, so an empty load keeps every entry.
     */
    method LoadRules(now: int, listRules: AgentServer -> Option<seq<AgentModels.PortProxyRule>>)
      modifies this, store, netsh.host
      ensures var listing := netsh.host.respond(old(netsh.host.history), ClientNetsh.ShowAllArguments);
        netsh.host.history == old(netsh.host.history) + [ClientNetsh.ShowAllArguments]
          + (if listing.success then [ClientNetsh.ShowAllArguments] else [])
      ensures rules == FromAgents(old(store.metadata), ConnectedAgents(servers.agentServers), listRules, now)
      ensures |rules| > 0 ==>
        store.metadata == map k | k in old(store.metadata) && k in RuleMetadataStore.RuleKeys(rules) :: old(store.metadata)[k]
      ensures |rules| == 0 ==> store.metadata == old(store.metadata) && store.saves == old(store.saves)
      ensures statusText == if |rules| > 0 then ReadyText(|rules|, |ConnectedAgents(servers.agentServers)|) else NoRulesFound
      ensures selectedRule == old(selectedRule)
    {
      statusText := "Loading rules...";
      var allRules := LoadLocalRules(now);
      var connectedAgents := ConnectedAgents(servers.agentServers);
      var agentRules := LoadAgentRules(connectedAgents, listRules, now);
      allRules := allRules + agentRules;
      rules := allRules;
      if |allRules| > 0 {
        store.CleanupOrphanedMetadata(allRules);
      }
      statusText := if |allRules| > 0 then ReadyText(|allRules|, |connectedAgents|) else NoRulesFound;
    }

    /**
     * AddRuleAsync at time `now`: a rule with an agent id goes to the first
     * agent with that id (`reply` is its answer), any other rule to the local
     * netsh. Only on success is its metadata stored and the rule appended.
     */
    method AddRule(rule: PortForwardRule, now: int, reply: AgentReply) returns (ok: bool)
      modifies this, store, netsh.host
      ensures rule.agentServerId != "" ==>
        netsh.host.history == old(netsh.host.history)
        && (ok <==> servers.GetAgentServer(rule.agentServerId).Some? && reply.success)
        && statusText == match servers.GetAgentServer(rule.agentServerId)
             case None => AgentNotFound
             case Some(a) =>
               if reply.success then "Rule added successfully on agent " + a.name
               else "Failed to add rule on agent " + a.name + ": " + reply.message
      ensures rule.agentServerId == "" ==>
        var result := netsh.host.respond(old(netsh.host.history), ClientNetsh.AddArguments(rule));
        netsh.host.history == old(netsh.host.history) + [ClientNetsh.AddArguments(rule)]
        && (ok <==> result.success)
        && statusText == if result.success then "Rule added successfully (local)" else "Failed to add rule: " + result.error
      ensures ok ==> rules == old(rules) + [rule]
      ensures ok ==> store.metadata == old(store.metadata)[RuleMetadataStore.RuleKey(rule) := RuleMetadataStore.Snapshot(rule, now)]
      ensures ok ==> store.saves == old(store.saves) + [store.metadata]
      ensures !ok ==> rules == old(rules) && store.metadata == old(store.metadata) && store.saves == old(store.saves)
      ensures selectedRule == old(selectedRule)
    {
      statusText := "Adding rule...";
      if rule.agentServerId != "" {
        var agentServer := servers.GetAgentServer(rule.agentServerId);
        if agentServer.None? {
          statusText := AgentNotFound;
          return false;
        }
        if !reply.success {
          statusText := "Failed to add rule on agent " + agentServer.value.name + ": " + reply.message;
          return false;
        }
        store.StoreRuleMetadata(rule, now);
        rules := rules + [rule];
        statusText := "Rule added successfully on agent " + agentServer.value.name;
        return true;
      }
      var result := netsh.AddRule(rule);
      if !result.success {
        statusText := "Failed to add rule: " + result.error;
        return false;
      }
      store.StoreRuleMetadata(rule, now);
      rules := rules + [rule];
      statusText := "Rule added successfully (local)";
      return true;
    }

    /**
     * DeleteRuleAsync: routed like AddRule. Only on success is the rule's
     * metadata removed, the rule taken out of the list, and a selection of
     * that rule cleared.
     */
    method DeleteRule(rule: PortForwardRule, reply: AgentReply) returns (ok: bool)
      modifies this, store, netsh.host
      ensures rule.agentServerId != "" ==>
        netsh.host.history == old(netsh.host.history)
        && (ok <==> servers.GetAgentServer(rule.agentServerId).Some? && reply.success)
        && statusText == match servers.GetAgentServer(rule.agentServerId)
             case None => AgentNotFound
             case Some(a) =>
               if reply.success then "Rule deleted successfully from agent " + a.name
               else "Failed to delete rule from agent " + a.name + ": " + reply.message
      ensures rule.agentServerId == "" ==>
        var result := netsh.host.respond(old(netsh.host.history), ClientNetsh.DeleteArguments(rule));
        netsh.host.history == old(netsh.host.history) + [ClientNetsh.DeleteArguments(rule)]
        && (ok <==> result.success)
        && statusText == if result.success then "Rule deleted successfully (local)" else "Failed to delete rule: " + result.error
      ensures ok ==> rules == RemoveFirst(old(rules), rule)
      ensures ok ==> selectedRule == (if old(selectedRule) == Some(rule) then None else old(selectedRule))
      ensures ok ==> store.metadata == old(store.metadata) - {RuleMetadataStore.RuleKey(rule)}
      ensures !ok ==> rules == old(rules) && selectedRule == old(selectedRule)
      ensures !ok ==> store.metadata == old(store.metadata) && store.saves == old(store.saves)
    {
      statusText := "Deleting rule...";
      if rule.agentServerId != "" {
        var agentServer := servers.GetAgentServer(rule.agentServerId);
        if agentServer.None? {
          statusText := AgentNotFound;
          return false;
        }
        if !reply.success {
          statusText := "Failed to delete rule from agent " + agentServer.value.name + ": " + reply.message;
          return false;
        }
        ForgetRule(rule);
        statusText := "Rule deleted successfully from agent " + agentServer.value.name;
        return true;
      }
      var result := netsh.DeleteRule(rule);
      if !result.success {
        statusText := "Failed to delete rule: " + result.error;
        return false;
      }
      ForgetRule(rule);
      statusText := "Rule deleted successfully (local)";
      return true;
    }

    /** What a successful delete does besides the status: the metadata, the list entry and a selection of the rule go. */
    method ForgetRule(rule: PortForwardRule)
      modifies this`rules, this`selectedRule, store
      ensures rules == RemoveFirst(old(rules), rule)
      ensures selectedRule == (if old(selectedRule) == Some(rule) then None else old(selectedRule))
      ensures store.metadata == old(store.metadata) - {RuleMetadataStore.RuleKey(rule)}
    {
      store.RemoveRuleMetadata(rule);
      rules := RemoveFirst(rules, rule);
      if selectedRule == Some(rule) {
        selectedRule := None;
      }
    }

    /**
     * ResetAllRulesAsync: resets the local netsh; on success the whole list,
     * agent rules included, is emptied and the selection cleared.
     */
    method ResetAllRules() returns (ok: bool)
      modifies this, netsh.host
      ensures var result := netsh.host.respond(old(netsh.host.history), ClientNetsh.ResetArguments);
        netsh.host.history == old(netsh.host.history) + [ClientNetsh.ResetArguments]
        && (ok <==> result.success)
        && statusText == if result.success then "All rules reset successfully" else "Failed to reset rules: " + result.error
      ensures ok ==> rules == [] && selectedRule == None
      ensures !ok ==> rules == old(rules) && selectedRule == old(selectedRule)
    {
      statusText := "Resetting all rules...";
      var result := netsh.ResetAllRules();
      if !result.success {
        statusText := "Failed to reset rules: " + result.error;
        return false;
      }
      rules := [];
      selectedRule := None;
      statusText := "All rules reset successfully";
      return true;
    }

    /**
     * ImportRulesAsync, with `imported` what reading the file gave. A failed
     * read changes nothing and reports (false, 0); otherwise the list (emptied
     * first when replacing) takes each imported rule whose listen endpoint is
     * still free, and the count is the number appended.
     */
    method ImportRules(imported: Result<seq<PortForwardRule>, string>, replaceExisting: bool)
      returns (success: bool, count: int)
      modifies this
      ensures imported.Failure? ==>
        !success && count == 0 && rules == old(rules)
        && statusText == "Failed to import rules: " + imported.error
      ensures imported.Success? ==>
        var start := if replaceExisting then [] else old(rules);
        success && rules == ImportInto(start, imported.value, ListenKey)
        && count == |rules| - |start|
        && statusText == "Imported " + IntToString(count) + " rules successfully"
      ensures selectedRule == old(selectedRule)
    {
      statusText := "Importing rules...";
      if imported.Failure? {
        statusText := "Failed to import rules: " + imported.error;
        return false, 0;
      }
      var importedRules := imported.value;
      if replaceExisting {
        rules := [];
      }
      ghost var start := rules;
      var importedCount := 0;
      var i := 0;
      while i < |importedRules|
        invariant 0 <= i <= |importedRules|
        invariant rules == ImportInto(start, importedRules[..i], ListenKey)
        invariant importedCount == |rules| - |start|
        invariant selectedRule == old(selectedRule)
      {
        assert importedRules[..i + 1][..i] == importedRules[..i];
        var rule := importedRules[i];
        var isDuplicate := HasKey(rules, ListenKey, ListenKey(rule));
        if !isDuplicate {
          rules := rules + [rule];
          importedCount := importedCount + 1;
        }
        i := i + 1;
      }
      assert importedRules[..i] == importedRules;
      statusText := "Imported " + IntToString(importedCount) + " rules successfully";
      return true, importedCount;
    }
  }
}

=== FILE: client_models.dfy ===
/**
 * The client's inventory records: agent servers, target servers, silos
 * (groups of agents with a health status) and A/B server pairs.
 */
module Protocols {
  import opened Text

  /** The four port-proxy address families, as the applications name them. */
  datatype ProtocolType = V4ToV4 | V4ToV6 | V6ToV4 | V6ToV6

  /** Protocol.ToString().ToLower(): the name netsh expects. */
  function ProtocolString(p: ProtocolType): (r: string)
    ensures r in {"v4tov4", "v4tov6", "v6tov4", "v6tov6"}
    ensures ToLower(r) == r
  {
    match p
    case V4ToV4 => "v4tov4"
    case V4ToV6 => "v4tov6"
    case V6ToV4 => "v6tov4"
    case V6ToV6 => "v6tov6"
  }

  /** Distinct protocols have distinct names. */
  lemma ProtocolStringInjective(p: ProtocolType, q: ProtocolType)
    ensures ProtocolString(p) == ProtocolString(q) ==> p == q
  {
  }
}

module ServerPairs {
  import opened Common
  import opened Text

  /** Two target servers that stand in for each other during a failover. */
  datatype ServerPair = ServerPair(
    id: string,
    serverAId: string,
    serverBId: string,
    description: string,
    createdDate: int)

  /** The id names side A or side B, ignoring letter case. */
  predicate ContainsServer(p: ServerPair, serverId: string) {
    EqualsIgnoreCase(p.serverAId, serverId) || EqualsIgnoreCase(p.serverBId, serverId)
  }

  /** The other side of the pair; side A is checked first. */
  function GetPartnerServerId(p: ServerPair, serverId: string): (r: Option<string>)
    ensures r.Some? <==> ContainsServer(p, serverId)
    ensures r.Some? ==> r.value == p.serverAId || r.value == p.serverBId
    ensures EqualsIgnoreCase(p.serverAId, serverId) ==> r == Some(p.serverBId)
  {
    if EqualsIgnoreCase(p.serverAId, serverId) then Some(p.serverBId)
    else if EqualsIgnoreCase(p.serverBId, serverId) then Some(p.serverAId)
    else None
  }

  /** Non-blank id and sides, and two different sides (ignoring case). */
  predicate IsValid(p: ServerPair) {
    !IsBlank(p.id) && !IsBlank(p.serverAId) && !IsBlank(p.serverBId)
    && !EqualsIgnoreCase(p.serverAId, p.serverBId)
  }

  /** With two different sides, the partner's partner is the id itself, up to letter case. */
  lemma PartnerOfPartner(p: ServerPair, serverId: string)
    requires !EqualsIgnoreCase(p.serverAId, p.serverBId)
    requires ContainsServer(p, serverId)
    ensures var partner := GetPartnerServerId(p, serverId).value;
      GetPartnerServerId(p, partner).Some?
      && EqualsIgnoreCase(GetPartnerServerId(p, partner).value, serverId)
      && !EqualsIgnoreCase(partner, serverId)
  {
  }

  /** A pair whose two sides coincide answers side B for either id. */
  lemma SameSidesAnswerB(p: ServerPair, serverId: string)
    requires EqualsIgnoreCase(p.serverAId, p.serverBId)
    requires ContainsServer(p, serverId)
    ensures GetPartnerServerId(p, serverId) == Some(p.serverBId)
  {
  }
}

module TargetServers {
  import opened Text
  import opened Platform

  /** A machine rules forward to, known by DNS name and (once resolved) by address. */
  datatype TargetServer = TargetServer(
    id: string,
    name: string,
    dnsName: string,
    ipAddress: string,
    description: string,
    environment: string,
    lastDnsCheck: int,
    isDnsResolved: bool,
    tags: seq<string>)

  /** "<name> (<dns name>)". */
  function DisplayText(t: TargetServer): (r: string)
    ensures StartsWith(r, t.name + " (" + t.dnsName)
    ensures |r| == |t.name| + |t.dnsName| + 3 && r[|r| - 1] == ')'
  {
    t.name + " (" + t.dnsName + ")"
  }

  /** The address rules should use: the resolved address when there is one, else the DNS name. */
  function ResolvedAddress(t: TargetServer): (r: string)
    ensures r == t.ipAddress || r == t.dnsName
    ensures r == t.ipAddress <== !IsBlank(t.ipAddress)
    ensures IsBlank(t.ipAddress) ==> r == t.dnsName
  {
    if !IsBlank(t.ipAddress) then t.ipAddress else t.dnsName
  }

  /** "None" without tags, else the tags separated by ", ". */
  function TagsText(t: TargetServer): (r: string)
    ensures t.tags == [] ==> r == "None"
    ensures |t.tags| > 0 ==> r == Join(", ", t.tags)
  {
    if |t.tags| > 0 then Join(", ", t.tags) else "None"
  }

  /** An address literal, "localhost" in any letter case, or a recognised host name. */
  predicate IsValidDnsNameOrIp(parsers: Parsers, value: string) {
    !IsBlank(value)
    && (parsers.isIpLiteral(value) || EqualsIgnoreCase(value, "localhost") || parsers.isHostName(value))
  }

  predicate IsValid(parsers: Parsers, t: TargetServer) {
    !IsBlank(t.id) && !IsBlank(t.name) && !IsBlank(t.dnsName) && IsValidDnsNameOrIp(parsers, t.dnsName)
  }

  /** A string that reads "localhost" ignoring case is not blank. */
  lemma LocalhostNotBlank(value: string)
    requires EqualsIgnoreCase(value, "localhost")
    ensures !IsBlank(value)
  {
    assert ToLower(value)[0] == 'l';
    assert ToLowerChar(value[0]) == 'l';
  }

  /** "localhost" is accepted in any letter case, whatever the parsers say. */
  lemma LocalhostAccepted(parsers: Parsers, value: string)
    requires EqualsIgnoreCase(value, "localhost")
    ensures IsValidDnsNameOrIp(parsers, value)
  {
    LocalhostNotBlank(value);
  }
}

module AgentServers {
  import opened Text
  import opened Platform

  datatype AgentStatus = Disconnected | Connecting | Connected | Error

  /** A remote agent the client sends commands to. */
  datatype AgentServer = AgentServer(
    id: string,
    name: string,
    agentUrl: string,
    secretKey: string,
    description: string,
    siloId: string,
    environment: string,
    status: AgentStatus,
    lastSeen: int,
    version: string,
    ruleCount: int,
    tags: seq<string>)

  /** Non-blank id, name, URL and secret, and an absolute http(s) URL. */
  predicate IsValid(parsers: Parsers, a: AgentServer) {
    !IsBlank(a.id) && !IsBlank(a.name) && !IsBlank(a.agentUrl) && !IsBlank(a.secretKey)
    && parsers.isHttpUrl(a.agentUrl)
  }
}

module Silos {
  import opened Text
  import opened Mappings
  import opened AgentServers

  datatype SiloRole = UnknownRole | Active | Passive
  datatype SiloStatus = UnknownStatus | Healthy | Degraded | Unhealthy

  /** A group of agents that fail over together. */
  datatype Silo = Silo(
    id: string,
    name: string,
    description: string,
    dataCenter: string,
    role: SiloRole,
    status: SiloStatus,
    lastHealthCheck: int,
    /** The members as last gathered by the inventory. */
    agentServers: seq<AgentServer>,
    properties: Mapping,
    environments: seq<string>)

  const DefaultEnvironments: seq<string> := ["Test", "Production"]

  /** The positions of the agents that are connected. */
  ghost function ConnectedAt(agents: seq<AgentServer>): set<int> {
    set i | 0 <= i < |agents| && agents[i].status == Connected
  }

  /** The positions of the agents that are disconnected or in error. */
  ghost function OfflineAt(agents: seq<AgentServer>): set<int> {
    set i | 0 <= i < |agents| && agents[i].status in {Disconnected, Error}
  }

  /** The number of connected agents. */
  function CountConnected(agents: seq<AgentServer>): (n: nat)
    ensures n == |ConnectedAt(agents)| && n <= |agents|
  {
    if agents == [] then 0
    else
      var init := agents[..|agents| - 1];
      var last := |agents| - 1;
      assert ConnectedAt(agents) == ConnectedAt(init) + (if agents[last].status == Connected then {last} else {});
      CountConnected(init) + (if agents[last].status == Connected then 1 else 0)
  }

  /** The number of agents that are disconnected or in error. */
  function CountOffline(agents: seq<AgentServer>): (n: nat)
    ensures n == |OfflineAt(agents)| && n <= |agents|
  {
    if agents == [] then 0
    else
      var init := agents[..|agents| - 1];
      var last := |agents| - 1;
      assert OfflineAt(agents) == OfflineAt(init) + (if agents[last].status in {Disconnected, Error} then {last} else {});
      CountOffline(init) + (if agents[last].status in {Disconnected, Error} then 1 else 0)
  }

  function TotalServers(s: Silo): nat { |s.agentServers| }
  function OnlineServers(s: Silo): nat { CountConnected(s.agentServers) }
  function OfflineServers(s: Silo): nat { CountOffline(s.agentServers) }

  /**
   * Online and offline never overlap, and a connecting agent is in neither
   * count: the two add up to the total exactly when no agent is connecting.
   */
  lemma {:induction false} OnlineOfflineWithinTotal(agents: seq<AgentServer>)
    ensures CountConnected(agents) + CountOffline(agents) <= |agents|
    ensures CountConnected(agents) + CountOffline(agents) == |agents|
            <==> forall i :: 0 <= i < |agents| ==> agents[i].status != Connecting
  {
    if agents != [] {
      var init := agents[..|agents| - 1];
      OnlineOfflineWithinTotal(init);
      assert forall i :: 0 <= i < |init| ==> init[i] == agents[i];
    }
  }

  /** Online agents as a share of all agents, in percent; 0 for an empty silo. */
  function HealthPercentage(s: Silo): (r: real)
    ensures 0.0 <= r <= 100.0
    ensures TotalServers(s) == 0 ==> r == 0.0
    ensures TotalServers(s) > 0 ==> r * (TotalServers(s) as real) == (OnlineServers(s) as real) * 100.0
  {
    if TotalServers(s) > 0 then
      var online, total := OnlineServers(s) as real, TotalServers(s) as real;
      ShareTimesTotal(online, total);
      online / total * 100.0
    else 0.0
  }

  lemma ShareTimesTotal(online: real, total: real)
    requires total > 0.0
    ensures online / total * 100.0 * total == online * 100.0
  {
    assert online / total * total == online;
  }

  /** A share scaled by the total compares with a threshold as the integer counts do. */
  lemma ThresholdByCounts(r: real, online: nat, total: nat, threshold: int)
    requires total > 0 && r * (total as real) == (online as real) * 100.0
    ensures r >= threshold as real <==> online * 100 >= threshold * total
  {
    assert r >= threshold as real <==> r * (total as real) >= (threshold as real) * (total as real);
    assert (threshold * total) as real == (threshold as real) * (total as real);
    assert (online * 100) as real == (online as real) * 100.0;
  }

  /** The status band a percentage falls in. */
  function StatusFor(percent: real): SiloStatus {
    if percent >= 90.0 then Healthy else if percent >= 70.0 then Degraded else Unhealthy
  }

  /** The percentage thresholds are exact ratios of online to total agents. */
  lemma PercentageThresholds(s: Silo, threshold: int)
    requires TotalServers(s) > 0
    ensures HealthPercentage(s) >= threshold as real
            <==> OnlineServers(s) * 100 >= threshold * TotalServers(s)
  {
    ThresholdByCounts(HealthPercentage(s), OnlineServers(s), TotalServers(s), threshold);
  }

  /**
   * UpdateHealthStatus at time `now`: Unknown for an empty silo (the check
   * time stays), otherwise the band of the online share, with the check time
   * set.
   */
  function UpdateHealthStatus(s: Silo, now: int): (r: Silo)
    ensures r.(status := s.status, lastHealthCheck := s.lastHealthCheck) == s
    ensures TotalServers(s) == 0 ==> r.status == UnknownStatus && r.lastHealthCheck == s.lastHealthCheck
    ensures TotalServers(s) > 0 ==> r.lastHealthCheck == now
    ensures r.status == Healthy <==> TotalServers(s) > 0 && OnlineServers(s) * 100 >= 90 * TotalServers(s)
    ensures r.status == Degraded <==>
      TotalServers(s) > 0 && OnlineServers(s) * 100 < 90 * TotalServers(s) && OnlineServers(s) * 100 >= 70 * TotalServers(s)
    ensures r.status == Unhealthy <==> TotalServers(s) > 0 && OnlineServers(s) * 100 < 70 * TotalServers(s)
  {
    if TotalServers(s) == 0 then s.(status := UnknownStatus)
    else
      PercentageThresholds(s, 90);
      PercentageThresholds(s, 70);
      s.(status := StatusFor(HealthPercentage(s)), lastHealthCheck := now)
  }

  function RoleText(role: SiloRole): (r: string)
    ensures r == "ACTIVE" <==> role == Active
    ensures r == "PASSIVE" <==> role == Passive
    ensures role == UnknownRole ==> r == "UNKNOWN"
  {
    match role
    case Active => "ACTIVE"
    case Passive => "PASSIVE"
    case _ => "UNKNOWN"
  }

  predicate IsValid(s: Silo) {
    !IsBlank(s.id) && !IsBlank(s.name)
  }
}

=== FILE: client_netsh_service.dfy ===
/**
 * The client's own netsh front end, used when rules are managed on the local
 * machine: the add / delete / reset / show command lines and the parser of
 * the `show all` listing.
 */
module ClientNetsh {
  import opened Common
  import opened Text
  import opened Platform
  import opened Protocols
  import opened ClientRules
  import opened NetshTool
  import NetshExecutor
  import AgentModels

  const ShowAllArguments: string := "interface portproxy show all"
  const ResetArguments: string := "interface portproxy reset"

  function AddArguments(rule: PortForwardRule): string {
    "interface portproxy add " + ProtocolString(rule.protocol) + " listenport=" + rule.listenPort
    + " listenaddress=" + rule.listenAddress + " connectport=" + rule.forwardPort
    + " connectaddress=" + rule.forwardAddress
  }

  function DeleteArguments(rule: PortForwardRule): string {
    "interface portproxy delete " + ProtocolString(rule.protocol) + " listenport=" + rule.listenPort
    + " listenaddress=" + rule.listenAddress
  }

  /** The command the agent would be sent for the same rule. */
  function AsAgentCommand(rule: PortForwardRule, command: string): AgentModels.AgentCommand {
    AgentModels.AgentCommand(command, rule.listenPort, rule.listenAddress, rule.forwardPort,
                             rule.forwardAddress, ProtocolString(rule.protocol), rule.description, "")
  }

  /** The client issues the same command lines for a rule as the agent does. */
  lemma CommandsMatchAgent(rule: PortForwardRule, command: string)
    ensures AddArguments(rule) == NetshExecutor.AddArguments(AsAgentCommand(rule, command))
    ensures DeleteArguments(rule) == NetshExecutor.DeleteArguments(AsAgentCommand(rule, command))
    ensures NetshExecutor.ShowAllArguments == ShowAllArguments && NetshExecutor.ResetArguments == ResetArguments
  {
  }

  /** A listing line the parser skips before splitting: blank, or a header word. */
  predicate IsSkipped(line: string) {
    IsBlank(line) || Contains(line, "Listen on") || Contains(line, "Address") || Contains(line, "---")
    || Contains(line, "ipv4") || Contains(line, "Port")
  }

  /** line.Split(new char[0], RemoveEmptyEntries): the pieces between white space. */
  function Fields(line: string): seq<string> {
    Split(line, IsWhiteSpace)
  }

  /** The rule built from the first four fields, with every other property at its default. */
  function Candidate(parts: seq<string>, now: int): (r: PortForwardRule)
    requires |parts| >= 4
    ensures r.listenAddress == parts[0] && r.listenPort == parts[1]
    ensures r.forwardAddress == parts[2] && r.forwardPort == parts[3] && r.protocol == V4ToV4
    ensures r.description == ""
  {
    NewRule(now).(listenAddress := parts[0], listenPort := parts[1],
                  forwardAddress := parts[2], forwardPort := parts[3], protocol := V4ToV4)
  }

  /** ParseRuleLine: a rule only for a data line of four or more fields whose rule passes IsValid. */
  function ParseRuleLine(parsers: Parsers, line: string, now: int): (r: Option<PortForwardRule>)
    ensures IsSkipped(line) || |Fields(line)| < 4 ==> r.None?
    ensures r.Some? ==> IsValid(parsers, r.value) && r.value == Candidate(Fields(line), now)
  {
    if IsSkipped(line) then None
    else
      var parts := Fields(line);
      if |parts| < 4 then None
      else
        var rule := Candidate(parts, now);
        if IsValid(parsers, rule) then Some(rule) else None
  }

  /**
   * As written the parser never yields a rule: IsValid demands a
   * description and the parsed rule has none.
   */
  lemma ParseRuleLineNeverYields(parsers: Parsers, line: string, now: int)
    ensures ParseRuleLine(parsers, line, now).None?
  {
    if !IsSkipped(line) && |Fields(line)| >= 4 {
      assert IsBlank(Candidate(Fields(line), now).description);
    }
  }

  predicate IsNewline(c: char) { c == '\n' }

  /** Output.Split('\n', RemoveEmptyEntries). */
  function OutputLines(output: string): seq<string> {
    Split(output, IsNewline)
  }

  /** The rules parsed from the lines, in order. */
  function ParsedRules(parsers: Parsers, lines: seq<string>, now: int): (r: seq<PortForwardRule>)
    ensures |r| <= |lines|
    ensures forall i :: 0 <= i < |r| ==> IsValid(parsers, r[i])
  {
    if lines == [] then []
    else
      var init := ParsedRules(parsers, lines[..|lines| - 1], now);
      match ParseRuleLine(parsers, lines[|lines| - 1], now)
      case None => init
      case Some(rule) => init + [rule]
  }

  /** Hence ParseRulesAsync always returns an empty list. */
  lemma {:induction false} ParsedRulesEmpty(parsers: Parsers, lines: seq<string>, now: int)
    ensures ParsedRules(parsers, lines, now) == []
  {
    if lines != [] {
      ParsedRulesEmpty(parsers, lines[..|lines| - 1], now);
      ParseRuleLineNeverYields(parsers, lines[|lines| - 1], now);
    }
  }

  class NetshService {
    const host: Host
    const parsers: Parsers

    constructor (host: Host, parsers: Parsers)
      ensures this.host == host && this.parsers == parsers
    {
      this.host := host;
      this.parsers := parsers;
    }

    method GetAllRules() returns (r: ToolResult)
      modifies host
      ensures host.history == old(host.history) + [ShowAllArguments]
      ensures r == host.respond(old(host.history), ShowAllArguments)
    {
      r := host.Run(ShowAllArguments);
    }

    /** ParseRulesAsync at time `now`: the listing's lines parsed in order; nothing when netsh failed. */
    method ParseRules(now: int) returns (rules: seq<PortForwardRule>)
      modifies host
      ensures host.history == old(host.history) + [ShowAllArguments]
      ensures var out := host.respond(old(host.history), ShowAllArguments);
        rules == if out.success then ParsedRules(parsers, OutputLines(out.output), now) else []
      ensures rules == []
    {
      var result := GetAllRules();
      rules := [];
      if !result.success {
        return;
      }
      var lines := OutputLines(result.output);
      var i := 0;
      while i < |lines|
        invariant 0 <= i <= |lines|
        invariant rules == ParsedRules(parsers, lines[..i], now)
      {
        assert lines[..i + 1][..i] == lines[..i];
        match ParseRuleLine(parsers, lines[i], now) {
          case Some(rule) => rules := rules + [rule];
          case None =>
        }
        i := i + 1;
      }
      assert lines[..i] == lines;
      ParsedRulesEmpty(parsers, lines, now);
    }

    method AddRule(rule: PortForwardRule) returns (r: ToolResult)
      modifies host
      ensures host.history == old(host.history) + [AddArguments(rule)]
      ensures r == host.respond(old(host.history), AddArguments(rule))
    {
      var command := "interface portproxy add " + ProtocolString(rule.protocol) + " listenport=" + rule.listenPort
                     + " listenaddress=" + rule.listenAddress + " connectport=" + rule.forwardPort
                     + " connectaddress=" + rule.forwardAddress;
      r := host.Run(command);
    }

    method DeleteRule(rule: PortForwardRule) returns (r: ToolResult)
      modifies host
      ensures host.history == old(host.history) + [DeleteArguments(rule)]
      ensures r == host.respond(old(host.history), DeleteArguments(rule))
    {
      var command := "interface portproxy delete " + ProtocolString(rule.protocol) + " listenport=" + rule.listenPort
                     + " listenaddress=" + rule.listenAddress;
      r := host.Run(command);
    }

    method ResetAllRules() returns (r: ToolResult)
      modifies host
      ensures host.history == old(host.history) + [ResetArguments]
      ensures r == host.respond(old(host.history), ResetArguments)
    {
      r := host.Run(ResetArguments);
    }
  }
}

=== FILE: common.dfy ===
/**
 * Shared vocabulary of the model: optional values and results, the string
 * operations of the .NET base library the applications rely on, the clock,
 * and the platform parsers the model treats as given.
 */
module Common {
  datatype Option<T> = None | Some(value: T)

  /** An operation that either produces a value or fails with an error. */
  datatype Result<T, E> = Success(value: T) | Failure(error: E)
}

module Text {
  import opened Common

  /**
   * char.IsWhiteSpace: the Unicode separator categories (Zs, Zl, Zp) plus the
   * control characters U+0009..U+000D and U+0085.
   */
  predicate IsWhiteSpace(c: char) {
    ('\U{9}' <= c <= '\U{D}') || c == ' ' || c == '\U{85}' || c == '\U{A0}'
    || c == '\U{1680}' || ('\U{2000}' <= c <= '\U{200A}') || c == '\U{2028}'
    || c == '\U{2029}' || c == '\U{202F}' || c == '\U{205F}' || c == '\U{3000}'
  }

  /** string.IsNullOrWhiteSpace on a non-null string. */
  predicate IsBlank(s: string) {
    forall i :: 0 <= i < |s| ==> IsWhiteSpace(s[i])
  }

  /** Drops leading whitespace. */
  function TrimStart(s: string): (r: string)
    ensures |r| <= |s| && r == s[|s| - |r|..]
    ensures IsBlank(s[..|s| - |r|])
    ensures r == [] || !IsWhiteSpace(r[0])
  {
    if s != [] && IsWhiteSpace(s[0]) then TrimStart(s[1..]) else s
  }

  /** Drops trailing whitespace. */
  function TrimEnd(s: string): (r: string)
    ensures |r| <= |s| && r == s[..|r|]
    ensures IsBlank(s[|r|..])
    ensures r == [] || !IsWhiteSpace(r[|r| - 1])
  {
    if s != [] && IsWhiteSpace(s[|s| - 1]) then
      var r := TrimEnd(s[..|s| - 1]);
      assert s[|r|..] == s[..|s| - 1][|r|..] + [s[|s| - 1]];
      r
    else s
  }

  /** string.Trim(): whitespace removed from both ends. */
  function Trim(s: string): (r: string)
    ensures r == [] || (!IsWhiteSpace(r[0]) && !IsWhiteSpace(r[|r| - 1]))
    ensures r == [] <==> IsBlank(s)
  {
    TrimEnd(TrimStart(s))
  }

  predicate StartsWith(s: string, prefix: string) {
    |prefix| <= |s| && s[..|prefix|] == prefix
  }

  /** string.Contains (ordinal). */
  predicate Contains(s: string, sub: string)
    decreases |s|
  {
    StartsWith(s, sub) || (s != [] && Contains(s[1..], sub))
  }

  function ToLowerChar(c: char): (r: char)
    ensures 'A' <= c <= 'Z' ==> 'a' <= r <= 'z'
    ensures !('A' <= c <= 'Z') ==> r == c
  {
    if 'A' <= c <= 'Z' then (c as int + 32) as char else c
  }

  /** ToLowerInvariant / ToLower on the ASCII letters. */
  function ToLower(s: string): (r: string)
    ensures |r| == |s|
    ensures forall i :: 0 <= i < |s| ==> r[i] == ToLowerChar(s[i])
  {
    seq(|s|, i requires 0 <= i < |s| => ToLowerChar(s[i]))
  }

  /** StringComparison.OrdinalIgnoreCase equality on ASCII case. */
  predicate EqualsIgnoreCase(a: string, b: string) {
    ToLower(a) == ToLower(b)
  }

  /** The pieces of `s` between separator characters, empty pieces dropped. */
  function SplitAcc(s: string, isSep: char -> bool, current: string): (r: seq<string>)
    requires forall i :: 0 <= i < |current| ==> !isSep(current[i])
    ensures forall k :: 0 <= k < |r| ==> |r[k]| > 0
    ensures forall k, i :: 0 <= k < |r| && 0 <= i < |r[k]| ==> !isSep(r[k][i])
    decreases |s|
  {
    if s == [] then
      (if current == [] then [] else [current])
    else if isSep(s[0]) then
      (if current == [] then [] else [current]) + SplitAcc(s[1..], isSep, [])
    else
      SplitAcc(s[1..], isSep, current + [s[0]])
  }

  /** string.Split(separators, StringSplitOptions.RemoveEmptyEntries). */
  function Split(s: string, isSep: char -> bool): seq<string> {
    SplitAcc(s, isSep, [])
  }

  /** A run of non-separators is carried into the current piece. */
  lemma {:induction false} SplitAccWord(w: string, rest: string, isSep: char -> bool, current: string)
    requires forall i :: 0 <= i < |current| ==> !isSep(current[i])
    requires forall i :: 0 <= i < |w| ==> !isSep(w[i])
    ensures SplitAcc(w + rest, isSep, current) == SplitAcc(rest, isSep, current + w)
    decreases |w|
  {
    if w == [] {
      assert w + rest == rest && current + w == current;
    } else {
      assert (w + rest)[0] == w[0] && (w + rest)[1..] == w[1..] + rest;
      SplitAccWord(w[1..], rest, isSep, current + [w[0]]);
      assert current + [w[0]] + w[1..] == current + w;
    }
  }

  /** A separator closes the current piece. */
  lemma SplitAccSeparator(c: char, rest: string, isSep: char -> bool, current: string)
    requires forall i :: 0 <= i < |current| ==> !isSep(current[i])
    requires isSep(c)
    ensures SplitAcc([c] + rest, isSep, current) == (if current == [] then [] else [current]) + SplitAcc(rest, isSep, [])
  {
    assert ([c] + rest)[0] == c && ([c] + rest)[1..] == rest;
  }

  /** A validation message: present exactly when its check failed. */
  function ErrorIf(failed: bool, message: string): (r: seq<string>)
    ensures r == [] <==> !failed
    ensures failed ==> r == [message]
  {
    if failed then [message] else []
  }

  /**
   * A validator's messages: the message of every check that failed, in the
   * order the checks are made (`failed[k]` says whether check k failed).
   */
  function Failures(failed: seq<bool>, messages: seq<string>): (r: seq<string>)
    requires |failed| == |messages|
    ensures |r| <= |messages|
  {
    if failed == [] then []
    else ErrorIf(failed[0], messages[0]) + Failures(failed[1..], messages[1..])
  }

  predicate Distinct(messages: seq<string>) {
    forall i, j :: 0 <= i < j < |messages| ==> messages[i] != messages[j]
  }

  /** The position of the first check with `message`; |messages| when there is none. */
  function IndexOf(messages: seq<string>, message: string): (k: nat)
    ensures k <= |messages|
    ensures k < |messages| ==> messages[k] == message
  {
    if messages == [] then 0
    else if messages[0] == message then 0
    else 1 + IndexOf(messages[1..], message)
  }

  /** Only the checks' own messages come out, and none at all exactly when no check failed. */
  lemma {:induction false} FailuresFromChecks(failed: seq<bool>, messages: seq<string>)
    requires |failed| == |messages|
    ensures var r := Failures(failed, messages);
      (forall i :: 0 <= i < |r| ==> IndexOf(messages, r[i]) < |messages|)
      && (r == [] <==> forall k :: 0 <= k < |failed| ==> !failed[k])
  {
    if failed != [] {
      var r, rest := Failures(failed, messages), Failures(failed[1..], messages[1..]);
      FailuresFromChecks(failed[1..], messages[1..]);
      forall i | 0 <= i < |r|
        ensures IndexOf(messages, r[i]) < |messages|
      {
        if failed[0] && i == 0 {
          assert r[i] == messages[0];
        } else {
          var x := rest[if failed[0] then i - 1 else i];
          assert r[i] == x;
          if messages[0] != x {
            assert IndexOf(messages, x) == 1 + IndexOf(messages[1..], x);
          }
        }
      }
      if !failed[0] {
        assert forall k :: 1 <= k < |failed| ==> failed[k] == failed[1..][k - 1];
      }
    }
  }

  /** A single check reports its message exactly when it failed. */
  lemma FailuresOne(failed: bool, message: string)
    ensures Failures([failed], [message]) == ErrorIf(failed, message)
  {
    assert [failed][1..] == [] && [message][1..] == [];
  }

  /** Two groups of checks made one after the other report the first group's messages, then the second's. */
  lemma {:induction false} FailuresAppend(f1: seq<bool>, m1: seq<string>, f2: seq<bool>, m2: seq<string>)
    requires |f1| == |m1| && |f2| == |m2|
    ensures Failures(f1 + f2, m1 + m2) == Failures(f1, m1) + Failures(f2, m2)
  {
    if f1 != [] {
      assert (f1 + f2)[1..] == f1[1..] + f2 && (m1 + m2)[1..] == m1[1..] + m2;
      FailuresAppend(f1[1..], m1[1..], f2, m2);
    } else {
      assert f1 + f2 == f2 && m1 + m2 == m2;
    }
  }

  /** With distinct messages, each message is present exactly when its check failed. */
  lemma {:induction false} FailuresPresentExactly(failed: seq<bool>, messages: seq<string>)
    requires |failed| == |messages| && Distinct(messages)
    ensures forall k :: 0 <= k < |messages| ==> (messages[k] in Failures(failed, messages) <==> failed[k])
  {
    if failed != [] {
      var r, rest := Failures(failed, messages), Failures(failed[1..], messages[1..]);
      assert r == ErrorIf(failed[0], messages[0]) + rest;
      LaterMessages(failed, messages);
      FailuresPresentExactly(failed[1..], messages[1..]);
      forall k | 0 <= k < |messages|
        ensures messages[k] in r <==> failed[k]
      {
        if k == 0 {
          assert forall i :: 0 <= i < |rest| ==> rest[i] != messages[0];
        } else {
          assert messages[k] == messages[1..][k - 1] && messages[k] != messages[0];
          assert messages[k] in r <==> messages[k] in rest;
        }
      }
    }
  }

  /** With distinct messages, the messages come out in the order of their checks. */
  lemma {:induction false} FailuresInCheckOrder(failed: seq<bool>, messages: seq<string>)
    requires |failed| == |messages| && Distinct(messages)
    ensures forall i, j :: 0 <= i < j < |Failures(failed, messages)| ==>
      IndexOf(messages, Failures(failed, messages)[i]) < IndexOf(messages, Failures(failed, messages)[j])
  {
    if failed != [] {
      var r, rest := Failures(failed, messages), Failures(failed[1..], messages[1..]);
      assert r == ErrorIf(failed[0], messages[0]) + rest;
      LaterMessages(failed, messages);
      FailuresInCheckOrder(failed[1..], messages[1..]);
      assert IndexOf(messages, messages[0]) == 0;
      OrderAfterFirst(x => IndexOf(messages, x), x => IndexOf(messages[1..], x), ErrorIf(failed[0], messages[0]), rest);
    }
  }

  /**
   * Messages ordered by their place among the later checks stay ordered by
   * their place among all checks when the first check's message goes in front.
   */
  lemma OrderAfterFirst(rank: string -> nat, laterRank: string -> nat, head: seq<string>, rest: seq<string>)
    requires |head| <= 1 && forall i :: 0 <= i < |head| ==> rank(head[i]) == 0
    requires forall i :: 0 <= i < |rest| ==> rank(rest[i]) == 1 + laterRank(rest[i])
    requires forall i, j :: 0 <= i < j < |rest| ==> laterRank(rest[i]) < laterRank(rest[j])
    ensures forall i, j :: 0 <= i < j < |head + rest| ==> rank((head + rest)[i]) < rank((head + rest)[j])
  {
    var r := head + rest;
    forall i, j | 0 <= i < j < |r|
      ensures rank(r[i]) < rank(r[j])
    {
      assert r[j] == rest[j - |head|];
      if i >= |head| {
        assert r[i] == rest[i - |head|];
      }
    }
  }

  /** The messages of the checks after the first are not the first check's, and sit one place further on. */
  lemma LaterMessages(failed: seq<bool>, messages: seq<string>)
    requires |failed| == |messages| > 0 && Distinct(messages)
    ensures forall i :: 0 <= i < |Failures(failed[1..], messages[1..])| ==>
      Failures(failed[1..], messages[1..])[i] != messages[0]
      && IndexOf(messages, Failures(failed[1..], messages[1..])[i])
         == 1 + IndexOf(messages[1..], Failures(failed[1..], messages[1..])[i])
  {
    var rest := Failures(failed[1..], messages[1..]);
    FailuresFromChecks(failed[1..], messages[1..]);
    forall i | 0 <= i < |rest|
      ensures rest[i] != messages[0]
    {
      var k := IndexOf(messages[1..], rest[i]);
      assert messages[k + 1] == rest[i];
    }
  }

  /** string.Join(separator, parts). */
  function Join(sep: string, parts: seq<string>): (r: string)
    ensures parts == [] ==> r == ""
    ensures |parts| == 1 ==> r == parts[0]
  {
    if parts == [] then ""
    else if |parts| == 1 then parts[0]
    else parts[0] + sep + Join(sep, parts[1..])
  }

  /** Joining non-empty pieces gives the empty string only when there are none. */
  lemma JoinEmptyIff(sep: string, parts: seq<string>)
    requires forall i :: 0 <= i < |parts| ==> parts[i] != ""
    ensures Join(sep, parts) == "" <==> parts == []
  {
    if |parts| >= 2 {
      assert |Join(sep, parts)| >= |parts[0]| > 0;
    }
  }

  function DigitChar(d: nat): char
    requires d < 10
  {
    ('0' as int + d) as char
  }

  /** Decimal rendering of a natural number (int.ToString() for n >= 0). */
  function NatToString(n: nat): (r: string)
    ensures |r| > 0
    ensures forall i :: 0 <= i < |r| ==> '0' <= r[i] <= '9'
    decreases n
  {
    if n < 10 then [DigitChar(n)] else NatToString(n / 10) + [DigitChar(n % 10)]
  }

  /** int.ToString() in the invariant culture. */
  function IntToString(i: int): string {
    if i < 0 then "-" + NatToString(-i) else NatToString(i)
  }

  predicate IsDigit(c: char) { '0' <= c <= '9' }

  predicate AllDigits(s: string) {
    forall i :: 0 <= i < |s| ==> IsDigit(s[i])
  }

  /** The value of a string of ASCII digits, most significant first. */
  function DigitsValue(s: string): nat
    requires AllDigits(s)
  {
    if s == [] then 0
    else
      assert IsDigit(s[|s| - 1]);
      DigitsValue(s[..|s| - 1]) * 10 + (s[|s| - 1] as int - '0' as int)
  }

  const Int32Min: int := -0x8000_0000
  const Int32Max: int := 0x7FFF_FFFF

  /** The white space NumberStyles.Integer allows around a number: U+0009..U+000D and U+0020. */
  predicate IsNumberWhite(c: char) { '\U{9}' <= c <= '\U{D}' || c == ' ' }

  function StripNumberWhite(s: string): (r: string)
    ensures |r| <= |s|
    ensures forall k :: 0 <= k < |r| ==> r[k] in s
    decreases |s|
  {
    if s != [] && IsNumberWhite(s[0]) then StripNumberWhite(s[1..])
    else if s != [] && IsNumberWhite(s[|s| - 1]) then StripNumberWhite(s[..|s| - 1])
    else s
  }

  /**
   * int.TryParse(s, out n) with NumberStyles.Integer: optional surrounding
   * white space, an optional sign, at least one ASCII digit, and a value that
   * fits in 32 bits.
   */
  function TryParseInt32(s: string): (r: Option<int>)
    ensures r.Some? ==> Int32Min <= r.value <= Int32Max
    ensures s == "" ==> r.None?
  {
    var t := StripNumberWhite(s);
    var negative := t != [] && t[0] == '-';
    var body := if t != [] && (t[0] == '-' || t[0] == '+') then t[1..] else t;
    if body == [] || !AllDigits(body) then None
    else
      var v: int := if negative then 0 - DigitsValue(body) as int else DigitsValue(body);
      if Int32Min <= v <= Int32Max then Some(v) else None
  }

  /** A blank string is not a number: the sign and digit checks fail on white space. */
  lemma BlankIsNotNumber(s: string)
    requires IsBlank(s)
    ensures TryParseInt32(s).None?
  {
    var t := StripNumberWhite(s);
    if t != [] {
      assert t[0] in s;
      var k :| 0 <= k < |s| && s[k] == t[0];
      assert IsWhiteSpace(s[k]);
      assert t[0] != '-' && t[0] != '+' && !IsDigit(t[0]);
      assert !AllDigits(t);
    }
  }

  lemma {:induction false} DigitsValueOfNatToString(n: nat)
    ensures DigitsValue(NatToString(n)) == n
    decreases n
  {
    var s := NatToString(n);
    if n >= 10 {
      DigitsValueOfNatToString(n / 10);
      assert s[..|s| - 1] == NatToString(n / 10);
    }
  }

  /** Rendering a number and parsing it back gives the number (when it fits in 32 bits). */
  lemma ParseIntOfNatToString(n: nat)
    requires n <= Int32Max
    ensures TryParseInt32(NatToString(n)) == Some(n)
  {
    var s := NatToString(n);
    assert s[0] != '-' && s[0] != '+' && !IsNumberWhite(s[0]) && !IsNumberWhite(s[|s| - 1]);
    assert StripNumberWhite(s) == s;
    assert AllDigits(s);
    DigitsValueOfNatToString(n);
  }
}

/** DateTime values as 100-nanosecond ticks; DateTime.MinValue is tick 0. */
module Clock {
  const MinValue: int := 0
  const TicksPerMinute: int := 600_000_000
  const TicksPerHour: int := 60 * TicksPerMinute
  const TicksPerDay: int := 24 * TicksPerHour

  /** (int)TimeSpan.TotalX for a span of `ticks`: truncation toward zero. */
  function WholeUnits(ticks: int, unit: int): (r: int)
    requires unit > 0
    ensures ticks >= 0 ==> r * unit <= ticks < (r + 1) * unit
    ensures ticks < 0 ==> r <= 0
  {
    if ticks >= 0 then ticks / unit else -((-ticks) / unit)
  }

  /** A span of at least one unit and under k units holds between 1 and k - 1 whole units. */
  lemma DivBounds(span: int, unit: int, k: int)
    requires 0 < unit <= span < k * unit
    ensures 1 <= span / unit < k
  {
    var q := span / unit;
    assert q * unit <= span < (q + 1) * unit;
    FactorLess(1, q + 1, unit);
    FactorLess(q, k, unit);
  }

  lemma FactorLess(a: int, b: int, unit: int)
    requires unit > 0 && a * unit < b * unit
    ensures a < b
  {
  }
}

/** The framework parsers for addresses, host names and URLs, taken as given. */
module Platform {
  datatype Parsers = Parsers(
    /** IPAddress.TryParse(s, out _) succeeds. */
    isIpLiteral: string -> bool,
    /** IPAddress.Parse(s).ToString(): the canonical text of an address literal. */
    canonicalIp: string -> string,
    /** Uri.CheckHostName(s) is not UriHostNameType.Unknown. */
    isHostName: string -> bool,
    /** Uri.TryCreate(s, UriKind.Absolute) succeeds with an http or https scheme. */
    isHttpUrl: string -> bool)
}

=== FILE: dns_service.dfy ===
/**
 * The client's DNS resolver: answers from a five-minute cache keyed by the
 * exact host name, short-circuits "localhost" and address literals, and
 * otherwise takes the first IPv4 address of a lookup. Every fresh answer,
 * failures included, is cached.
 */
module Dns {
  import opened Common
  import opened Text
  import opened Platform
  import Clock

  /** One address a lookup returned. */
  datatype HostAddress = HostAddress(isIpv4: bool, text: string)

  /** Dns.GetHostAddressesAsync: the addresses, or the message of the exception it threw. */
  datatype LookupOutcome = Addresses(addresses: seq<HostAddress>) | LookupFailed(message: string)

  datatype DnsResolutionResult = DnsResolutionResult(
    success: bool,
    resolvedIp: string,
    hostname: string,
    error: string,
    fromCache: bool)

  datatype DnsCacheEntry = DnsCacheEntry(ipAddress: string, success: bool, resolvedAt: int)

  const CacheTimeout: int := 5 * Clock.TicksPerMinute
  const Loopback: string := "127.0.0.1"
  const NoIpv4: string := "No IPv4 address found"

  /** The first IPv4 address in the list. */
  function FirstIpv4(addresses: seq<HostAddress>): (r: Option<string>)
    ensures r.None? <==> forall i :: 0 <= i < |addresses| ==> !addresses[i].isIpv4
    ensures r.Some? ==> exists i :: 0 <= i < |addresses| && addresses[i].isIpv4 && addresses[i].text == r.value
                          && forall j :: 0 <= j < i ==> !addresses[j].isIpv4
  {
    if addresses == [] then None
    else if addresses[0].isIpv4 then Some(addresses[0].text)
    else
      var r := FirstIpv4(addresses[1..]);
      if r.Some? then
        var i :| 0 <= i < |addresses| - 1 && addresses[1..][i].isIpv4 && addresses[1..][i].text == r.value
                   && forall j :: 0 <= j < i ==> !addresses[1..][j].isIpv4;
        assert addresses[i + 1].isIpv4 && addresses[i + 1].text == r.value;
        r
      else r
  }

  /** The answer without the cache: localhost, then address literals, then the lookup. */
  function FreshResolution(parsers: Parsers, hostname: string, lookup: LookupOutcome): (r: DnsResolutionResult)
    ensures r.hostname == hostname && !r.fromCache
    ensures !r.success ==> r.resolvedIp == ""
    ensures EqualsIgnoreCase(hostname, "localhost") ==> r.success && r.resolvedIp == Loopback
    ensures !EqualsIgnoreCase(hostname, "localhost") && parsers.isIpLiteral(hostname) ==>
      r.success && r.resolvedIp == parsers.canonicalIp(hostname)
    ensures !EqualsIgnoreCase(hostname, "localhost") && !parsers.isIpLiteral(hostname) ==>
      match lookup
      case LookupFailed(message) => !r.success && r.error == message
      case Addresses(addresses) =>
        (r.success <==> FirstIpv4(addresses).Some?)
        && (r.success ==> r.resolvedIp == FirstIpv4(addresses).value)
        && (!r.success ==> r.error == NoIpv4)
    ensures r.success ==> r.error == ""
  {
    if EqualsIgnoreCase(hostname, "localhost") then DnsResolutionResult(true, Loopback, hostname, "", false)
    else if parsers.isIpLiteral(hostname) then DnsResolutionResult(true, parsers.canonicalIp(hostname), hostname, "", false)
    else match lookup
      case LookupFailed(message) => DnsResolutionResult(false, "", hostname, message, false)
      case Addresses(addresses) =>
        match FirstIpv4(addresses)
        case Some(ip) => DnsResolutionResult(true, ip, hostname, "", false)
        case None => DnsResolutionResult(false, "", hostname, NoIpv4, false)
  }

  /** An entry still inside the five-minute window at `now`. */
  predicate Fresh(entry: DnsCacheEntry, now: int) {
    now - entry.resolvedAt < CacheTimeout
  }

  /** CacheResult: the entry a result leaves behind. */
  function EntryFor(r: DnsResolutionResult, now: int): DnsCacheEntry {
    DnsCacheEntry(r.resolvedIp, r.success, now)
  }

  /** ResolveDnsAsync as a function of the cache: the answer and the cache afterwards. */
  function Resolution(cache: map<string, DnsCacheEntry>, parsers: Parsers, hostname: string, now: int, lookup: LookupOutcome)
    : (out: (DnsResolutionResult, map<string, DnsCacheEntry>))
    ensures out.0.hostname == hostname
    ensures hostname in cache && Fresh(cache[hostname], now) ==>
      out.1 == cache && out.0 == DnsResolutionResult(cache[hostname].success, cache[hostname].ipAddress, hostname, "", true)
    ensures !(hostname in cache && Fresh(cache[hostname], now)) ==>
      out.0 == FreshResolution(parsers, hostname, lookup) && out.1 == cache[hostname := EntryFor(out.0, now)]
    ensures out.1.Keys == cache.Keys + {hostname}
    ensures forall k :: k in cache && k != hostname ==> out.1[k] == cache[k]
  {
    if hostname in cache && Fresh(cache[hostname], now) then
      var e := cache[hostname];
      (DnsResolutionResult(e.success, e.ipAddress, hostname, "", true), cache)
    else
      var r := FreshResolution(parsers, hostname, lookup);
      (r, cache[hostname := EntryFor(r, now)])
  }

  /**
   * A second query for the same name within five minutes of a fresh answer is
   * served from the cache, with the same verdict and address, whatever the
   * lookup would now say.
   */
  lemma RepeatWithinTimeoutIsCached(cache: map<string, DnsCacheEntry>, parsers: Parsers, hostname: string,
                                    t1: int, lookup1: LookupOutcome, t2: int, lookup2: LookupOutcome)
    requires !Resolution(cache, parsers, hostname, t1, lookup1).0.fromCache
    requires t2 - t1 < CacheTimeout
    ensures var (r1, c1) := Resolution(cache, parsers, hostname, t1, lookup1);
      var (r2, c2) := Resolution(c1, parsers, hostname, t2, lookup2);
      r2.fromCache && r2.success == r1.success && r2.resolvedIp == r1.resolvedIp && c2 == c1
  {
  }

  /** Failures are cached too: a failed lookup keeps answering failure for five minutes. */
  lemma FailureIsCached(cache: map<string, DnsCacheEntry>, parsers: Parsers, hostname: string,
                        t1: int, t2: int, lookup2: LookupOutcome)
    requires !EqualsIgnoreCase(hostname, "localhost") && !parsers.isIpLiteral(hostname)
    requires !(hostname in cache && Fresh(cache[hostname], t1))
    requires t2 - t1 < CacheTimeout
    ensures var (r1, c1) := Resolution(cache, parsers, hostname, t1, Addresses([]));
      !r1.success && r1.error == NoIpv4
      && !Resolution(c1, parsers, hostname, t2, lookup2).0.success
  {
  }

  class DnsService {
    var cache: map<string, DnsCacheEntry>

    constructor ()
      ensures cache == map[]
    {
      cache := map[];
    }

    /** ResolveDnsAsync at time `now`; `lookup` is what the system resolver would answer. */
    method ResolveDns(parsers: Parsers, hostname: string, now: int, lookup: LookupOutcome) returns (r: DnsResolutionResult)
      modifies this
      ensures (r, cache) == Resolution(old(cache), parsers, hostname, now, lookup)
    {
      if hostname in cache && now - cache[hostname].resolvedAt < CacheTimeout {
        var e := cache[hostname];
        return DnsResolutionResult(e.success, e.ipAddress, hostname, "", true);
      }
      if EqualsIgnoreCase(hostname, "localhost") {
        r := DnsResolutionResult(true, Loopback, hostname, "", false);
      } else if parsers.isIpLiteral(hostname) {
        r := DnsResolutionResult(true, parsers.canonicalIp(hostname), hostname, "", false);
      } else if lookup.LookupFailed? {
        r := DnsResolutionResult(false, "", hostname, lookup.message, false);
      } else {
        var ipv4 := FirstIpv4(lookup.addresses);
        if ipv4.Some? {
          r := DnsResolutionResult(true, ipv4.value, hostname, "", false);
        } else {
          r := DnsResolutionResult(false, "", hostname, NoIpv4, false);
        }
      }
      CacheResult(hostname, r, now);
    }

    method CacheResult(hostname: string, r: DnsResolutionResult, now: int)
      modifies this
      ensures cache == old(cache)[hostname := EntryFor(r, now)]
    {
      cache := cache[hostname := DnsCacheEntry(r.resolvedIp, r.success, now)];
    }

    method ClearCache()
      modifies this
      ensures cache == map[]
    {
      cache := map[];
    }

    /** ClearExpiredCache: exactly the entries aged five minutes or more go; the rest stay as they were. */
    method ClearExpiredCache(now: int)
      modifies this
      ensures cache == map k | k in old(cache) && Fresh(old(cache)[k], now) :: old(cache)[k]
      ensures forall k :: k in cache ==> Fresh(cache[k], now)
    {
      var expiredKeys := set k | k in cache && now - cache[k].resolvedAt >= CacheTimeout;
      ghost var c0 := cache;
      while expiredKeys != {}
        invariant expiredKeys <= c0.Keys
        invariant forall k :: k in expiredKeys ==> !Fresh(c0[k], now)
        invariant cache == map k | k in c0 && (Fresh(c0[k], now) || k in expiredKeys) :: c0[k]
        decreases |expiredKeys|
      {
        var key :| key in expiredKeys;
        cache := cache - {key};
        expiredKeys := expiredKeys - {key};
      }
    }
  }
}

=== FILE: encryption_services.dfy ===
/**
 * The two services that apply the envelope: the agent's EncryptionService
 * and the client's AgentEncryptionService. They seal and verify the same way
 * (Envelope.Seal, Envelope.VerifyMessage); they differ in what a failed
 * decryption throws.
 */
module AgentEncryption {
  import opened Common
  import opened Envelope
  import Exceptions

  /**
   * DecryptMessageAsync on the agent: an UnauthorizedAccessException when
   * verification fails, otherwise the decoding or decryption failure as
   * thrown, or the plaintext.
   */
  method DecryptMessage(p: Primitives, m: EncryptedMessage, secret: string, now: int) returns (r: Result<string, Exceptions.Exception>)
    ensures r == Decrypt(p, m, secret, now)
  {
    var ok := VerifyMessage(p, m, secret, now);
    if !ok {
      return Failure(Exceptions.Exception(Exceptions.UnauthorizedAccess, VerificationFailed));
    }
    r := Open(p, m, secret);
  }
}

module ClientEncryption {
  import opened Common
  import Clock
  import opened Envelope
  import Exceptions

  const DecryptFailurePrefix: string := "Failed to decrypt message: "

  /** The client's outer catch: every failure becomes an InvalidOperationException carrying the inner message. */
  function Rewrapped(r: Result<string, Exceptions.Exception>): (w: Result<string, Exceptions.Exception>)
    ensures w.Success? <==> r.Success?
    ensures r.Success? ==> w.value == r.value
    ensures r.Failure? ==> w.error.kind == Exceptions.InvalidOperation && w.error.message == DecryptFailurePrefix + r.error.message
  {
    match r
    case Success(_) => r
    case Failure(e) => Failure(Exceptions.Exception(Exceptions.InvalidOperation, DecryptFailurePrefix + e.message))
  }

  /** DecryptMessageAsync on the client: the agent's decryption with every failure rewrapped. */
  method DecryptMessage(p: Primitives, m: EncryptedMessage, secret: string, now: int) returns (r: Result<string, Exceptions.Exception>)
    ensures r == Rewrapped(Decrypt(p, m, secret, now))
  {
    var ok := VerifyMessage(p, m, secret, now);
    if !ok {
      return Failure(Exceptions.Exception(Exceptions.InvalidOperation, DecryptFailurePrefix + VerificationFailed));
    }
    var plain := Open(p, m, secret);
    r := Rewrapped(plain);
  }

  /** A refused envelope reaches the client's caller as "Failed to decrypt message: Message verification failed". */
  lemma RefusedEnvelopeMessage(p: Primitives, m: EncryptedMessage, secret: string, now: int)
    requires !Authentic(p, m, secret, now)
    ensures Rewrapped(Decrypt(p, m, secret, now))
         == Failure(Exceptions.Exception(Exceptions.InvalidOperation, "Failed to decrypt message: " + "Message verification failed"))
  {
  }

  /**
   * Key derivation and tag input are the same on both sides, so an envelope
   * the agent seals opens on the client within five minutes, and the other
   * way round.
   */
  lemma SealedOnEitherSideOpens(p: Primitives, plaintext: string, secret: string, iv: Bytes, sealedAt: int, now: int)
    requires Inverses(p) && |iv| == 16
    requires now - sealedAt <= MessageExpirationMinutes * Clock.TicksPerMinute
    ensures Rewrapped(Decrypt(p, Seal(p, plaintext, secret, iv, sealedAt), secret, now)) == Success(plaintext)
    ensures Decrypt(p, Seal(p, plaintext, secret, iv, sealedAt), secret, now) == Success(plaintext)
  {
    SealThenOpen(p, plaintext, secret, iv, sealedAt, now);
  }
}

=== FILE: envelope.dfy ===
/**
 * The sealed-message format both sides share: AES-256-CBC ciphertext and IV
 * in base64, a timestamp, and an HMAC-SHA256 tag over the three, keyed by a
 * PBKDF2 derivation of the shared secret. The cryptographic building blocks
 * are parameters; only how the applications combine them is modelled.
 */
module Exceptions {
  datatype ExceptionKind = UnauthorizedAccess | InvalidOperation | Format | Cryptographic | Json

  /** A .NET exception as the code observes it: its type and its Message. */
  datatype Exception = Exception(kind: ExceptionKind, message: string)
}

module Envelope {
  import opened Common
  import Clock
  import Exceptions

  type Bytes = seq<bv8>

  datatype Primitives = Primitives(
    /** Encoding.UTF8.GetBytes. */
    utf8: string -> Bytes,
    /** Reading UTF-8 bytes back as text (StreamReader). */
    utf8Decode: Bytes -> string,
    toBase64: Bytes -> string,
    /** Convert.FromBase64String; a failure carries the FormatException's message. */
    fromBase64: string -> Result<Bytes, string>,
    /** Rfc2898DeriveBytes(secret, salt, iterations, SHA256).GetBytes(size). */
    pbkdf2: (string, Bytes, nat, nat) -> Bytes,
    /** HMACSHA256(key).ComputeHash(data). */
    hmacSha256: (Bytes, Bytes) -> Bytes,
    /** AES-CBC with PKCS7 padding under (key, iv). */
    aesEncrypt: (Bytes, Bytes, Bytes) -> Bytes,
    /** Its inverse; a failure (bad padding, bad IV length) carries the CryptographicException's message. */
    aesDecrypt: (Bytes, Bytes, Bytes) -> Result<Bytes, string>,
    /** DateTime.ToString("O"), the round-trip format. */
    formatRoundTrip: int -> string)

  /** The inverse pairs the round trip relies on. */
  ghost predicate Inverses(p: Primitives) {
    (forall b :: p.fromBase64(p.toBase64(b)) == Success(b))
    && (forall k, iv, b :: |iv| == 16 ==> p.aesDecrypt(k, iv, p.aesEncrypt(k, iv, b)) == Success(b))
    && (forall s :: p.utf8Decode(p.utf8(s)) == s)
  }

  /** The tag pipeline maps distinct inputs to distinct tags (no collisions found). */
  ghost predicate CollisionFree(p: Primitives) {
    (forall x, y :: p.utf8(x) == p.utf8(y) ==> x == y)
    && (forall k, x, y :: p.hmacSha256(k, x) == p.hmacSha256(k, y) ==> x == y)
    && (forall x, y :: p.toBase64(x) == p.toBase64(y) ==> x == y)
    && (forall t, u :: p.formatRoundTrip(t) == p.formatRoundTrip(u) ==> t == u)
  }

  datatype EncryptedMessage = EncryptedMessage(encryptedData: string, hmac: string, iv: string, timestamp: int)

  const MessageExpirationMinutes: int := 5
  const Salt: string := "PortProxyAgent.Salt.2024"
  const Iterations: nat := 10000
  const KeySize: nat := 32

  function DeriveKey(p: Primitives, secret: string): Bytes {
    p.pbkdf2(secret, p.utf8(Salt), Iterations, KeySize)
  }

  /** The signed text: ciphertext, then IV, then the timestamp in round-trip format. */
  function SignedText(p: Primitives, m: EncryptedMessage): string {
    m.encryptedData + m.iv + p.formatRoundTrip(m.timestamp)
  }

  function GenerateHmac(p: Primitives, m: EncryptedMessage, secret: string): string {
    p.toBase64(p.hmacSha256(DeriveKey(p, secret), p.utf8(SignedText(p, m))))
  }

  /** Older than five minutes at `now` (a timestamp in the future never expires). */
  predicate Expired(m: EncryptedMessage, now: int) {
    now - m.timestamp > MessageExpirationMinutes * Clock.TicksPerMinute
  }

  /** What VerifyMessage accepts: fresh, and carrying the tag the secret gives. */
  predicate Authentic(p: Primitives, m: EncryptedMessage, secret: string, now: int) {
    !Expired(m, now) && GenerateHmac(p, m, secret) == m.hmac
  }

  /** Seals `plaintext` with the given IV at time `now`. */
  function Seal(p: Primitives, plaintext: string, secret: string, iv: Bytes, now: int): (m: EncryptedMessage)
    ensures m.timestamp == now && m.iv == p.toBase64(iv)
    ensures m.hmac == GenerateHmac(p, m, secret)
  {
    var key := DeriveKey(p, secret);
    var unsigned := EncryptedMessage(p.toBase64(p.aesEncrypt(key, iv, p.utf8(plaintext))), "", p.toBase64(iv), now);
    unsigned.(hmac := GenerateHmac(p, unsigned, secret))
  }

  /** The decryption steps after verification: decode both fields, decrypt, read as UTF-8. */
  function Open(p: Primitives, m: EncryptedMessage, secret: string): Result<string, Exceptions.Exception> {
    match p.fromBase64(m.encryptedData)
    case Failure(e) => Failure(Exceptions.Exception(Exceptions.Format, e))
    case Success(data) =>
      match p.fromBase64(m.iv)
      case Failure(e) => Failure(Exceptions.Exception(Exceptions.Format, e))
      case Success(iv) =>
        match p.aesDecrypt(DeriveKey(p, secret), iv, data)
        case Failure(e) => Failure(Exceptions.Exception(Exceptions.Cryptographic, e))
        case Success(bytes) => Success(p.utf8Decode(bytes))
  }

  const VerificationFailed: string := "Message verification failed"

  /** DecryptMessageAsync: verification first; only an authentic message is decoded and decrypted. */
  function Decrypt(p: Primitives, m: EncryptedMessage, secret: string, now: int): (r: Result<string, Exceptions.Exception>)
    ensures !Authentic(p, m, secret, now) <==> r == Failure(Exceptions.Exception(Exceptions.UnauthorizedAccess, VerificationFailed))
    ensures r.Success? ==> Authentic(p, m, secret, now)
    ensures Authentic(p, m, secret, now) ==> r == Open(p, m, secret)
  {
    if !Authentic(p, m, secret, now) then Failure(Exceptions.Exception(Exceptions.UnauthorizedAccess, VerificationFailed))
    else Open(p, m, secret)
  }

  /** A sealed message is authentic for five minutes, and opens to the plaintext. */
  lemma SealThenOpen(p: Primitives, plaintext: string, secret: string, iv: Bytes, sealedAt: int, now: int)
    requires Inverses(p) && |iv| == 16
    requires now - sealedAt <= MessageExpirationMinutes * Clock.TicksPerMinute
    ensures Authentic(p, Seal(p, plaintext, secret, iv, sealedAt), secret, now)
    ensures Open(p, Seal(p, plaintext, secret, iv, sealedAt), secret) == Success(plaintext)
    ensures Decrypt(p, Seal(p, plaintext, secret, iv, sealedAt), secret, now) == Success(plaintext)
  {
    var key := DeriveKey(p, secret);
    var ct := p.aesEncrypt(key, iv, p.utf8(plaintext));
    assert p.fromBase64(p.toBase64(ct)) == Success(ct);
    assert p.fromBase64(p.toBase64(iv)) == Success(iv);
    assert p.aesDecrypt(key, iv, ct) == Success(p.utf8(plaintext));
  }

  /** Equal suffixes and prefixes cancel. */
  lemma ConcatCancel(a: string, x: string, y: string, b: string)
    requires a + x + b == a + y + b
    ensures x == y
  {
    var s := a + x + b;
    assert |x| == |y|;
    assert x == s[|a|..|a| + |x|];
  }

  /**
   * Changing the ciphertext, the IV or the timestamp of an authentic message,
   * while keeping its tag, makes it fail verification.
   */
  lemma TamperedMessageRejected(p: Primitives, m: EncryptedMessage, m': EncryptedMessage, secret: string, now: int)
    requires CollisionFree(p)
    requires Authentic(p, m, secret, now) && m'.hmac == m.hmac
    requires (m'.encryptedData != m.encryptedData && m'.iv == m.iv && m'.timestamp == m.timestamp)
          || (m'.encryptedData == m.encryptedData && m'.iv != m.iv && m'.timestamp == m.timestamp)
          || (m'.encryptedData == m.encryptedData && m'.iv == m.iv && m'.timestamp != m.timestamp)
    ensures !Authentic(p, m', secret, now)
  {
    if Authentic(p, m', secret, now) {
      var key := DeriveKey(p, secret);
      assert p.toBase64(p.hmacSha256(key, p.utf8(SignedText(p, m'))))
          == p.toBase64(p.hmacSha256(key, p.utf8(SignedText(p, m))));
      assert SignedText(p, m') == SignedText(p, m);
      var f, f' := p.formatRoundTrip(m.timestamp), p.formatRoundTrip(m'.timestamp);
      if m'.encryptedData != m.encryptedData {
        assert "" + m'.encryptedData + (m.iv + f) == SignedText(p, m');
        assert "" + m.encryptedData + (m.iv + f) == SignedText(p, m);
        ConcatCancel("", m'.encryptedData, m.encryptedData, m.iv + f);
      } else if m'.iv != m.iv {
        ConcatCancel(m.encryptedData, m'.iv, m.iv, f);
      } else {
        assert m.encryptedData + m.iv + f' + "" == SignedText(p, m');
        ConcatCancel(m.encryptedData + m.iv, f', f, "");
      }
    }
  }

  /**
   * The signed text has no separators, so moving characters from the end of
   * the ciphertext to the front of the IV keeps the tag: the altered message
   * differs from the original and still passes verification.
   */
  lemma ShiftedBoundaryAccepted(p: Primitives, m: EncryptedMessage, cut: nat, secret: string, now: int)
    requires cut < |m.encryptedData| && Authentic(p, m, secret, now)
    ensures var m' := m.(encryptedData := m.encryptedData[..cut], iv := m.encryptedData[cut..] + m.iv);
      m' != m && Authentic(p, m', secret, now)
  {
    var m' := m.(encryptedData := m.encryptedData[..cut], iv := m.encryptedData[cut..] + m.iv);
    assert m.encryptedData == m.encryptedData[..cut] + m.encryptedData[cut..];
    assert SignedText(p, m') == SignedText(p, m);
    assert |m'.encryptedData| < |m.encryptedData|;
  }

  // ---------------------------------------------------------------------
  // The fixed-time tag comparison: result |= expected[i] ^ provided[i]
  // ---------------------------------------------------------------------

  /** Bitwise exclusive or of two non-negative integers. */
  function Xor(a: nat, b: nat): nat
    decreases a + b
  {
    if a == 0 && b == 0 then 0 else 2 * Xor(a / 2, b / 2) + (a % 2 + b % 2) % 2
  }

  /** Bitwise inclusive or of two non-negative integers. */
  function Or(a: nat, b: nat): nat
    decreases a + b
  {
    if a == 0 && b == 0 then 0 else 2 * Or(a / 2, b / 2) + (if a % 2 == 1 || b % 2 == 1 then 1 else 0)
  }

  lemma {:induction false} XorZero(a: nat, b: nat)
    ensures Xor(a, b) == 0 <==> a == b
    decreases a + b
  {
    if !(a == 0 && b == 0) {
      XorZero(a / 2, b / 2);
    }
  }

  lemma {:induction false} OrZero(a: nat, b: nat)
    ensures Or(a, b) == 0 <==> a == 0 && b == 0
    decreases a + b
  {
    if !(a == 0 && b == 0) {
      OrZero(a / 2, b / 2);
    }
  }

  /** The tag comparison in VerifyMessage: lengths first, then an OR of XORs over every character. */
  method FixedTimeEquals(expected: string, provided: string) returns (equal: bool)
    ensures equal <==> expected == provided
  {
    if |expected| != |provided| {
      return false;
    }
    var result: nat := 0;
    for i := 0 to |expected|
      invariant result == 0 <==> expected[..i] == provided[..i]
    {
      assert expected[..i + 1] == expected[..i] + [expected[i]];
      assert provided[..i + 1] == provided[..i] + [provided[i]];
      var difference := Xor(expected[i] as nat, provided[i] as nat);
      XorZero(expected[i] as nat, provided[i] as nat);
      OrZero(result, difference);
      result := Or(result, difference);
    }
    assert expected[..|expected|] == expected && provided[..|provided|] == provided;
    equal := result == 0;
  }

  /**
   * VerifyMessage: a message older than five minutes is refused before any
   * tag is computed; otherwise the recomputed tag is compared in fixed time.
   */
  method VerifyMessage(p: Primitives, m: EncryptedMessage, secret: string, now: int) returns (ok: bool)
    ensures ok <==> Authentic(p, m, secret, now)
  {
    if Expired(m, now) {
      return false;
    }
    var expected := GenerateHmac(p, m, secret);
    ok := FixedTimeEquals(expected, m.hmac);
  }
}

=== FILE: failover_config.dfy ===
/** A silo-level failover policy: which silo is active, thresholds, and the cooldown after a failover. */
module SiloFailoverConfig {
  import opened Common
  import opened Text
  import Clock
  import ClientFailover

  /** An enum value outside the two named ones is kept as its number. */
  datatype FailoverMode = Manual | Automatic | Undefined(code: int)

  datatype FailoverConfig = FailoverConfig(
    id: string,
    name: string,
    activeSilo: string,
    passiveSilo: string,
    mode: FailoverMode,
    healthCheckInterval: int,
    failureThreshold: int,
    healthThreshold: real,
    lastFailover: int,
    cooldownMinutes: int,
    isEnabled: bool)

  function Default(): (c: FailoverConfig)
    ensures c.mode == Manual && c.healthCheckInterval == 30 && c.failureThreshold == 3
    ensures c.healthThreshold == 80.0 && c.cooldownMinutes == 30 && !c.isEnabled
    ensures c.lastFailover == Clock.MinValue
  {
    FailoverConfig("", "", "", "", Manual, 30, 3, 80.0, Clock.MinValue, 30, false)
  }

  function ModeText(m: FailoverMode): (t: string)
    ensures t == "Manual" <==> m == Manual
    ensures t == "Automatic" <==> m == Automatic
    ensures m.Undefined? <==> t == "Unknown"
  {
    match m
    case Manual => "Manual"
    case Automatic => "Automatic"
    case Undefined(_) => "Unknown"
  }

  /**
   * LastFailoverText at time `now`: "Never" for the minimum date, else whole
   * days, hours or minutes when at least one, else "Just now".
   */
  function LastFailoverText(c: FailoverConfig, now: int): string {
    if c.lastFailover == Clock.MinValue then "Never"
    else
      var span := now - c.lastFailover;
      if span >= Clock.TicksPerDay then IntToString(Clock.WholeUnits(span, Clock.TicksPerDay)) + " days ago"
      else if span >= Clock.TicksPerHour then IntToString(Clock.WholeUnits(span, Clock.TicksPerHour)) + " hours ago"
      else if span >= Clock.TicksPerMinute then IntToString(Clock.WholeUnits(span, Clock.TicksPerMinute)) + " minutes ago"
      else "Just now"
  }

  /**
   * The failover text checks the units largest first and the status text
   * smallest first, yet for the same timestamp they always read the same.
   */
  lemma LastFailoverTextMatchesLastCheckText(c: FailoverConfig, s: ClientFailover.FailoverStatus, now: int)
    requires s.lastHealthCheck == c.lastFailover
    ensures LastFailoverText(c, now) == ClientFailover.LastCheckText(s, now)
  {
  }

  /** LastFailover.AddMinutes(CooldownMinutes). */
  function CooldownEnd(c: FailoverConfig): int {
    c.lastFailover + c.cooldownMinutes * Clock.TicksPerMinute
  }

  /** IsInCooldown at time `now`. */
  predicate IsInCooldown(c: FailoverConfig, now: int) {
    c.lastFailover != Clock.MinValue && now < CooldownEnd(c)
  }

  /** CooldownRemaining in ticks: zero outside the cooldown, and the time to its end inside it. */
  function CooldownRemaining(c: FailoverConfig, now: int): (r: int)
    ensures r >= 0
    ensures r > 0 <==> IsInCooldown(c, now)
    ensures IsInCooldown(c, now) ==> now + r == CooldownEnd(c)
  {
    if IsInCooldown(c, now) then CooldownEnd(c) - now else 0
  }

  /** A policy that has never failed over, or has no cooldown and failed over in the past, is not cooling down. */
  lemma NoCooldownWithoutFailover(c: FailoverConfig, now: int)
    ensures c.lastFailover == Clock.MinValue ==> !IsInCooldown(c, now)
    ensures c.cooldownMinutes == 0 && now >= c.lastFailover ==> !IsInCooldown(c, now)
  {
  }

  predicate IsValid(c: FailoverConfig) {
    !IsBlank(c.id) && !IsBlank(c.name) && !IsBlank(c.activeSilo) && !IsBlank(c.passiveSilo)
    && c.activeSilo != c.passiveSilo
    && c.healthCheckInterval > 0 && c.failureThreshold > 0
    && 0.0 <= c.healthThreshold <= 100.0
    && c.cooldownMinutes >= 0
  }

  /**
   * The defaults pass every numeric check; a policy needs only its id, name
   * and two distinct silos to be valid.
   */
  lemma DefaultNeedsOnlyNames(id: string, name: string, active: string, passive: string)
    ensures IsValid(Default().(id := id, name := name, activeSilo := active, passiveSilo := passive))
        <==> !IsBlank(id) && !IsBlank(name) && !IsBlank(active) && !IsBlank(passive) && active != passive
    ensures !IsValid(Default())
  {
  }
}

=== FILE: failover_configuration_view_model.dfy ===
/**
 * The failover settings form for one agent: it re-validates on every edit,
 * gates saving on that validation, and sends the settings with the server
 * pairs' address mapping filled in.
 */
module FailoverForm {
  import opened Common
  import opened Text
  import opened Mappings
  import opened ClientFailover
  import Agent = AgentFailoverConfiguration
  import Inventory

  const IntervalNotAboveTimeout: string := "Check interval must be greater than timeout"
  const NoServerPairs: string := "At least one server pair is required (configure in Target Servers tab)"

  /** ValidateConfiguration's messages, one per check, in the order it makes the checks. */
  const CheckMessages: seq<string> := [Agent.UrlAMissing, Agent.UrlBMissing, Agent.IntervalNotPositive,
    Agent.TimeoutNotPositive, IntervalNotAboveTimeout, NoServerPairs]

  /** Which of the checks failed, in the same order. */
  function FailedChecks(c: FailoverConfiguration, pairCount: nat): (failed: seq<bool>)
    ensures |failed| == |CheckMessages|
  {
    [IsBlank(c.healthUrlA), IsBlank(c.healthUrlB), c.checkIntervalSeconds <= 0, c.timeoutSeconds <= 0,
     c.checkIntervalSeconds <= c.timeoutSeconds, pairCount == 0]
  }

  /** The six messages are six different, non-empty texts. */
  lemma CheckMessagesDistinct()
    ensures Distinct(CheckMessages)
    ensures forall k :: 0 <= k < |CheckMessages| ==> CheckMessages[k] != ""
  {
    assert |Agent.UrlAMissing| == 49 && |Agent.UrlBMissing| == 49;
    assert Agent.UrlAMissing[11] == 'A' && Agent.UrlBMissing[11] == 'B';
    assert |Agent.IntervalNotPositive| == 37 && |Agent.TimeoutNotPositive| == 30;
    assert |IntervalNotAboveTimeout| == 43 && |NoServerPairs| == 70;
  }

  /** Everything the form requires of an enabled configuration. */
  predicate Acceptable(c: FailoverConfiguration, pairCount: nat) {
    !IsBlank(c.healthUrlA) && !IsBlank(c.healthUrlB) && c.checkIntervalSeconds > 0
    && c.timeoutSeconds > 0 && c.checkIntervalSeconds > c.timeoutSeconds && pairCount > 0
  }

  /** The form's requirements, checked in order; none when failover is disabled. */
  function FormErrors(c: FailoverConfiguration, pairCount: nat): (errors: seq<string>)
    ensures !c.enabled ==> errors == []
    ensures |errors| <= 6
    ensures forall i :: 0 <= i < |errors| ==> errors[i] != ""
    ensures errors == [] <==> !c.enabled || Acceptable(c, pairCount)
  {
    if !c.enabled then []
    else
      var failed := FailedChecks(c, pairCount);
      CheckMessagesDistinct();
      FailuresFromChecks(failed, CheckMessages);
      assert (forall k :: 0 <= k < |failed| ==> !failed[k]) <==>
        !failed[0] && !failed[1] && !failed[2] && !failed[3] && !failed[4] && !failed[5];
      Failures(failed, CheckMessages)
  }

  /** When failover is enabled, each message is reported exactly when its own requirement is not met. */
  lemma ErrorsPresentExactly(c: FailoverConfiguration, pairCount: nat)
    requires c.enabled
    ensures var errors := FormErrors(c, pairCount);
      (Agent.UrlAMissing in errors <==> IsBlank(c.healthUrlA))
      && (Agent.UrlBMissing in errors <==> IsBlank(c.healthUrlB))
      && (Agent.IntervalNotPositive in errors <==> c.checkIntervalSeconds <= 0)
      && (Agent.TimeoutNotPositive in errors <==> c.timeoutSeconds <= 0)
      && (IntervalNotAboveTimeout in errors <==> c.checkIntervalSeconds <= c.timeoutSeconds)
      && (NoServerPairs in errors <==> pairCount == 0)
  {
    var failed, errors := FailedChecks(c, pairCount), FormErrors(c, pairCount);
    CheckMessagesDistinct();
    FailuresPresentExactly(failed, CheckMessages);
    assert CheckMessages[0] in errors <==> failed[0];
    assert CheckMessages[1] in errors <==> failed[1];
    assert CheckMessages[2] in errors <==> failed[2];
    assert CheckMessages[3] in errors <==> failed[3];
    assert CheckMessages[4] in errors <==> failed[4];
    assert CheckMessages[5] in errors <==> failed[5];
  }

  /** The messages come out in the order ValidateConfiguration makes its checks. */
  lemma ErrorsInCheckOrder(c: FailoverConfiguration, pairCount: nat)
    ensures forall i, j :: 0 <= i < j < |FormErrors(c, pairCount)| ==>
      IndexOf(CheckMessages, FormErrors(c, pairCount)[i]) < IndexOf(CheckMessages, FormErrors(c, pairCount)[j])
  {
    if c.enabled {
      CheckMessagesDistinct();
      FailuresInCheckOrder(FailedChecks(c, pairCount), CheckMessages);
    }
  }

  /** ValidateConfiguration's message: the errors joined with "; ", empty exactly when the form is acceptable. */
  function FormMessage(c: FailoverConfiguration, pairCount: nat): (m: string)
    ensures m == Join("; ", FormErrors(c, pairCount))
    ensures !c.enabled ==> m == ""
    ensures m == "" <==> !c.enabled || Acceptable(c, pairCount)
  {
    var errors := FormErrors(c, pairCount);
    JoinEmptyIff("; ", errors);
    Join("; ", errors)
  }


  /**
   * The form is stricter than the configuration's own check: what the form
   * accepts is valid once it carries a mapping, but an interval equal to the
   * timeout (10 and 10, say) passes the configuration and the agent and is
   * refused by the form.
   */
  lemma FormStricterThanConfiguration(c: FailoverConfiguration, pairCount: nat)
    ensures FormMessage(c, pairCount) == "" && |c.serverMappings| > 0 ==> IsValid(c)
    ensures c.enabled && !IsBlank(c.healthUrlA) && !IsBlank(c.healthUrlB)
            && c.checkIntervalSeconds == 10 && c.timeoutSeconds == 10 && |c.serverMappings| > 0 ==>
              IsValid(c) && Agent.IsValid(ToAgent(c)) && FormMessage(c, pairCount) != ""
  {
    SameValidationAsAgent(c);
  }

  /** How the agent answered ConfigureFailoverAsync. */
  datatype SaveOutcome = Saved | Refused(message: string) | Threw(message: string)

  /** How the agent answered GetFailoverStatusAsync: a status, none, or an exception. */
  datatype LoadOutcome = Status(status: Option<FailoverStatus>) | LoadThrew(message: string)

  class FailoverConfigurationViewModel {
    const agentServerName: string
    const servers: Inventory.ServerService
    var configuration: FailoverConfiguration
    var validationMessage: string
    var isSaving: bool
    var isLoading: bool

    /** The form starts on the default settings, loading. */
    constructor (agentServerName: string, servers: Inventory.ServerService)
      ensures this.agentServerName == agentServerName && this.servers == servers
      ensures configuration == Default() && validationMessage == "" && !isSaving && isLoading
    {
      this.agentServerName := agentServerName;
      this.servers := servers;
      configuration := Default();
      validationMessage := "";
      isSaving := false;
      isLoading := true;
    }

    predicate HasValidationError()
      reads this
    {
      validationMessage != ""
    }

    predicate CanSave()
      reads this
    {
      !isSaving && !isLoading && !HasValidationError()
    }

    method ValidateConfiguration()
      modifies this
      ensures validationMessage == FormMessage(configuration, |servers.serverPairs|)
      ensures configuration == old(configuration) && isSaving == old(isSaving) && isLoading == old(isLoading)
    {
      if !configuration.enabled {
        validationMessage := "";
        return;
      }
      var errors := FormErrors(configuration, |servers.serverPairs|);
      validationMessage := if |errors| > 0 then Join("; ", errors) else "";
    }

    method SetEnabled(value: bool)
      modifies this
      ensures configuration == old(configuration).(enabled := value)
      ensures validationMessage == FormMessage(configuration, |servers.serverPairs|)
      ensures isSaving == old(isSaving) && isLoading == old(isLoading)
    {
      configuration := configuration.(enabled := value);
      ValidateConfiguration();
    }

    method SetHealthUrlA(value: string)
      modifies this
      ensures configuration == old(configuration).(healthUrlA := value)
      ensures validationMessage == FormMessage(configuration, |servers.serverPairs|)
      ensures isSaving == old(isSaving) && isLoading == old(isLoading)
    {
      configuration := configuration.(healthUrlA := value);
      ValidateConfiguration();
    }

    method SetHealthUrlB(value: string)
      modifies this
      ensures configuration == old(configuration).(healthUrlB := value)
      ensures validationMessage == FormMessage(configuration, |servers.serverPairs|)
      ensures isSaving == old(isSaving) && isLoading == old(isLoading)
    {
      configuration := configuration.(healthUrlB := value);
      ValidateConfiguration();
    }

    method SetCheckIntervalSeconds(value: int)
      modifies this
      ensures configuration == old(configuration).(checkIntervalSeconds := value)
      ensures validationMessage == FormMessage(configuration, |servers.serverPairs|)
      ensures isSaving == old(isSaving) && isLoading == old(isLoading)
    {
      configuration := configuration.(checkIntervalSeconds := value);
      ValidateConfiguration();
    }

    method SetTimeoutSeconds(value: int)
      modifies this
      ensures configuration == old(configuration).(timeoutSeconds := value)
      ensures validationMessage == FormMessage(configuration, |servers.serverPairs|)
      ensures isSaving == old(isSaving) && isLoading == old(isLoading)
    {
      configuration := configuration.(timeoutSeconds := value);
      ValidateConfiguration();
    }

    /**
     * SaveConfigurationAsync: nothing is sent unless CanSave; otherwise the
     * mappings are replaced by the server pairs' mapping, that configuration
     * is sent, the message reports the outcome, and IsSaving ends false.
     */
    method SaveConfiguration(outcome: SaveOutcome) returns (ok: bool, sent: Option<FailoverConfiguration>)
      modifies this
      ensures !old(CanSave()) ==>
        !ok && sent.None? && configuration == old(configuration)
        && validationMessage == old(validationMessage) && isSaving == old(isSaving)
      ensures old(CanSave()) ==>
        configuration == old(configuration).(serverMappings := Inventory.PairMappings(servers.serverPairs, servers.targetServers))
        && sent == Some(configuration) && !isSaving
        && (ok <==> outcome.Saved?)
        && validationMessage == match outcome
             case Saved => ""
             case Refused(m) => "Failed to save configuration: " + m
             case Threw(m) => "Error saving configuration: " + m
      ensures isLoading == old(isLoading)
    {
      if !CanSave() {
        return false, None;
      }
      isSaving := true;
      var mappings := servers.GetServerPairMappings();
      configuration := configuration.(serverMappings := mappings);
      sent := Some(configuration);
      match outcome {
        case Saved =>
          validationMessage := "";
          ok := true;
        case Refused(m) =>
          validationMessage := "Failed to save configuration: " + m;
          ok := false;
        case Threw(m) =>
          validationMessage := "Error saving configuration: " + m;
          ok := false;
      }
      isSaving := false;
    }

    /**
     * LoadConfigurationAsync: a status sets Enabled and the interval (each
     * re-validating); an exception is reported in the message; IsLoading ends
     * false either way.
     */
    method LoadConfiguration(outcome: LoadOutcome)
      modifies this
      ensures !isLoading && isSaving == old(isSaving)
      ensures outcome.Status? && outcome.status.Some? ==>
        var s := outcome.status.value;
        configuration == old(configuration).(enabled := s.enabled, checkIntervalSeconds := s.checkIntervalSeconds)
        && validationMessage == FormMessage(configuration, |servers.serverPairs|)
        && (CanSave() <==> !isSaving && FormMessage(configuration, |servers.serverPairs|) == "")
      ensures outcome.Status? && outcome.status.None? ==>
        configuration == old(configuration) && validationMessage == old(validationMessage)
      ensures outcome.LoadThrew? ==>
        configuration == old(configuration)
        && validationMessage == "Failed to load current configuration: " + outcome.message
    {
      isLoading := true;
      match outcome {
        case Status(status) =>
          if status.Some? {
            SetEnabled(status.value.enabled);
            SetCheckIntervalSeconds(status.value.checkIntervalSeconds);
          }
        case LoadThrew(m) =>
          validationMessage := "Failed to load current configuration: " + m;
      }
      isLoading := false;
    }
  }
}

=== FILE: failover_service.dfy ===
/**
 * The agent's failover engine: it probes the A and B health endpoints,
 * decides whether to switch sides, and rewrites the connect address of every
 * port-proxy rule through the configured A-to-B mapping.
 */
module FailoverService {
  import opened Common
  import opened Text
  import opened Mappings
  import opened AgentModels
  import opened NetshTool
  import opened NetshExecutor
  import opened AgentFailoverConfiguration

  // ---------------------------------------------------------------------
  // Health probes and the failover decision
  // ---------------------------------------------------------------------

  datatype Health = Alive | Dead | Unknown

  function HealthText(h: Health): string {
    match h
    case Alive => "Alive"
    case Dead => "Dead"
    case Unknown => "Unknown"
  }

  /** What the HTTP GET of a health URL gave: a body, or an exception (timeout, refused, non-success status). */
  datatype Probe = Answered(body: string) | Threw

  /** CheckHealthEndpointAsync: the trimmed body if it is "Alive" or "Dead", "Unknown" for any other body, "Dead" on failure. */
  function CheckHealthEndpoint(p: Probe): (h: Health)
    ensures p.Threw? ==> h == Dead
    ensures p.Answered? ==> (HealthText(h) == Trim(p.body) || (h == Unknown && Trim(p.body) != "Alive" && Trim(p.body) != "Dead"))
  {
    match p
    case Threw => Dead
    case Answered(body) =>
      var t := Trim(body);
      if t == "Alive" then Alive else if t == "Dead" then Dead else Unknown
  }

  /** Fail to B when A is dead and B alive; fail back when A is alive and B dead; otherwise stay. */
  predicate DetermineFailoverNeeded(a: Health, b: Health, currentlyFailedOver: bool) {
    (a == Dead && b == Alive && !currentlyFailedOver) || (a == Alive && b == Dead && currentlyFailedOver)
  }

  /** The direction of a triggered failover: to B exactly when A is dead and B alive. */
  function FailoverDirection(a: Health, b: Health): bool {
    a == Dead && b == Alive
  }

  /** The failed-over flag after one health check whose rule listing succeeded (`listed`) or not. */
  function NextFailedOver(a: Health, b: Health, failedOver: bool, listed: bool): bool {
    if DetermineFailoverNeeded(a, b, failedOver) && listed then FailoverDirection(a, b) else failedOver
  }

  /**
   * The failover state machine: a check moves to B only on (Dead, Alive), back
   * to A only on (Alive, Dead), and every triggered move flips the flag.
   */
  lemma FailoverDecisionTable(a: Health, b: Health, fo: bool, listed: bool)
    ensures DetermineFailoverNeeded(a, b, fo) ==> FailoverDirection(a, b) == !fo
    ensures NextFailedOver(a, b, fo, listed) != fo <==> listed && DetermineFailoverNeeded(a, b, fo)
    ensures a == Unknown || b == Unknown || a == b ==> NextFailedOver(a, b, fo, listed) == fo
    ensures listed && a == Dead && b == Alive ==> NextFailedOver(a, b, fo, listed)
    ensures listed && a == Alive && b == Dead ==> !NextFailedOver(a, b, fo, listed)
  {
  }

  /** ConsecutiveFailuresX++ on a 32-bit counter (unchecked arithmetic wraps). */
  function Increment32(x: int): (r: int)
    ensures Int32Min <= x < Int32Max ==> r == x + 1
    ensures x == Int32Max ==> r == Int32Min
  {
    if x == Int32Max then Int32Min else x + 1
  }

  // ---------------------------------------------------------------------
  // Choosing each rule's target
  // ---------------------------------------------------------------------

  /**
   * DetermineTargetAddress: an A address (a key) goes to its B address when
   * failing to B and stays otherwise; a B address (a value; the earliest entry
   * wins) goes back to its A address when failing back and stays otherwise;
   * any other address stays.
   */
  function DetermineTargetAddress(address: string, m: Mapping, failToB: bool): (r: string)
    ensures r == address || (failToB && (address, r) in m) || (!failToB && (r, address) in m)
    ensures (forall j :: 0 <= j < |m| ==> m[j].0 != address && m[j].1 != address) ==> r == address
    ensures forall i :: 0 <= i < |m| && m[i].0 == address && (forall j :: 0 <= j < i ==> m[j].0 != address) ==>
              r == (if failToB then m[i].1 else address)
    ensures forall i :: 0 <= i < |m| && m[i].1 == address && (forall j :: 0 <= j < |m| ==> m[j].0 != address)
                        && (forall j :: 0 <= j < i ==> m[j].1 != address) ==>
              r == (if failToB then address else m[i].0)
  {
    match Lookup(m, address)
    case Some(b) => if failToB then b else address
    case None =>
      match FirstWithValue(m, address)
      case Some(entry) => if failToB then address else entry.0
      case None => address
  }

  /** The A addresses and the B addresses are two separate groups. */
  predicate SidesDisjoint(m: Mapping) {
    forall i, j :: 0 <= i < |m| && 0 <= j < |m| ==> m[i].0 != m[j].1
  }

  /** With separate A and B groups, remapping an address a second time in the same direction changes nothing. */
  lemma TargetIdempotent(address: string, m: Mapping, failToB: bool)
    requires SidesDisjoint(m)
    ensures var t := DetermineTargetAddress(address, m, failToB);
      DetermineTargetAddress(t, m, failToB) == t
  {
    var t := DetermineTargetAddress(address, m, failToB);
    if t != address {
      if failToB {
        var i :| 0 <= i < |m| && m[i] == (address, t);
        assert Lookup(m, t).None? by {
          forall j | 0 <= j < |m| ensures m[j].0 != t { assert m[j].0 != m[i].1; }
        }
      } else {
        var i :| 0 <= i < |m| && m[i] == (t, address);
        assert Lookup(m, t).Some?;
      }
    }
  }

  /**
   * Failing over and back restores every A address, and failing back then over
   * restores every B address, when the mapping pairs A and B one to one.
   */
  lemma FailoverRoundTrip(m: Mapping, i: nat)
    requires i < |m| && DistinctKeys(m) && DistinctValues(m) && SidesDisjoint(m)
    ensures DetermineTargetAddress(m[i].0, m, true) == m[i].1
    ensures DetermineTargetAddress(m[i].1, m, false) == m[i].0
    ensures DetermineTargetAddress(DetermineTargetAddress(m[i].0, m, true), m, false) == m[i].0
    ensures DetermineTargetAddress(DetermineTargetAddress(m[i].1, m, false), m, true) == m[i].1
  {
    KeyIndexIsFirst(m, m[i].0, i);
    assert ValueIndex(m, m[i].1) == Some(i);
    assert Lookup(m, m[i].1).None? by {
      forall j | 0 <= j < |m| ensures m[j].0 != m[i].1 { assert m[j].0 != m[i].1; }
    }
  }

  /** Without separate groups the remap is not idempotent: with a -> b and b -> c, a goes to b and then to c. */
  lemma ChainedMappingNotIdempotent()
    ensures var m := [("a", "b"), ("b", "c")];
      DetermineTargetAddress("a", m, true) == "b" && DetermineTargetAddress("b", m, true) == "c"
  {
    var m := [("a", "b"), ("b", "c")];
    assert KeyIndex(m, "a") == Some(0);
    assert KeyIndex(m, "b") == Some(1);
  }

  // ---------------------------------------------------------------------
  // Rewriting one rule, and a whole remap pass, as netsh command sequences
  // ---------------------------------------------------------------------

  /** The delete UpdateRuleTargetAsync issues: the rule's listen endpoint under the default protocol. */
  function RemapDelete(rule: PortProxyRule, id: string): AgentCommand {
    NewCommand("delete", id).(listenAddress := rule.listenAddress, listenPort := rule.listenPort)
  }

  /** The add pointing the rule at `target`, with the rule's own ports and protocol. */
  function RemapAdd(rule: PortProxyRule, target: string, id: string): AgentCommand {
    AgentCommand("add", rule.listenPort, rule.listenAddress, rule.connectPort, target, rule.protocol,
                 "Failover target: " + target, id)
  }

  /** The add that puts the original rule back after a failed RemapAdd. */
  function RestoreAdd(rule: PortProxyRule, id: string): AgentCommand {
    AgentCommand("add", rule.listenPort, rule.listenAddress, rule.connectPort, rule.connectAddress, rule.protocol,
                 "Restored after failed failover", id)
  }

  /** The argument strings UpdateRuleTargetAsync runs from history `h`, and whether it reports success. */
  function UpdateRun(respond: (seq<string>, string) -> ToolResult, h: seq<string>, rule: PortProxyRule, target: string): (bool, seq<string>) {
    var del := DeleteArguments(RemapDelete(rule, ""));
    var add := AddArguments(RemapAdd(rule, target, ""));
    if !respond(h, del).success then (false, h + [del])
    else if respond(h + [del], add).success then (true, h + [del, add])
    else (false, h + [del, add, AddArguments(RestoreAdd(rule, ""))])
  }

  /** The command id is not part of any argument string. */
  lemma ArgumentsIgnoreId(rule: PortProxyRule, target: string, id: string)
    ensures DeleteArguments(RemapDelete(rule, id)) == DeleteArguments(RemapDelete(rule, ""))
    ensures AddArguments(RemapAdd(rule, target, id)) == AddArguments(RemapAdd(rule, target, ""))
    ensures AddArguments(RestoreAdd(rule, id)) == AddArguments(RestoreAdd(rule, ""))
  {
  }

  /**
   * One rule update is a delete of the listen endpoint (always as v4tov4),
   * then, if that worked, an add to the new target; a failed add is followed by
   * exactly one add restoring the original target. Success means both worked.
   */
  lemma UpdateRunShape(respond: (seq<string>, string) -> ToolResult, h: seq<string>, rule: PortProxyRule, target: string)
    ensures var (ok, h') := UpdateRun(respond, h, rule, target);
      var n := |h'| - |h|;
      h' [..|h|] == h && 1 <= n <= 3
      && h'[|h|] == "interface portproxy delete v4tov4 listenport=" + rule.listenPort + " listenaddress=" + rule.listenAddress
      && (ok <==> n == 2)
      && (n >= 2 ==> (h'[|h| + 1] == "interface portproxy add " + rule.protocol + " listenport=" + rule.listenPort
            + " listenaddress=" + rule.listenAddress + " connectport=" + rule.connectPort + " connectaddress=" + target))
      && (n == 3 ==> (h'[|h| + 2] == "interface portproxy add " + rule.protocol + " listenport=" + rule.listenPort
            + " listenaddress=" + rule.listenAddress + " connectport=" + rule.connectPort + " connectaddress=" + rule.connectAddress))
  {
    var del := DeleteArguments(RemapDelete(rule, ""));
    assert del == "interface portproxy delete v4tov4 listenport=" + rule.listenPort + " listenaddress=" + rule.listenAddress by {
      assert RemapDelete(rule, "").protocol == "v4tov4";
    }
    var add := AddArguments(RemapAdd(rule, target, ""));
    var restore := AddArguments(RestoreAdd(rule, ""));
    var (ok, h') := UpdateRun(respond, h, rule, target);
    if !respond(h, del).success {
      assert h' == h + [del];
    } else if respond(h + [del], add).success {
      assert h' == h + [del, add];
    } else {
      assert h' == h + [del, add, restore];
    }
  }

  /** The rules after a pass in which every update succeeded. */
  function Remapped(rules: seq<PortProxyRule>, m: Mapping, failToB: bool): (r: seq<PortProxyRule>)
    ensures |r| == |rules|
    ensures forall i :: 0 <= i < |rules| ==>
      r[i] == rules[i].(connectAddress := DetermineTargetAddress(rules[i].connectAddress, m, failToB))
  {
    seq(|rules|, i requires 0 <= i < |rules| =>
      rules[i].(connectAddress := DetermineTargetAddress(rules[i].connectAddress, m, failToB)))
  }

  /** The rules a pass would rewrite: those whose target differs from their connect address. */
  function Planned(rules: seq<PortProxyRule>, m: Mapping, failToB: bool): seq<PortProxyRule>
    decreases |rules|
  {
    if rules == [] then []
    else
      var init := Planned(rules[..|rules| - 1], m, failToB);
      var last := rules[|rules| - 1];
      if DetermineTargetAddress(last.connectAddress, m, failToB) != last.connectAddress then init + [last] else init
  }

  /** One turn of the foreach of ExecuteFailoverAsync, from `acc` (rules changed so far, argument strings run so far). */
  function RemapStep(respond: (seq<string>, string) -> ToolResult, acc: (nat, seq<string>), rule: PortProxyRule, m: Mapping, failToB: bool): (nat, seq<string>) {
    var target := DetermineTargetAddress(rule.connectAddress, m, failToB);
    if target == rule.connectAddress then acc
    else
      var (ok, h') := UpdateRun(respond, acc.1, rule, target);
      (if ok then acc.0 + 1 else acc.0, h')
  }

  /** The foreach of ExecuteFailoverAsync from history `h`: rules changed and the argument strings run. */
  function RemapRun(respond: (seq<string>, string) -> ToolResult, h: seq<string>, rules: seq<PortProxyRule>, m: Mapping, failToB: bool): (nat, seq<string>)
    decreases |rules|
  {
    if rules == [] then (0, h)
    else RemapStep(respond, RemapRun(respond, h, rules[..|rules| - 1], m, failToB), rules[|rules| - 1], m, failToB)
  }

  /** The pass over the first i + 1 rules is the pass over the first i, then rule i. */
  lemma RemapRunSnoc(respond: (seq<string>, string) -> ToolResult, h: seq<string>, rules: seq<PortProxyRule>, i: nat, m: Mapping, failToB: bool)
    requires i < |rules|
    ensures RemapRun(respond, h, rules[..i + 1], m, failToB)
         == RemapStep(respond, RemapRun(respond, h, rules[..i], m, failToB), rules[i], m, failToB)
  {
    assert rules[..i + 1][..i] == rules[..i];
  }

  /** A pass changes at most the planned rules and runs one to three commands per planned rule, none for the others. */
  lemma {:induction false} RemapRunBounds(respond: (seq<string>, string) -> ToolResult, h: seq<string>, rules: seq<PortProxyRule>, m: Mapping, failToB: bool)
    ensures var (changed, h') := RemapRun(respond, h, rules, m, failToB);
      var planned := |Planned(rules, m, failToB)|;
      changed <= planned <= |rules| && |h| <= |h'| && h'[..|h|] == h && planned <= |h'| - |h| <= 3 * planned
    decreases |rules|
  {
    if rules != [] {
      var init := rules[..|rules| - 1];
      RemapRunBounds(respond, h, init, m, failToB);
      var (c1, h1) := RemapRun(respond, h, init, m, failToB);
      var rule := rules[|rules| - 1];
      var target := DetermineTargetAddress(rule.connectAddress, m, failToB);
      if target != rule.connectAddress {
        UpdateRunShape(respond, h1, rule, target);
        var (ok, h2) := UpdateRun(respond, h1, rule, target);
        assert h2[..|h|] == h1[..|h1|][..|h|];
      }
    }
  }

  /** After a pass in which every update worked, a second pass in the same direction plans nothing and runs nothing. */
  lemma {:induction false} SecondPassIdle(respond: (seq<string>, string) -> ToolResult, h: seq<string>, rules: seq<PortProxyRule>, m: Mapping, failToB: bool)
    requires SidesDisjoint(m)
    ensures Planned(Remapped(rules, m, failToB), m, failToB) == []
    ensures RemapRun(respond, h, Remapped(rules, m, failToB), m, failToB) == (0, h)
    decreases |rules|
  {
    var r := Remapped(rules, m, failToB);
    if rules != [] {
      var init := rules[..|rules| - 1];
      SecondPassIdle(respond, h, init, m, failToB);
      assert r[..|r| - 1] == Remapped(init, m, failToB);
      TargetIdempotent(rules[|rules| - 1].connectAddress, m, failToB);
    }
  }

  /**
   * The netsh lines a failover pass leaves behind after `h`: the listing,
   * then, when it succeeds, the remap of every listed rule.
   */
  function PassHistory(respond: (seq<string>, string) -> ToolResult, h: seq<string>, m: Mapping, failToB: bool): (r: seq<string>)
    ensures |r| > |h| && r[..|h| + 1] == h + [ShowAllArguments]
    ensures !respond(h, ShowAllArguments).success ==> r == h + [ShowAllArguments]
  {
    var listing := respond(h, ShowAllArguments);
    var h1 := h + [ShowAllArguments];
    if !listing.success then h1
    else
      var rules := if listing.output != "" then Scan(OutputLines(listing.output)).1 else [];
      RemapRunBounds(respond, h1, rules, m, failToB);
      RemapRun(respond, h1, rules, m, failToB).1
  }

  // ---------------------------------------------------------------------
  // The service
  // ---------------------------------------------------------------------

  /** FailoverStatus as the agent reports it. */
  datatype FailoverStatus = FailoverStatus(
    enabled: bool,
    currentlyFailedOver: bool,
    lastHealthCheck: int,
    healthStatusA: string,
    healthStatusB: string,
    rulesManaged: int,
    lastError: string,
    checkIntervalSeconds: int)

  /** The largest period System.Threading.Timer accepts, in milliseconds. */
  const MaxTimerPeriodMilliseconds: int := 0xFFFF_FFFE

  /** A timer with this period in seconds can be created (a negative or too long period throws, and no timer starts). */
  predicate TimerAccepts(seconds: int) {
    0 <= seconds * 1000 <= MaxTimerPeriodMilliseconds
  }

  class Service {
    var config: FailoverConfiguration
    /** The health-check timer's period in seconds, while a timer exists. */
    var timer: Option<int>
    const executor: Executor

    constructor (executor: Executor)
      ensures config == Default() && timer == None && this.executor == executor
    {
      config := Default();
      timer := None;
      this.executor := executor;
    }

    /** StopMonitoringAsync: disposes of the timer, if any. */
    method StopMonitoring()
      modifies this`timer
      ensures timer == None
    {
      timer := None;
    }

    /** StartMonitoringAsync: starts a timer only when enabled and none is running. */
    method StartMonitoring()
      modifies this`timer
      ensures old(timer).Some? || !config.enabled ==> timer == old(timer)
      ensures old(timer).None? && config.enabled ==>
        timer == if TimerAccepts(config.checkIntervalSeconds) then Some(config.checkIntervalSeconds) else None
    {
      if !config.enabled || timer.Some? {
        return;
      }
      if TimerAccepts(config.checkIntervalSeconds) {
        timer := Some(config.checkIntervalSeconds);
      }
    }

    /**
     * ConfigureAsync: stores the configuration as given (it does not validate)
     * and restarts monitoring; it reports success.
     */
    method Configure(c: FailoverConfiguration) returns (ok: bool)
      modifies this`config, this`timer
      ensures ok && config == c
      ensures timer == if c.enabled && TimerAccepts(c.checkIntervalSeconds) then Some(c.checkIntervalSeconds) else None
    {
      config := c;
      StopMonitoring();
      if c.enabled {
        StartMonitoring();
      }
      ok := true;
    }

    /** UpdateRuleTargetAsync: delete, add with the new target, restore on a failed add. */
    method UpdateRuleTarget(rule: PortProxyRule, target: string, id: string, now: int) returns (ok: bool)
      modifies executor.host
      ensures (ok, executor.host.history) == UpdateRun(executor.host.respond, old(executor.host.history), rule, target)
    {
      ArgumentsIgnoreId(rule, target, id);
      ghost var h := executor.host.history;
      var deleted := executor.DeleteRule(RemapDelete(rule, id), now);
      if !deleted.success {
        return false;
      }
      ghost var h1 := executor.host.history;
      var added := executor.AddRule(RemapAdd(rule, target, id), now);
      assert executor.host.history == h1 + [AddArguments(RemapAdd(rule, target, ""))];
      if !added.success {
        ghost var h2 := executor.host.history;
        var _ := executor.AddRule(RestoreAdd(rule, id), now);
        assert executor.host.history == h2 + [AddArguments(RestoreAdd(rule, ""))];
        assert h2 + [AddArguments(RestoreAdd(rule, ""))]
          == h + [DeleteArguments(RemapDelete(rule, "")), AddArguments(RemapAdd(rule, target, "")), AddArguments(RestoreAdd(rule, ""))];
        return false;
      }
      assert h1 == h + [DeleteArguments(RemapDelete(rule, ""))];
      assert executor.host.history == h + [DeleteArguments(RemapDelete(rule, "")), AddArguments(RemapAdd(rule, target, ""))];
      return true;
    }

    /** One turn of that foreach: a rule whose target differs is rewritten, and counted when the update succeeds. */
    method RemapRule(rule: PortProxyRule, m: Mapping, failToB: bool, changed: nat, id: string, now: int) returns (changed': nat)
      modifies executor.host
      ensures (changed', executor.host.history) == RemapStep(executor.host.respond, (changed, old(executor.host.history)), rule, m, failToB)
    {
      changed' := changed;
      var target := DetermineTargetAddress(rule.connectAddress, m, failToB);
      if target != rule.connectAddress {
        var success := UpdateRuleTarget(rule, target, id, now);
        if success {
          changed' := changed + 1;
        }
      }
    }

    /** The foreach of ExecuteFailoverAsync over the listed rules. */
    method RemapRules(rules: seq<PortProxyRule>, failToB: bool, id: string, now: int) returns (changed: nat)
      modifies executor.host
      ensures (changed, executor.host.history) == RemapRun(executor.host.respond, old(executor.host.history), rules, config.serverMappings, failToB)
    {
      var m := config.serverMappings;
      changed := 0;
      var i := 0;
      while i < |rules|
        invariant 0 <= i <= |rules|
        invariant (changed, executor.host.history) == RemapRun(executor.host.respond, old(executor.host.history), rules[..i], m, failToB)
      {
        RemapRunSnoc(executor.host.respond, old(executor.host.history), rules, i, m, failToB);
        changed := RemapRule(rules[i], m, failToB, changed, id, now);
        i := i + 1;
      }
      assert rules[..|rules|] == rules;
    }

    /**
     * ExecuteFailoverAsync: lists the rules, then rewrites every rule whose
     * target differs. It fails only when the listing fails; rules whose update
     * fails are counted as processed but not changed.
     */
    method ExecuteFailover(failToB: bool, id: string, now: int) returns (ok: bool, processed: nat, changed: nat)
      modifies executor.host
      ensures var listing := executor.host.respond(old(executor.host.history), ShowAllArguments);
        ok == listing.success
        && (!ok ==> executor.host.history == old(executor.host.history) + [ShowAllArguments] && processed == 0 && changed == 0)
      ensures ok ==>
        var listing := executor.host.respond(old(executor.host.history), ShowAllArguments);
        var rules := if listing.output != "" then Scan(OutputLines(listing.output)).1 else [];
        processed == |rules|
        && (changed, executor.host.history)
           == RemapRun(executor.host.respond, old(executor.host.history) + [ShowAllArguments], rules, config.serverMappings, failToB)
    {
      var listed := executor.ListRules(id, now);
      if !listed.success {
        return false, 0, 0;
      }
      processed := |listed.rules|;
      changed := RemapRules(listed.rules, failToB, id, now);
      ok := true;
    }

    /** A failover pass as its callers see it: it succeeds exactly when the listing does. */
    method FailoverPass(failToB: bool, id: string, now: int) returns (ok: bool)
      modifies executor.host
      ensures ok == executor.host.respond(old(executor.host.history), ShowAllArguments).success
      ensures executor.host.history == PassHistory(executor.host.respond, old(executor.host.history), config.serverMappings, failToB)
    {
      var processed, changed;
      ok, processed, changed := ExecuteFailover(failToB, id, now);
    }

    /** ExecuteManualFailoverAsync: refused when disabled; records the new side only when the pass succeeded. */
    method ExecuteManualFailover(failToB: bool, id: string, now: int) returns (ok: bool)
      modifies this`config, executor.host
      ensures !old(config).enabled ==> !ok && config == old(config) && executor.host.history == old(executor.host.history)
      ensures old(config).enabled ==>
        ok == executor.host.respond(old(executor.host.history), ShowAllArguments).success
        && config == old(config).(currentlyFailedOver := if ok then failToB else old(config).currentlyFailedOver)
        && executor.host.history == PassHistory(executor.host.respond, old(executor.host.history), old(config).serverMappings, failToB)
    {
      if !config.enabled {
        return false;
      }
      ok := FailoverPass(failToB, id, now);
      if ok {
        config := config.(currentlyFailedOver := failToB);
      }
    }

    /**
     * PerformHealthCheckAsync: when enabled, records both health results, the
     * time and the failure counters, clears the last error, and runs a
     * failover pass when the decision table calls for one.
     */
    method PerformHealthCheck(probeA: Probe, probeB: Probe, id: string, now: int)
      modifies this`config, executor.host
      ensures !old(config).enabled ==> config == old(config) && executor.host.history == old(executor.host.history)
      ensures old(config).enabled ==>
        var a := CheckHealthEndpoint(probeA);
        var b := CheckHealthEndpoint(probeB);
        var listed := executor.host.respond(old(executor.host.history), ShowAllArguments).success;
        config == old(config).(
          lastHealthCheck := now, lastHealthA := HealthText(a), lastHealthB := HealthText(b), lastError := "",
          consecutiveFailuresA := if a == Alive then 0 else Increment32(old(config).consecutiveFailuresA),
          consecutiveFailuresB := if b == Alive then 0 else Increment32(old(config).consecutiveFailuresB),
          currentlyFailedOver := NextFailedOver(a, b, old(config).currentlyFailedOver, listed))
        && executor.host.history
           == if DetermineFailoverNeeded(a, b, old(config).currentlyFailedOver)
              then PassHistory(executor.host.respond, old(executor.host.history), old(config).serverMappings, a == Dead && b == Alive)
              else old(executor.host.history)
    {
      if !config.enabled {
        return;
      }
      var a := CheckHealthEndpoint(probeA);
      var b := CheckHealthEndpoint(probeB);
      config := config.(
        lastHealthCheck := now, lastHealthA := HealthText(a), lastHealthB := HealthText(b), lastError := "",
        consecutiveFailuresA := if a == Alive then 0 else Increment32(config.consecutiveFailuresA),
        consecutiveFailuresB := if b == Alive then 0 else Increment32(config.consecutiveFailuresB));
      if DetermineFailoverNeeded(a, b, config.currentlyFailedOver) {
        var failToB := a == Dead && b == Alive;
        var ok := FailoverPass(failToB, id, now);
        if ok {
          config := config.(currentlyFailedOver := failToB);
        }
      }
    }

    /** GetStatusAsync: the stored state plus the number of rules a fresh listing finds (0 if it fails). */
    method GetStatus(id: string, now: int) returns (s: FailoverStatus)
      modifies executor.host
      ensures executor.host.history == old(executor.host.history) + [ShowAllArguments]
      ensures var listing := executor.host.respond(old(executor.host.history), ShowAllArguments);
        s.rulesManaged == (if listing.success && listing.output != "" then |Scan(OutputLines(listing.output)).1| else 0)
        && s.enabled == config.enabled && s.currentlyFailedOver == config.currentlyFailedOver
        && s.lastHealthCheck == config.lastHealthCheck && s.healthStatusA == config.lastHealthA
        && s.healthStatusB == config.lastHealthB && s.lastError == config.lastError
        && s.checkIntervalSeconds == config.checkIntervalSeconds
    {
      var listed := executor.ListRules(id, now);
      var count := if listed.success then |listed.rules| else 0;
      s := FailoverStatus(config.enabled, config.currentlyFailedOver, config.lastHealthCheck,
        config.lastHealthA, config.lastHealthB, count, config.lastError, config.checkIntervalSeconds);
    }
  }
}

=== FILE: manager_add_edit_rule_view_model.dfy ===
/** The stand-alone manager's add / edit rule form. */
module ManagerRuleForm {
  import opened Common
  import opened Text
  import opened Platform
  import opened Protocols
  import opened ManagerRules
  import ValidationService
  import CommandPreview

  /** ValidateInput's messages, one per check: ports first, then addresses, listen side before forward side. */
  const CheckMessages: seq<string> := [ValidationService.ListenPortRange] + [ValidationService.ForwardPortRange]
    + [ValidationService.ListenAddressInvalid] + [ValidationService.ForwardAddressInvalid]

  /** Which of the checks failed, in the same order. */
  function FailedChecks(parsers: Parsers, r: PortForwardRule): (failed: seq<bool>)
    ensures |failed| == |CheckMessages|
  {
    [!ValidationService.IsValidPort(r.listenPort)] + [!ValidationService.IsValidPort(r.forwardPort)]
    + [!ValidationService.IsValidIPAddress(parsers, r.listenAddress)]
    + [!ValidationService.IsValidIPAddress(parsers, r.forwardAddress)]
  }

  /** The four messages are four different, non-empty texts. */
  lemma CheckMessagesDistinct()
    ensures Distinct(CheckMessages)
    ensures forall k :: 0 <= k < |CheckMessages| ==> CheckMessages[k] != ""
  {
    assert |ValidationService.ListenPortRange| == 39 && |ValidationService.ForwardPortRange| == 40;
    assert |ValidationService.ListenAddressInvalid| == 54 && |ValidationService.ForwardAddressInvalid| == 55;
  }

  /** ValidateInput's messages, none exactly when the rule is valid. */
  function FormErrors(parsers: Parsers, r: PortForwardRule): (errors: seq<string>)
    ensures |errors| <= 4
    ensures forall i :: 0 <= i < |errors| ==> errors[i] != ""
    ensures errors == [] <==> IsValid(parsers, r)
  {
    var failed := FailedChecks(parsers, r);
    CheckMessagesDistinct();
    FailuresFromChecks(failed, CheckMessages);
    FailuresOfFour(!ValidationService.IsValidPort(r.listenPort), !ValidationService.IsValidPort(r.forwardPort),
                   !ValidationService.IsValidIPAddress(parsers, r.listenAddress),
                   !ValidationService.IsValidIPAddress(parsers, r.forwardAddress),
                   ValidationService.ListenPortRange, ValidationService.ForwardPortRange,
                   ValidationService.ListenAddressInvalid, ValidationService.ForwardAddressInvalid);
    Failures(failed, CheckMessages)
  }

  /** The four checks' messages, written out one check at a time. */
  lemma FailuresOfFour(a: bool, b: bool, c: bool, d: bool, w: string, x: string, y: string, z: string)
    ensures Failures([a] + [b] + [c] + [d], [w] + [x] + [y] + [z])
         == ErrorIf(a, w) + ErrorIf(b, x) + ErrorIf(c, y) + ErrorIf(d, z)
  {
    FailuresOne(a, w);
    FailuresOne(b, x);
    FailuresOne(c, y);
    FailuresOne(d, z);
    FailuresAppend([a], [w], [b], [x]);
    FailuresAppend([a] + [b], [w] + [x], [c], [y]);
    FailuresAppend([a] + [b] + [c], [w] + [x] + [y], [d], [z]);
  }

  /** Each of ValidateInput's messages is reported exactly when its own field is invalid. */
  lemma ErrorsPresentExactly(parsers: Parsers, r: PortForwardRule)
    ensures var errors := FormErrors(parsers, r);
      (ValidationService.ListenPortRange in errors <==> !ValidationService.IsValidPort(r.listenPort))
      && (ValidationService.ForwardPortRange in errors <==> !ValidationService.IsValidPort(r.forwardPort))
      && (ValidationService.ListenAddressInvalid in errors
          <==> !ValidationService.IsValidIPAddress(parsers, r.listenAddress))
      && (ValidationService.ForwardAddressInvalid in errors
          <==> !ValidationService.IsValidIPAddress(parsers, r.forwardAddress))
  {
    var failed, errors := FailedChecks(parsers, r), FormErrors(parsers, r);
    CheckMessagesDistinct();
    FailuresPresentExactly(failed, CheckMessages);
    assert CheckMessages[0] in errors <==> failed[0];
    assert CheckMessages[1] in errors <==> failed[1];
    assert CheckMessages[2] in errors <==> failed[2];
    assert CheckMessages[3] in errors <==> failed[3];
  }

  /** The messages come out in the order ValidateInput makes its checks. */
  lemma ErrorsInCheckOrder(parsers: Parsers, r: PortForwardRule)
    ensures forall i, j :: 0 <= i < j < |FormErrors(parsers, r)| ==>
      IndexOf(CheckMessages, FormErrors(parsers, r)[i]) < IndexOf(CheckMessages, FormErrors(parsers, r)[j])
  {
    CheckMessagesDistinct();
    FailuresInCheckOrder(FailedChecks(parsers, r), CheckMessages);
  }

  /** The validation message: the errors joined with "; ", empty exactly when the rule is valid. */
  function FormMessage(parsers: Parsers, r: PortForwardRule): (m: string)
    ensures m == Join("; ", FormErrors(parsers, r))
    ensures m == "" <==> IsValid(parsers, r)
  {
    var errors := FormErrors(parsers, r);
    JoinEmptyIff("; ", errors);
    Join("; ", errors)
  }

  /**
   * Once all four fields are filled in, the form reports exactly what the
   * client's validation service reports for them, message for message; the
   * two differ only for blank fields, which the service calls "required" and
   * the form calls out of range or invalid.
   */
  lemma FilledFormMatchesService(parsers: Parsers, r: PortForwardRule)
    requires !IsBlank(r.listenPort) && !IsBlank(r.forwardPort)
    requires !IsBlank(r.listenAddress) && !IsBlank(r.forwardAddress)
    ensures FormMessage(parsers, r)
         == ValidationService.ValidateRule(parsers, r.listenPort, r.listenAddress, r.forwardPort, r.forwardAddress)
  {
    FailuresOfFour(!ValidationService.IsValidPort(r.listenPort), !ValidationService.IsValidPort(r.forwardPort),
                   !ValidationService.IsValidIPAddress(parsers, r.listenAddress),
                   !ValidationService.IsValidIPAddress(parsers, r.forwardAddress),
                   ValidationService.ListenPortRange, ValidationService.ForwardPortRange,
                   ValidationService.ListenAddressInvalid, ValidationService.ForwardAddressInvalid);
    assert FormErrors(parsers, r)
        == ValidationService.RuleErrors(parsers, r.listenPort, r.listenAddress, r.forwardPort, r.forwardAddress);
  }

  /** CloneRule: a rule with the same five fields, that is, an equal rule. */
  function CloneRule(original: PortForwardRule): (r: PortForwardRule)
    ensures r == original
  {
    PortForwardRule(original.listenPort, original.listenAddress, original.forwardPort,
                    original.forwardAddress, original.protocol)
  }

  /** The rule a new form starts from: empty ports and forward address, listening on 0.0.0.0. */
  function BlankRule(): (r: PortForwardRule)
    ensures r.listenAddress == "0.0.0.0" && r.protocol == V4ToV4
    ensures r.listenPort == "" && r.forwardPort == "" && r.forwardAddress == ""
  {
    NewRule().(listenAddress := "0.0.0.0")
  }

  function PreviewOf(r: PortForwardRule): string {
    CommandPreview.Preview(r.protocol, r.listenPort, r.listenAddress, r.forwardPort, r.forwardAddress)
  }

  class AddEditRuleViewModel {
    const parsers: Parsers
    var rule: PortForwardRule
    var validationMessage: string
    var previewCommand: string

    predicate PreviewCurrent()
      reads this
    {
      previewCommand == PreviewOf(rule)
    }

    predicate MessageCurrent()
      reads this
    {
      validationMessage == FormMessage(parsers, rule)
    }

    /** A form on a copy of `existing`, or on a blank rule; not validated until the first edit. */
    constructor (existing: Option<PortForwardRule>, parsers: Parsers)
      ensures this.parsers == parsers
      ensures rule == if existing.Some? then existing.value else BlankRule()
      ensures validationMessage == "" && PreviewCurrent()
    {
      this.parsers := parsers;
      rule := if existing.Some? then CloneRule(existing.value) else BlankRule();
      validationMessage := "";
      previewCommand := "";
      new;
      UpdatePreviewCommand();
    }

    method UpdatePreviewCommand()
      modifies this
      ensures PreviewCurrent()
      ensures rule == old(rule) && validationMessage == old(validationMessage)
    {
      if IsBlank(rule.listenPort) || IsBlank(rule.listenAddress) || IsBlank(rule.forwardPort) || IsBlank(rule.forwardAddress) {
        previewCommand := CommandPreview.Placeholder;
        return;
      }
      previewCommand := CommandPreview.CommandLine(rule.protocol, rule.listenPort, rule.listenAddress,
                                                   rule.forwardPort, rule.forwardAddress);
    }

    method ValidateInput()
      modifies this
      ensures MessageCurrent()
      ensures rule == old(rule) && previewCommand == old(previewCommand)
    {
      var errors := FormErrors(parsers, rule);
      validationMessage := Join("; ", errors);
    }

    method SetListenPort(value: string)
      modifies this
      ensures rule == old(rule).(listenPort := value)
      ensures PreviewCurrent() && MessageCurrent()
    {
      rule := rule.(listenPort := value);
      UpdatePreviewCommand();
      ValidateInput();
    }

    method SetListenAddress(value: string)
      modifies this
      ensures rule == old(rule).(listenAddress := value)
      ensures PreviewCurrent() && MessageCurrent()
    {
      rule := rule.(listenAddress := value);
      UpdatePreviewCommand();
      ValidateInput();
    }

    method SetForwardPort(value: string)
      modifies this
      ensures rule == old(rule).(forwardPort := value)
      ensures PreviewCurrent() && MessageCurrent()
    {
      rule := rule.(forwardPort := value);
      UpdatePreviewCommand();
      ValidateInput();
    }

    method SetForwardAddress(value: string)
      modifies this
      ensures rule == old(rule).(forwardAddress := value)
      ensures PreviewCurrent() && MessageCurrent()
    {
      rule := rule.(forwardAddress := value);
      UpdatePreviewCommand();
      ValidateInput();
    }

    /** The protocol refreshes the preview only. */
    method SetProtocol(value: ProtocolType)
      modifies this
      ensures rule == old(rule).(protocol := value)
      ensures PreviewCurrent() && validationMessage == old(validationMessage)
    {
      rule := rule.(protocol := value);
      UpdatePreviewCommand();
    }

    /** ValidateAndSave: re-validates and saves exactly a valid rule. */
    method ValidateAndSave() returns (ok: bool)
      modifies this
      ensures rule == old(rule) && previewCommand == old(previewCommand)
      ensures MessageCurrent()
      ensures ok <==> IsValid(parsers, rule)
    {
      ValidateInput();
      ok := validationMessage == "";
    }
  }
}

=== FILE: manager_main_view_model.dfy ===
/**
 * The stand-alone manager's main window: the local rule list and the load,
 * add, delete, reset and import operations on it. The manager's netsh
 * service is not part of this model, so what it answers is given to each
 * operation.
 */
module ManagerMain {
  import opened Common
  import opened Text
  import opened ManagerRules
  import opened RuleCollection
  import opened NetshTool

  /** The key import de-duplicates on: listen port and listen address, compared exactly. */
  function ListenKey(r: PortForwardRule): (string, string) {
    (r.listenPort, r.listenAddress)
  }

  class MainViewModel {
    var rules: seq<PortForwardRule>
    var selectedRule: Option<PortForwardRule>
    var statusText: string

    constructor ()
      ensures rules == [] && selectedRule == None && statusText == "Initializing..."
    {
      rules := [];
      selectedRule := None;
      statusText := "Initializing...";
    }

    /**
     * LoadRulesAsync, with `listing` what GetAllRulesAsync answered and
     * `parsed` what ParseRulesAsync then returned: a failed listing leaves
     * the list alone; otherwise the list is refilled with the parsed rules in
     * order.
     */
    method LoadRules(listing: ToolResult, parsed: seq<PortForwardRule>)
      modifies this
      ensures !listing.success ==>
        rules == old(rules) && statusText == "Failed to execute netsh: " + listing.error
      ensures listing.success ==>
        rules == parsed && statusText == (if |parsed| > 0 then "Ready" else "No port forwarding rules found")
      ensures selectedRule == old(selectedRule)
    {
      statusText := "Loading rules...";
      if !listing.success {
        statusText := "Failed to execute netsh: " + listing.error;
        return;
      }
      rules := [];
      var i := 0;
      while i < |parsed|
        invariant 0 <= i <= |parsed|
        invariant rules == parsed[..i]
        invariant selectedRule == old(selectedRule)
      {
        rules := rules + [parsed[i]];
        i := i + 1;
      }
      assert parsed[..i] == parsed;
      statusText := if |parsed| > 0 then "Ready" else "No port forwarding rules found";
    }

    /** AddRuleAsync, with `result` what the netsh service answered: the rule is appended only on success. */
    method AddRule(rule: PortForwardRule, result: ToolResult) returns (ok: bool)
      modifies this
      ensures ok <==> result.success
      ensures ok ==> rules == old(rules) + [rule] && statusText == "Rule added successfully"
      ensures !ok ==> rules == old(rules) && statusText == "Failed to add rule: " + result.error
      ensures selectedRule == old(selectedRule)
    {
      statusText := "Adding rule...";
      if !result.success {
        statusText := "Failed to add rule: " + result.error;
        return false;
      }
      rules := rules + [rule];
      statusText := "Rule added successfully";
      return true;
    }

    /**
     * DeleteRuleAsync, with `result` what the netsh service answered: only on
     * success is the rule taken out and a selection of it cleared.
     */
    method DeleteRule(rule: PortForwardRule, result: ToolResult) returns (ok: bool)
      modifies this
      ensures ok <==> result.success
      ensures ok ==> rules == RemoveFirst(old(rules), rule) && statusText == "Rule deleted successfully"
      ensures ok ==> selectedRule == (if old(selectedRule) == Some(rule) then None else old(selectedRule))
      ensures !ok ==> rules == old(rules) && selectedRule == old(selectedRule)
      ensures !ok ==> statusText == "Failed to delete rule: " + result.error
    {
      statusText := "Deleting rule...";
      if !result.success {
        statusText := "Failed to delete rule: " + result.error;
        return false;
      }
      rules := RemoveFirst(rules, rule);
      if selectedRule == Some(rule) {
        selectedRule := None;
      }
      statusText := "Rule deleted successfully";
      return true;
    }

    /** ResetAllRulesAsync, with `result` what the netsh service answered: on success the list and the selection are cleared. */
    method ResetAllRules(result: ToolResult) returns (ok: bool)
      modifies this
      ensures ok <==> result.success
      ensures ok ==> rules == [] && selectedRule == None && statusText == "All rules reset successfully"
      ensures !ok ==> rules == old(rules) && selectedRule == old(selectedRule)
      ensures !ok ==> statusText == "Failed to reset rules: " + result.error
    {
      statusText := "Resetting all rules...";
      if !result.success {
        statusText := "Failed to reset rules: " + result.error;
        return false;
      }
      rules := [];
      selectedRule := None;
      statusText := "All rules reset successfully";
      return true;
    }

    /**
     * ImportRulesAsync, with `imported` what reading the file gave. A failed
     * read changes nothing and reports (false, 0); otherwise the list (emptied
     * first when replacing) takes each imported rule whose listen endpoint is
     * still free, and the count is the number appended.
     */
    method ImportRules(imported: Result<seq<PortForwardRule>, string>, replaceExisting: bool)
      returns (success: bool, count: int)
      modifies this
      ensures imported.Failure? ==>
        !success && count == 0 && rules == old(rules)
        && statusText == "Failed to import rules: " + imported.error
      ensures imported.Success? ==>
        var start := if replaceExisting then [] else old(rules);
        success && rules == ImportInto(start, imported.value, ListenKey)
        && count == |rules| - |start|
        && statusText == "Imported " + IntToString(count) + " rules successfully"
      ensures selectedRule == old(selectedRule)
    {
      statusText := "Importing rules...";
      if imported.Failure? {
        statusText := "Failed to import rules: " + imported.error;
        return false, 0;
      }
      var importedRules := imported.value;
      if replaceExisting {
        rules := [];
      }
      ghost var start := rules;
      var importedCount := 0;
      var i := 0;
      while i < |importedRules|
        invariant 0 <= i <= |importedRules|
        invariant rules == ImportInto(start, importedRules[..i], ListenKey)
        invariant importedCount == |rules| - |start|
        invariant selectedRule == old(selectedRule)
      {
        assert importedRules[..i + 1][..i] == importedRules[..i];
        var rule := importedRules[i];
        var isDuplicate := HasKey(rules, ListenKey, ListenKey(rule));
        if !isDuplicate {
          rules := rules + [rule];
          importedCount := importedCount + 1;
        }
        i := i + 1;
      }
      assert importedRules[..i] == importedRules;
      statusText := "Imported " + IntToString(importedCount) + " rules successfully";
      return true, importedCount;
    }
  }

  /**
   * After an import into a list without duplicate endpoints, the list still
   * has none, every imported endpoint is in it, and importing the same file
   * again would add nothing.
   */
  lemma ImportedListenEndpointsDistinct(rules: seq<PortForwardRule>, incoming: seq<PortForwardRule>)
    requires DistinctKeys(rules, ListenKey)
    ensures var r := ImportInto(rules, incoming, ListenKey);
      DistinctKeys(r, ListenKey)
      && (forall j :: 0 <= j < |incoming| ==> HasKey(r, ListenKey, ListenKey(incoming[j])))
      && ImportInto(r, incoming, ListenKey) == r
  {
    ImportKeepsKeysDistinct(rules, incoming, ListenKey);
    ImportCoversIncoming(rules, incoming, ListenKey);
    ImportTwiceAddsNothing(rules, incoming, ListenKey);
  }
}

=== FILE: mapping.dfy ===
/**
 * Dictionary<string, string> as the applications use it: entries kept in
 * insertion order (the order enumeration and FirstOrDefault see), keys distinct.
 */
module Mappings {
  import opened Common

  type Mapping = seq<(string, string)>

  predicate DistinctKeys(m: Mapping) {
    forall i, j :: 0 <= i < j < |m| ==> m[i].0 != m[j].0
  }

  predicate DistinctValues(m: Mapping) {
    forall i, j :: 0 <= i < j < |m| ==> m[i].1 != m[j].1
  }

  /** The position of the first entry with `key`. */
  function KeyIndex(m: Mapping, key: string): (r: Option<nat>)
    ensures r.Some? ==> r.value < |m| && m[r.value].0 == key
                        && forall j :: 0 <= j < r.value ==> m[j].0 != key
    ensures r.None? ==> forall j :: 0 <= j < |m| ==> m[j].0 != key
  {
    if m == [] then None
    else if m[0].0 == key then Some(0)
    else match KeyIndex(m[1..], key)
      case None => None
      case Some(i) => Some(i + 1)
  }

  /** The position of the first entry holding `value`. */
  function ValueIndex(m: Mapping, value: string): (r: Option<nat>)
    ensures r.Some? ==> r.value < |m| && m[r.value].1 == value
                        && forall j :: 0 <= j < r.value ==> m[j].1 != value
    ensures r.None? ==> forall j :: 0 <= j < |m| ==> m[j].1 != value
  {
    if m == [] then None
    else if m[0].1 == value then Some(0)
    else match ValueIndex(m[1..], value)
      case None => None
      case Some(i) => Some(i + 1)
  }

  /** A position that is first for its key is what KeyIndex finds. */
  lemma KeyIndexIsFirst(m: Mapping, key: string, i: nat)
    requires i < |m| && m[i].0 == key
    requires forall j :: 0 <= j < i ==> m[j].0 != key
    ensures KeyIndex(m, key) == Some(i)
  {
  }

  /** ContainsKey(key) followed by the indexer. */
  function Lookup(m: Mapping, key: string): (r: Option<string>)
    ensures r.None? <==> forall j :: 0 <= j < |m| ==> m[j].0 != key
    ensures r.Some? ==> (key, r.value) in m
  {
    match KeyIndex(m, key)
      case None => None
      case Some(i) => Some(m[i].1)
  }

  /** FirstOrDefault(kvp => kvp.Value == value): the earliest entry holding `value`. */
  function FirstWithValue(m: Mapping, value: string): (r: Option<(string, string)>)
    ensures r.None? <==> forall j :: 0 <= j < |m| ==> m[j].1 != value
    ensures r.Some? ==> r.value in m && r.value.1 == value
    ensures forall i :: 0 <= i < |m| && m[i].1 == value && (forall j :: 0 <= j < i ==> m[j].1 != value) ==>
              r == Some(m[i])
  {
    match ValueIndex(m, value)
      case None => None
      case Some(i) => Some(m[i])
  }

  /** The indexer assignment dictionary[key] = value: replaces in place or appends. */
  function Put(m: Mapping, key: string, value: string): (r: Mapping)
    ensures |r| == if Lookup(m, key).Some? then |m| else |m| + 1
    ensures forall j :: 0 <= j < |m| ==> r[j].0 == m[j].0
    ensures forall j :: 0 <= j < |m| && m[j].0 != key ==> r[j] == m[j]
  {
    match KeyIndex(m, key)
      case Some(i) => m[i := (key, value)]
      case None => m + [(key, value)]
  }

  lemma PutLookup(m: Mapping, key: string, value: string, k: string)
    ensures Lookup(Put(m, key, value), k) == if k == key then Some(value) else Lookup(m, k)
  {
    var r := Put(m, key, value);
    if k == key {
      match KeyIndex(m, key)
      case Some(i) => KeyIndexIsFirst(r, key, i);
      case None => KeyIndexIsFirst(r, key, |m|);
    } else {
      match KeyIndex(m, k)
      case Some(i) => KeyIndexIsFirst(r, k, i);
      case None =>
    }
  }

  lemma PutKeepsDistinctKeys(m: Mapping, key: string, value: string)
    requires DistinctKeys(m)
    ensures DistinctKeys(Put(m, key, value))
  {
  }
}

=== FILE: netsh_executor.dfy ===
/**
 * The agent's netsh front end: it turns commands into `netsh interface
 * portproxy` argument strings, wraps the tool's answer in a response, and
 * parses the listing printed by `show all`.
 */
module NetshExecutor {
  import opened Text
  import opened AgentModels
  import opened NetshTool

  const ShowAllArguments: string := "interface portproxy show all"
  const ResetArguments: string := "interface portproxy reset"

  function AddArguments(c: AgentCommand): string {
    "interface portproxy add " + c.protocol + " listenport=" + c.listenPort
    + " listenaddress=" + c.listenAddress + " connectport=" + c.connectPort
    + " connectaddress=" + c.connectAddress
  }

  function DeleteArguments(c: AgentCommand): string {
    "interface portproxy delete " + c.protocol + " listenport=" + c.listenPort
    + " listenaddress=" + c.listenAddress
  }

  // ---------------------------------------------------------------------
  // Parsing the `show all` listing
  // ---------------------------------------------------------------------

  datatype ParserState = ParserState(inDataSection: bool, protocol: string)

  const InitialState: ParserState := ParserState(false, "v4tov4")

  const Protocols: set<string> := {"v4tov4", "v4tov6", "v6tov4", "v6tov6"}

  /** A section header names the address families: "Listen on ipvX: Connect to ipvY:". */
  function HeaderProtocol(line: string): (r: Common.Option<string>)
    ensures r.Some? ==> r.value in Protocols
  {
    if Contains(line, "Listen on ipv4") && Contains(line, "Connect to ipv4") then Common.Some("v4tov4")
    else if Contains(line, "Listen on ipv4") && Contains(line, "Connect to ipv6") then Common.Some("v4tov6")
    else if Contains(line, "Listen on ipv6") && Contains(line, "Connect to ipv4") then Common.Some("v6tov4")
    else if Contains(line, "Listen on ipv6") && Contains(line, "Connect to ipv6") then Common.Some("v6tov6")
    else Common.None
  }

  predicate IsFieldSeparator(c: char) { c == ' ' || c == '\t' }

  function Fields(line: string): seq<string> {
    Split(line, IsFieldSeparator)
  }

  /** What a line of the listing is, once trimmed: a header, the column titles, the dashes under them, or a row. */
  datatype LineKind = Blank | Header(protocol: string) | ColumnTitles | Dashes | Row(parts: seq<string>)

  /** The checks in the parser's order: blank, header, column titles, dashes, and anything else a row. */
  function Classify(raw: string): (k: LineKind)
    ensures k.Header? ==> k.protocol in Protocols
  {
    var line := Trim(raw);
    if IsBlank(line) then Blank
    else match HeaderProtocol(line)
      case Some(p) => Header(p)
      case None =>
        if Contains(line, "Address") && Contains(line, "Port") then ColumnTitles
        else if Contains(line, "----") then Dashes
        else Row(Fields(line))
  }

  /** What one line of the listing does to the parser state and the rules found so far. */
  function Step(st: ParserState, rules: seq<PortProxyRule>, kind: LineKind): (ParserState, seq<PortProxyRule>) {
    match kind
    case Blank => (st, rules)
    case Header(p) => (ParserState(false, p), rules)
    case ColumnTitles => (st.(inDataSection := false), rules)
    case Dashes => (st.(inDataSection := true), rules)
    case Row(parts) =>
      if st.inDataSection && |parts| >= 4 then (st, rules + [PortProxyRule(parts[1], parts[0], parts[3], parts[2], st.protocol)])
      else (st, rules)
  }

  /** A line appends at most one rule, under the current protocol, and keeps the protocol one of the four. */
  lemma StepShape(st: ParserState, rules: seq<PortProxyRule>, raw: string)
    ensures var next := Step(st, rules, Classify(raw));
      (next.1 == rules || (|next.1| == |rules| + 1 && next.1[..|rules|] == rules && next.1[|rules|].protocol == st.protocol))
      && (st.protocol in Protocols ==> next.0.protocol in Protocols)
      && (forall r :: r in next.1 ==> r in rules || r.protocol == st.protocol)
  {
    var kind := Classify(raw);
    var next := Step(st, rules, kind);
    if kind.Row? && st.inDataSection && |kind.parts| >= 4 {
      assert next.1 == rules + [next.1[|rules|]];
    }
  }

  /** The parser state and the rules after reading `lines` in order. */
  function Scan(lines: seq<string>): (ParserState, seq<PortProxyRule>)
    decreases |lines|
  {
    if lines == [] then (InitialState, [])
    else
      var prev := Scan(lines[..|lines| - 1]);
      Step(prev.0, prev.1, Classify(lines[|lines| - 1]))
  }

  function OutputLines(output: string): seq<string> {
    Split(output, c => c == '\n')
  }

  /** ParseNetshOutput: the rules listed in the data rows of every section, in order. */
  method ParseNetshOutput(output: string) returns (rules: seq<PortProxyRule>)
    ensures rules == Scan(OutputLines(output)).1
  {
    var lines := OutputLines(output);
    rules := [];
    var inDataSection := false;
    var currentProtocol := "v4tov4";
    var i := 0;
    while i < |lines|
      invariant 0 <= i <= |lines|
      invariant Scan(lines[..i]) == (ParserState(inDataSection, currentProtocol), rules)
    {
      ScanPrefixStep(lines, i);
      inDataSection, currentProtocol, rules := ReadLine(inDataSection, currentProtocol, rules, lines[i]);
      i := i + 1;
    }
    assert lines[..|lines|] == lines;
  }

  /** Reading one more line of the listing is one more Step. */
  lemma ScanPrefixStep(lines: seq<string>, i: nat)
    requires i < |lines|
    ensures Scan(lines[..i + 1]) == Step(Scan(lines[..i]).0, Scan(lines[..i]).1, Classify(lines[i]))
  {
    assert lines[..i + 1][..i] == lines[..i];
  }

  /** The loop body of ParseNetshOutput: one line of the listing, read into the parser's variables. */
  method ReadLine(inDataSection: bool, currentProtocol: string, rules: seq<PortProxyRule>, raw: string)
    returns (inData': bool, protocol': string, rules': seq<PortProxyRule>)
    ensures (ParserState(inData', protocol'), rules') == Step(ParserState(inDataSection, currentProtocol), rules, Classify(raw))
  {
    inData', protocol', rules' := inDataSection, currentProtocol, rules;
    var line := Trim(raw);
    if !IsBlank(line) {
      var header := HeaderProtocol(line);
      if header.Some? {
        protocol' := header.value;
        inData' := false;
      } else if Contains(line, "Address") && Contains(line, "Port") {
        inData' := false;
      } else if Contains(line, "----") {
        inData' := true;
      } else if inDataSection {
        var parts := Fields(line);
        if |parts| >= 4 {
          rules' := rules + [PortProxyRule(parts[1], parts[0], parts[3], parts[2], currentProtocol)];
        }
      }
    }
  }

  /** Rules are only ever appended: what an earlier part of the listing yields stays a prefix of the result. */
  lemma {:induction false} ScanExtends(lines: seq<string>, k: nat)
    requires k <= |lines|
    ensures Scan(lines[..k]).1 <= Scan(lines).1
    ensures |Scan(lines).1| - |Scan(lines[..k]).1| <= |lines| - k
    decreases |lines| - k
  {
    if k < |lines| {
      var init := lines[..|lines| - 1];
      ScanExtends(init, k);
      assert init[..k] == lines[..k];
      var prev := Scan(init);
      var next := Step(prev.0, prev.1, Classify(lines[|lines| - 1]));
      assert Scan(lines) == next;
      StepShape(prev.0, prev.1, lines[|lines| - 1]);
      PrefixTransitive(Scan(lines[..k]).1, prev.1, next.1);
    } else {
      assert lines[..k] == lines;
    }
  }

  lemma PrefixTransitive<T>(a: seq<T>, b: seq<T>, c: seq<T>)
    requires a <= b && b <= c
    ensures a <= c
  {
    assert |a| <= |b| <= |c|;
    forall i | 0 <= i < |a|
      ensures a[i] == c[i]
    {
      assert a[i] == b[i];
    }
  }

  /** Every rule carries one of the four protocol names, taken from the section it was listed in. */
  lemma {:induction false} ScanProtocols(lines: seq<string>)
    ensures Scan(lines).0.protocol in Protocols
    ensures forall r :: r in Scan(lines).1 ==> r.protocol in Protocols
    decreases |lines|
  {
    if lines != [] {
      var prev := Scan(lines[..|lines| - 1]);
      ScanProtocols(lines[..|lines| - 1]);
      StepShape(prev.0, prev.1, lines[|lines| - 1]);
    }
  }

  /** Without a dashes line there is no data section, so nothing is parsed. */
  lemma {:induction false} NoDashesNoRules(lines: seq<string>)
    requires forall i :: 0 <= i < |lines| ==> !Classify(lines[i]).Dashes?
    ensures !Scan(lines).0.inDataSection && Scan(lines).1 == []
    decreases |lines|
  {
    if lines != [] {
      var init := lines[..|lines| - 1];
      assert forall i :: 0 <= i < |init| ==> init[i] == lines[i];
      NoDashesNoRules(init);
    }
  }

  /** A data row with at least four fields yields one rule, fields in listing order, under the current protocol. */
  lemma DataRowYieldsRule(st: ParserState, rules: seq<PortProxyRule>, raw: string)
    requires st.inDataSection
    requires var line := Trim(raw);
      !IsBlank(line) && HeaderProtocol(line).None?
      && !(Contains(line, "Address") && Contains(line, "Port")) && !Contains(line, "----")
    requires |Fields(Trim(raw))| >= 4
    ensures var parts := Fields(Trim(raw));
      Step(st, rules, Classify(raw)) == (st, rules + [PortProxyRule(parts[1], parts[0], parts[3], parts[2], st.protocol)])
  {
  }

  // ---------------------------------------------------------------------
  // The executor's operations
  // ---------------------------------------------------------------------

  /** AddRuleAsync's response to a tool result `t`. */
  function AddResponse(c: AgentCommand, t: ToolResult, now: int): AgentResponse {
    AgentResponse(c.commandId, t.success,
      if t.success
      then "Successfully added rule: " + c.listenAddress + ":" + c.listenPort + " -> " + c.connectAddress + ":" + c.connectPort
      else "Failed to add rule: " + t.error,
      t.output, now, [])
  }

  /** DeleteRuleAsync's response to a tool result `t`. */
  function DeleteResponse(c: AgentCommand, t: ToolResult, now: int): AgentResponse {
    AgentResponse(c.commandId, t.success,
      if t.success
      then "Successfully deleted rule: " + c.listenAddress + ":" + c.listenPort
      else "Failed to delete rule: " + t.error,
      t.output, now, [])
  }

  /** The rules ListRulesAsync reports for a tool result `t`. */
  function ListedRules(t: ToolResult): seq<PortProxyRule> {
    if t.success && t.output != "" then Scan(OutputLines(t.output)).1 else []
  }

  /** ListRulesAsync's response to a tool result `t`. */
  function ListResponse(freshId: string, t: ToolResult, now: int): AgentResponse {
    AgentResponse(freshId, t.success,
      if t.success then "Found " + IntToString(|ListedRules(t)|) + " port proxy rules" else "Failed to list rules: " + t.error,
      t.output, now, ListedRules(t))
  }

  /** ResetAllRulesAsync's response to a tool result `t`. */
  function ResetResponse(freshId: string, t: ToolResult, now: int): AgentResponse {
    AgentResponse(freshId, t.success,
      if t.success then "Successfully reset all port proxy rules" else "Failed to reset rules: " + t.error,
      t.output, now, [])
  }

  class Executor {
    const host: Host

    constructor (host: Host)
      ensures this.host == host
    {
      this.host := host;
    }

    /** AddRuleAsync: one `add` run; the response echoes the command id and the tool's success. */
    method AddRule(c: AgentCommand, now: int) returns (r: AgentResponse)
      modifies host
      ensures host.history == old(host.history) + [AddArguments(c)]
      ensures r == AddResponse(c, host.respond(old(host.history), AddArguments(c)), now)
      ensures var t := host.respond(old(host.history), AddArguments(c));
        r.commandId == c.commandId && r.success == t.success && r.output == t.output && r.rules == []
        && r.message == if t.success
          then "Successfully added rule: " + c.listenAddress + ":" + c.listenPort + " -> " + c.connectAddress + ":" + c.connectPort
          else "Failed to add rule: " + t.error
    {
      var t := host.Run(AddArguments(c));
      r := AddResponse(c, t, now);
    }

    /** DeleteRuleAsync: one `delete` run for the command's protocol and listen endpoint. */
    method DeleteRule(c: AgentCommand, now: int) returns (r: AgentResponse)
      modifies host
      ensures host.history == old(host.history) + [DeleteArguments(c)]
      ensures r == DeleteResponse(c, host.respond(old(host.history), DeleteArguments(c)), now)
      ensures var t := host.respond(old(host.history), DeleteArguments(c));
        r.commandId == c.commandId && r.success == t.success && r.output == t.output && r.rules == []
        && r.message == if t.success
          then "Successfully deleted rule: " + c.listenAddress + ":" + c.listenPort
          else "Failed to delete rule: " + t.error
    {
      var t := host.Run(DeleteArguments(c));
      r := DeleteResponse(c, t, now);
    }

    /**
     * ListRulesAsync: one `show all` run; rules are parsed only from a
     * successful, non-empty listing, and the response gets a fresh id.
     */
    method ListRules(freshId: string, now: int) returns (r: AgentResponse)
      modifies host
      ensures host.history == old(host.history) + [ShowAllArguments]
      ensures r == ListResponse(freshId, host.respond(old(host.history), ShowAllArguments), now)
      ensures var t := host.respond(old(host.history), ShowAllArguments);
        r.commandId == freshId && r.success == t.success && r.output == t.output
        && r.rules == (if t.success && t.output != "" then Scan(OutputLines(t.output)).1 else [])
        && r.message == if t.success
          then "Found " + IntToString(|r.rules|) + " port proxy rules"
          else "Failed to list rules: " + t.error
    {
      var t := host.Run(ShowAllArguments);
      var rules := [];
      if t.success && t.output != "" {
        rules := ParseNetshOutput(t.output);
      }
      r := AgentResponse(freshId, t.success,
        if t.success then "Found " + IntToString(|rules|) + " port proxy rules" else "Failed to list rules: " + t.error,
        t.output, now, rules);
    }

    /** ResetAllRulesAsync: one `reset` run under a fresh id. */
    method ResetAllRules(freshId: string, now: int) returns (r: AgentResponse)
      modifies host
      ensures host.history == old(host.history) + [ResetArguments]
      ensures r == ResetResponse(freshId, host.respond(old(host.history), ResetArguments), now)
      ensures var t := host.respond(old(host.history), ResetArguments);
        r.commandId == freshId && r.success == t.success && r.output == t.output && r.rules == []
        && r.message == if t.success then "Successfully reset all port proxy rules" else "Failed to reset rules: " + t.error
    {
      var t := host.Run(ResetArguments);
      r := ResetResponse(freshId, t, now);
    }
  }
}

=== FILE: netsh_tool.dfy ===
/**
 * The `netsh` process on the agent's host. What it answers to a command line
 * depends on what was run before (its port-proxy table is the effect of those
 * commands), so its answer is a function of the command lines already run and
 * the new one. A process that cannot be started answers (false, "", message).
 */
module NetshTool {
  /** Exit code 0, standard output, standard error. */
  datatype ToolResult = ToolResult(success: bool, output: string, error: string)

  class Host {
    const respond: (seq<string>, string) -> ToolResult
    /** The argument strings passed to netsh so far, oldest first. */
    var history: seq<string>

    constructor (respond: (seq<string>, string) -> ToolResult)
      ensures this.respond == respond && history == []
    {
      this.respond := respond;
      history := [];
    }

    /** Runs `netsh <arguments>` and waits for it to exit. */
    method Run(arguments: string) returns (r: ToolResult)
      modifies this
      ensures history == old(history) + [arguments]
      ensures r == respond(old(history), arguments)
    {
      r := respond(history, arguments);
      history := history + [arguments];
    }
  }
}

=== FILE: rule_collection.dfy ===
/**
 * The rule list both main windows keep, as the operations they apply to it:
 * an import that skips rules whose listen endpoint is already taken, and the
 * removal of one rule.
 */
module RuleCollection {
  /** Some element of `s` has key `k`. */
  predicate HasKey<R, K(==)>(s: seq<R>, key: R -> K, k: K) {
    exists i :: 0 <= i < |s| && key(s[i]) == k
  }

  /** No two elements of `s` share a key. */
  predicate DistinctKeys<R, K(==)>(s: seq<R>, key: R -> K) {
    forall i, j :: 0 <= i < j < |s| ==> key(s[i]) != key(s[j])
  }

  /**
   * The list after importing `incoming` into `rules` one rule at a time: a
   * rule is appended unless some rule already in the list, including one
   * appended earlier in the same import, has its key.
   */
  function ImportInto<R, K(==)>(rules: seq<R>, incoming: seq<R>, key: R -> K): (r: seq<R>)
    ensures |rules| <= |r| <= |rules| + |incoming|
    ensures r[..|rules|] == rules
    decreases |incoming|
  {
    if incoming == [] then rules
    else
      var init := ImportInto(rules, incoming[..|incoming| - 1], key);
      var x := incoming[|incoming| - 1];
      if HasKey(init, key, key(x)) then init else init + [x]
  }

  /** A key present in a list stays present in any list that extends it. */
  lemma HasKeyInExtension<R, K>(s: seq<R>, t: seq<R>, key: R -> K, k: K)
    requires |s| <= |t| && t[..|s|] == s
    requires HasKey(s, key, k)
    ensures HasKey(t, key, k)
  {
    var i :| 0 <= i < |s| && key(s[i]) == k;
    assert t[i] == s[i];
  }

  /** Every appended rule is one of the imported rules, and its key was free in the list before the import. */
  lemma {:induction false} ImportAddsOnlyNew<R, K>(rules: seq<R>, incoming: seq<R>, key: R -> K)
    ensures forall i :: |rules| <= i < |ImportInto(rules, incoming, key)| ==>
      ImportInto(rules, incoming, key)[i] in incoming && !HasKey(rules, key, key(ImportInto(rules, incoming, key)[i]))
    decreases |incoming|
  {
    if incoming != [] {
      var front := incoming[..|incoming| - 1];
      var init := ImportInto(rules, front, key);
      var x := incoming[|incoming| - 1];
      ImportAddsOnlyNew(rules, front, key);
      assert forall y :: y in front ==> y in incoming;
      var r := ImportInto(rules, incoming, key);
      forall i | |rules| <= i < |r|
        ensures r[i] in incoming && !HasKey(rules, key, key(r[i]))
      {
        if i < |init| {
          assert r[i] == init[i];
        } else {
          assert r[i] == x && !HasKey(init, key, key(x));
          if HasKey(rules, key, key(x)) {
            HasKeyInExtension(rules, init, key, key(x));
          }
        }
      }
    }
  }

  /** After the import, every imported rule's key is in the list. */
  lemma {:induction false} ImportCoversIncoming<R, K>(rules: seq<R>, incoming: seq<R>, key: R -> K)
    ensures forall j :: 0 <= j < |incoming| ==> HasKey(ImportInto(rules, incoming, key), key, key(incoming[j]))
    decreases |incoming|
  {
    if incoming != [] {
      var front := incoming[..|incoming| - 1];
      var init := ImportInto(rules, front, key);
      var x := incoming[|incoming| - 1];
      var r := ImportInto(rules, incoming, key);
      ImportCoversIncoming(rules, front, key);
      forall j | 0 <= j < |incoming|
        ensures HasKey(r, key, key(incoming[j]))
      {
        if j < |front| {
          assert incoming[j] == front[j];
          HasKeyInExtension(init, r, key, key(front[j]));
        } else if !HasKey(init, key, key(x)) {
          assert r[|init|] == x;
        }
      }
    }
  }

  /** The import keeps a list free of duplicate keys. */
  lemma {:induction false} ImportKeepsKeysDistinct<R, K>(rules: seq<R>, incoming: seq<R>, key: R -> K)
    requires DistinctKeys(rules, key)
    ensures DistinctKeys(ImportInto(rules, incoming, key), key)
    decreases |incoming|
  {
    if incoming != [] {
      var front := incoming[..|incoming| - 1];
      var init := ImportInto(rules, front, key);
      var x := incoming[|incoming| - 1];
      ImportKeepsKeysDistinct(rules, front, key);
      if !HasKey(init, key, key(x)) {
        var r := init + [x];
        forall i, j | 0 <= i < j < |r|
          ensures key(r[i]) != key(r[j])
        {
          if j == |init| {
            assert r[i] == init[i];
          } else {
            assert r[i] == init[i] && r[j] == init[j];
          }
        }
      }
    }
  }

  /** Importing rules whose keys are all present already changes nothing. */
  lemma {:induction false} ImportOfPresentKeys<R, K>(rules: seq<R>, incoming: seq<R>, key: R -> K)
    requires forall j :: 0 <= j < |incoming| ==> HasKey(rules, key, key(incoming[j]))
    ensures ImportInto(rules, incoming, key) == rules
    decreases |incoming|
  {
    if incoming != [] {
      var front := incoming[..|incoming| - 1];
      assert forall j :: 0 <= j < |front| ==> front[j] == incoming[j];
      ImportOfPresentKeys(rules, front, key);
      assert HasKey(rules, key, key(incoming[|incoming| - 1]));
    }
  }

  /** Importing the same rules a second time adds nothing. */
  lemma ImportTwiceAddsNothing<R, K>(rules: seq<R>, incoming: seq<R>, key: R -> K)
    ensures var once := ImportInto(rules, incoming, key);
      ImportInto(once, incoming, key) == once
  {
    ImportCoversIncoming(rules, incoming, key);
    ImportOfPresentKeys(ImportInto(rules, incoming, key), incoming, key);
  }

  /**
   * Collection<T>.Remove(x): the list scanned from the front, the first
   * element equal to `x` taken out; without such an element nothing changes.
   */
  function RemoveFirst<T(==)>(s: seq<T>, x: T): (r: seq<T>)
    ensures x !in s ==> r == s
  {
    if s == [] then []
    else if s[0] == x then s[1..]
    else
      assert x !in s ==> x !in s[1..];
      assert x !in s ==> [s[0]] + s[1..] == s;
      [s[0]] + RemoveFirst(s[1..], x)
  }

  /** When `i` is the first position holding `x`, exactly that element is taken out and the others keep their order. */
  lemma {:induction false} RemoveFirstAt<T>(s: seq<T>, x: T, i: nat)
    requires i < |s| && s[i] == x && x !in s[..i]
    ensures RemoveFirst(s, x) == s[..i] + s[i + 1..]
    decreases i
  {
    if i == 0 {
      assert s[..0] + s[1..] == s[1..];
    } else {
      var t := s[1..];
      assert s[0] in s[..i];
      assert t[..i - 1] == s[1..i];
      RemoveFirstAt(t, x, i - 1);
      assert RemoveFirst(s, x) == [s[0]] + (t[..i - 1] + t[i..]);
      assert [s[0]] + t[..i - 1] == s[..i];
      assert t[i..] == s[i + 1..];
    }
  }

  /** Removing takes exactly one occurrence of `x` away, when there is one. */
  lemma {:induction false} RemoveFirstTakesOne<T>(s: seq<T>, x: T)
    ensures multiset(RemoveFirst(s, x)) == multiset(s) - multiset{x}
    ensures |RemoveFirst(s, x)| == if x in s then |s| - 1 else |s|
  {
    if s != [] {
      assert s == [s[0]] + s[1..];
      if s[0] != x {
        RemoveFirstTakesOne(s[1..], x);
      }
    }
  }
}

=== FILE: rule_metadata_service.dfy ===
/**
 * The client's store of rule metadata that netsh does not keep (description,
 * category, tags, the target the rule was made from), keyed by agent, listen
 * address and listen port.
 */
module RuleMetadataStore {
  import opened Common
  import opened Text
  import opened ClientRules

  /** What is remembered about a rule besides its netsh fields. */
  datatype RuleMetadata = RuleMetadata(
    description: string,
    category: string,
    tags: seq<string>,
    targetServerId: string,
    targetServerName: string,
    resolvedTargetAddress: string,
    createdDate: int,
    modifiedDate: int,
    useDnsName: bool,
    originalAddress: string)

  /** "<agent>:<lower-cased listen address>:<port>". */
  function GenerateRuleKey(listenAddress: string, listenPort: string, agentServerId: string): string {
    agentServerId + ":" + ToLower(listenAddress) + ":" + listenPort
  }

  /** The agent part of a rule's key: its agent id, or "local" when that is blank. */
  function AgentKeyOf(rule: PortForwardRule): string {
    if !IsBlank(rule.agentServerId) then rule.agentServerId else "local"
  }

  function RuleKey(rule: PortForwardRule): string {
    GenerateRuleKey(rule.listenAddress, rule.listenPort, AgentKeyOf(rule))
  }

  /** The key is the agent, a ':', the lower-cased address, a ':' and the port. */
  lemma KeyLayout(listenAddress: string, listenPort: string, agentServerId: string)
    ensures var k := GenerateRuleKey(listenAddress, listenPort, agentServerId);
      |k| == |agentServerId| + |listenAddress| + |listenPort| + 2
      && k[..|agentServerId|] == agentServerId && k[|agentServerId|] == ':'
      && k[|agentServerId| + 1..|k| - |listenPort| - 1] == ToLower(listenAddress)
      && k[|k| - |listenPort| - 1] == ':' && k[|k| - |listenPort|..] == listenPort
  {
  }

  /** A rule without an agent is keyed under "local", any other under its agent id; the agent part is never blank. */
  lemma RuleKeyAgent(rule: PortForwardRule)
    ensures !IsBlank(AgentKeyOf(rule))
    ensures IsBlank(rule.agentServerId) ==> RuleKey(rule) == GenerateRuleKey(rule.listenAddress, rule.listenPort, "local")
    ensures !IsBlank(rule.agentServerId) ==> RuleKey(rule) == GenerateRuleKey(rule.listenAddress, rule.listenPort, rule.agentServerId)
  {
    assert !IsWhiteSpace("local"[0]);
  }

  /** The keys of a list of rules. */
  function RuleKeys(rules: seq<PortForwardRule>): (keys: set<string>)
    ensures forall i :: 0 <= i < |rules| ==> RuleKey(rules[i]) in keys
    ensures forall k :: k in keys ==> exists i :: 0 <= i < |rules| && RuleKey(rules[i]) == k
  {
    set i | 0 <= i < |rules| :: RuleKey(rules[i])
  }

  /** Addresses that differ only in letter case share a key. */
  lemma KeyIgnoresAddressCase(a: string, b: string, port: string, agent: string)
    requires EqualsIgnoreCase(a, b)
    ensures GenerateRuleKey(a, port, agent) == GenerateRuleKey(b, port, agent)
  {
  }

  /** The position of the first `c` in `s`, or |s| when there is none. */
  function FirstIndexOf(s: string, c: char): nat
  {
    if s == [] then 0 else if s[0] == c then 0 else 1 + FirstIndexOf(s[1..], c)
  }

  /** The position of the last `c` in `s`, or -1 when there is none. */
  function LastIndexOf(s: string, c: char): int
  {
    if s == [] then -1 else if s[|s| - 1] == c then |s| - 1 else LastIndexOf(s[..|s| - 1], c)
  }

  lemma {:induction false} FirstSeparator(head: string, c: char, tail: string)
    requires c !in head
    ensures FirstIndexOf(head + [c] + tail, c) == |head|
  {
    if head != [] {
      assert (head + [c] + tail)[1..] == head[1..] + [c] + tail;
      FirstSeparator(head[1..], c, tail);
    }
  }

  lemma {:induction false} LastSeparator(head: string, c: char, tail: string)
    requires c !in tail
    ensures LastIndexOf(head + [c] + tail, c) == |head|
  {
    if tail != [] {
      var s := head + [c] + tail;
      assert s[..|s| - 1] == head + [c] + tail[..|tail| - 1];
      LastSeparator(head, c, tail[..|tail| - 1]);
    }
  }

  /**
   * With agent ids and ports free of ':' (GUIDs, "local", port numbers), the
   * key determines the agent, the port and the address up to letter case,
   * even when the address itself contains ':' as IPv6 addresses do.
   */
  lemma KeyInjective(a1: string, p1: string, g1: string, a2: string, p2: string, g2: string)
    requires ':' !in g1 && ':' !in g2 && ':' !in p1 && ':' !in p2
    requires GenerateRuleKey(a1, p1, g1) == GenerateRuleKey(a2, p2, g2)
    ensures g1 == g2 && p1 == p2 && ToLower(a1) == ToLower(a2)
  {
    SplitKey(g1, ToLower(a1), p1, g2, ToLower(a2), p2);
  }

  /** The agent ends at the first ':' and the port starts after the last one. */
  lemma SplitKey(g1: string, m1: string, p1: string, g2: string, m2: string, p2: string)
    requires ':' !in g1 && ':' !in g2 && ':' !in p1 && ':' !in p2
    requires g1 + ":" + m1 + ":" + p1 == g2 + ":" + m2 + ":" + p2
    ensures g1 == g2 && m1 == m2 && p1 == p2
  {
    var k := g1 + ":" + m1 + ":" + p1;
    assert k == g1 + [':'] + (m1 + ":" + p1) == g2 + [':'] + (m2 + ":" + p2);
    FirstSeparator(g1, ':', m1 + ":" + p1);
    FirstSeparator(g2, ':', m2 + ":" + p2);
    assert g1 == k[..|g1|] == g2;
    assert k == (g1 + ":" + m1) + [':'] + p1 == (g2 + ":" + m2) + [':'] + p2;
    LastSeparator(g1 + ":" + m1, ':', p1);
    LastSeparator(g2 + ":" + m2, ':', p2);
    assert p1 == k[|k| - |p1|..] == p2;
    assert m1 == k[|g1| + 1..|k| - |p1| - 1] == m2;
  }

  /**
   * Two rules share a key only when they have the same agent (a blank one
   * counting as "local"), the same listen port and the same listen address up
   * to letter case, provided agent ids and ports contain no ':'.
   */
  lemma SameKeySameEndpoint(r1: PortForwardRule, r2: PortForwardRule)
    requires ':' !in AgentKeyOf(r1) && ':' !in AgentKeyOf(r2) && ':' !in r1.listenPort && ':' !in r2.listenPort
    requires RuleKey(r1) == RuleKey(r2)
    ensures AgentKeyOf(r1) == AgentKeyOf(r2) && r1.listenPort == r2.listenPort
    ensures ToLower(r1.listenAddress) == ToLower(r2.listenAddress)
  {
    KeyInjective(r1.listenAddress, r1.listenPort, AgentKeyOf(r1), r2.listenAddress, r2.listenPort, AgentKeyOf(r2));
  }

  /** The entry StoreRuleMetadataAsync writes for a rule at time `now`. */
  function Snapshot(rule: PortForwardRule, now: int): RuleMetadata {
    RuleMetadata(rule.description, rule.category, rule.tags, rule.targetServerId, rule.targetServerName,
                 rule.resolvedTargetAddress, rule.createdDate, now, rule.useDnsName, rule.originalAddress)
  }

  /** The rule with the stored fields copied over it. */
  function WithMetadata(rule: PortForwardRule, m: RuleMetadata): (r: PortForwardRule)
    ensures r.listenPort == rule.listenPort && r.listenAddress == rule.listenAddress
    ensures r.forwardPort == rule.forwardPort && r.forwardAddress == rule.forwardAddress
    ensures r.protocol == rule.protocol && r.agentServerId == rule.agentServerId
    ensures RuleKey(r) == RuleKey(rule)
  {
    rule.(description := m.description, category := m.category, tags := m.tags,
          targetServerId := m.targetServerId, targetServerName := m.targetServerName,
          resolvedTargetAddress := m.resolvedTargetAddress, createdDate := m.createdDate,
          modifiedDate := m.modifiedDate, useDnsName := m.useDnsName, originalAddress := m.originalAddress)
  }

  /** Applying what was stored for a rule gives the rule back, with the store time as its modification date. */
  lemma ApplyAfterStore(rule: PortForwardRule, now: int)
    ensures WithMetadata(rule, Snapshot(rule, now)) == rule.(modifiedDate := now)
  {
  }

  /** The entries of `m` whose key is not in `pending` are the entries whose key is in `current`, when `pending` is exactly the rest. */
  lemma KeepOnlyCurrent(m: map<string, RuleMetadata>, current: set<string>, pending: set<string>)
    requires pending == set k | k in m && k !in current
    ensures (map k | k in m && k !in pending :: m[k]) == (map k | k in m && k in current :: m[k])
  {
  }

  class MetadataStore {
    var metadata: map<string, RuleMetadata>
    /** The dictionary contents at each SaveAsync, oldest first. */
    var saves: seq<map<string, RuleMetadata>>

    constructor ()
      ensures metadata == map[] && saves == []
    {
      metadata := map[];
      saves := [];
    }

    /** StoreRuleMetadataAsync: the rule's key now maps to its snapshot, and the dictionary is saved. */
    method StoreRuleMetadata(rule: PortForwardRule, now: int)
      modifies this
      ensures metadata == old(metadata)[RuleKey(rule) := Snapshot(rule, now)]
      ensures saves == old(saves) + [metadata]
    {
      metadata := metadata[RuleKey(rule) := Snapshot(rule, now)];
      saves := saves + [metadata];
    }

    /** GetRuleMetadata by key parts. */
    function GetRuleMetadata(listenAddress: string, listenPort: string, agentServerId: string): (r: Option<RuleMetadata>)
      reads this
      ensures r.Some? <==> GenerateRuleKey(listenAddress, listenPort, agentServerId) in metadata
      ensures r.Some? ==> r.value == metadata[GenerateRuleKey(listenAddress, listenPort, agentServerId)]
    {
      var key := GenerateRuleKey(listenAddress, listenPort, agentServerId);
      if key in metadata then Some(metadata[key]) else None
    }

    /** GetRuleMetadata for a rule: a rule without an agent is looked up as "local". */
    function GetMetadataFor(rule: PortForwardRule): (r: Option<RuleMetadata>)
      reads this
      ensures r == GetRuleMetadata(rule.listenAddress, rule.listenPort, AgentKeyOf(rule))
      ensures IsBlank(rule.agentServerId) ==> r == GetRuleMetadata(rule.listenAddress, rule.listenPort, "local")
    {
      var key := RuleKey(rule);
      if key in metadata then Some(metadata[key]) else None
    }

    /**
     * ApplyMetadataToRule: without an entry the rule is unchanged; with one,
     * only the metadata fields are overwritten, never the netsh fields.
     */
    function ApplyMetadataToRule(rule: PortForwardRule): (r: PortForwardRule)
      reads this
      ensures GetMetadataFor(rule).None? ==> r == rule
      ensures GetMetadataFor(rule).Some? ==> r == WithMetadata(rule, GetMetadataFor(rule).value)
      ensures r.listenPort == rule.listenPort && r.listenAddress == rule.listenAddress
      ensures r.forwardPort == rule.forwardPort && r.forwardAddress == rule.forwardAddress
      ensures r.protocol == rule.protocol && RuleKey(r) == RuleKey(rule)
    {
      match GetMetadataFor(rule)
      case None => rule
      case Some(m) => WithMetadata(rule, m)
    }

    /** RemoveRuleMetadataAsync by key parts: only that key goes, and a save follows only if it was there. */
    method RemoveRuleMetadataByKey(listenAddress: string, listenPort: string, agentServerId: string)
      modifies this
      ensures var key := GenerateRuleKey(listenAddress, listenPort, agentServerId);
        metadata == old(metadata) - {key}
        && saves == (if key in old(metadata) then old(saves) + [metadata] else old(saves))
    {
      var key := GenerateRuleKey(listenAddress, listenPort, agentServerId);
      if key in metadata {
        metadata := metadata - {key};
        saves := saves + [metadata];
      }
    }

    /** RemoveRuleMetadataAsync for a rule. */
    method RemoveRuleMetadata(rule: PortForwardRule)
      modifies this
      ensures metadata == old(metadata) - {RuleKey(rule)}
      ensures saves == (if RuleKey(rule) in old(metadata) then old(saves) + [metadata] else old(saves))
    {
      RemoveRuleMetadataByKey(rule.listenAddress, rule.listenPort, AgentKeyOf(rule));
    }

    /**
     * CleanupOrphanedMetadataAsync: every entry whose key belongs to no
     * current rule is removed; the rest stay as they were; a save follows
     * only if something was removed.
     */
    method CleanupOrphanedMetadata(currentRules: seq<PortForwardRule>)
      modifies this
      ensures metadata == map k | k in old(metadata) && k in RuleKeys(currentRules) :: old(metadata)[k]
      ensures forall k :: k in metadata ==> exists i :: 0 <= i < |currentRules| && RuleKey(currentRules[i]) == k
      ensures forall i :: 0 <= i < |currentRules| && RuleKey(currentRules[i]) in old(metadata) ==>
        RuleKey(currentRules[i]) in metadata && metadata[RuleKey(currentRules[i])] == old(metadata)[RuleKey(currentRules[i])]
      ensures var removed := exists k :: k in old(metadata) && k !in RuleKeys(currentRules);
        saves == (if removed then old(saves) + [metadata] else old(saves))
    {
      var currentKeys := RuleKeys(currentRules);
      var keysToRemove := set k | k in metadata && k !in currentKeys;
      ghost var m0 := metadata;
      var hasChanges := RemoveKeys(keysToRemove);
      KeepOnlyCurrent(m0, currentKeys, keysToRemove);
      if hasChanges {
        saves := saves + [metadata];
      }
      assert hasChanges <==> exists k :: k in m0 && k !in currentKeys by {
        if hasChanges {
          var k :| k in keysToRemove;
        } else {
          assert forall k :: k in m0 && k !in currentKeys ==> k in keysToRemove;
        }
      }
    }

    /** The removal loop of the cleanup: each key in turn; reports whether there was any. */
    method RemoveKeys(keys: set<string>) returns (hasChanges: bool)
      modifies this
      ensures metadata == map k | k in old(metadata) && k !in keys :: old(metadata)[k]
      ensures hasChanges <==> keys != {}
      ensures saves == old(saves)
    {
      var pending := keys;
      hasChanges := false;
      while pending != {}
        invariant pending <= keys
        invariant forall k :: k in metadata <==> k in old(metadata) && (k !in keys || k in pending)
        invariant forall k :: k in metadata ==> metadata[k] == old(metadata)[k]
        invariant hasChanges <==> pending != keys
        invariant saves == old(saves)
        decreases |pending|
      {
        var key :| key in pending;
        metadata := metadata - {key};
        pending := pending - {key};
        hasChanges := true;
      }
      assert metadata == map k | k in old(metadata) && k !in keys :: old(metadata)[k];
    }
  }
}

=== FILE: rule_validation.dfy ===
/**
 * Field validation of port-forwarding rules: the client's ValidationService,
 * the client's rule model and the stand-alone manager's rule model.
 */
module ValidationService {
  import opened Text
  import opened Platform

  /** int.TryParse succeeds with a value in 1..65535. */
  predicate IsValidPort(port: string) {
    var p := TryParseInt32(port);
    p.Some? && 0 < p.value <= 65535
  }

  /** Non-blank, and an address literal or "localhost" in any letter case. */
  predicate IsValidIPAddress(parsers: Parsers, address: string) {
    !IsBlank(address) && (parsers.isIpLiteral(address) || EqualsIgnoreCase(address, "localhost"))
  }

  /** Every rendered port number in range is accepted. */
  lemma RenderedPortValid(n: nat)
    requires 1 <= n <= 65535
    ensures IsValidPort(NatToString(n))
  {
    ParseIntOfNatToString(n);
  }

  /** A blank port is never valid, so "required" and "out of range" never both apply. */
  lemma BlankPortInvalid(port: string)
    ensures IsBlank(port) ==> !IsValidPort(port)
  {
    if IsBlank(port) {
      BlankIsNotNumber(port);
    }
  }

  const ListenPortRequired: string := "Listen port is required"
  const ListenPortRange: string := "Listen port must be between 1 and 65535"
  const ForwardPortRequired: string := "Forward port is required"
  const ForwardPortRange: string := "Forward port must be between 1 and 65535"
  const ListenAddressRequired: string := "Listen address is required"
  const ListenAddressInvalid: string := "Listen address must be a valid IP address or localhost"
  const ForwardAddressRequired: string := "Forward address is required"
  const ForwardAddressInvalid: string := "Forward address must be a valid IP address or localhost"

  /** One field's contribution: the "required" message, the "invalid" message, or nothing. */
  function FieldError(value: string, valid: bool, required: string, invalid: string): (r: seq<string>)
    ensures |r| <= 1
    ensures r == [] <==> !IsBlank(value) && valid
  {
    if IsBlank(value) then [required] else if !valid then [invalid] else []
  }

  /** The messages ValidateRule collects, in the order it checks the fields. */
  function RuleErrors(parsers: Parsers, listenPort: string, listenAddress: string, forwardPort: string, forwardAddress: string): seq<string> {
    FieldError(listenPort, IsValidPort(listenPort), ListenPortRequired, ListenPortRange)
    + FieldError(forwardPort, IsValidPort(forwardPort), ForwardPortRequired, ForwardPortRange)
    + FieldError(listenAddress, IsValidIPAddress(parsers, listenAddress), ListenAddressRequired, ListenAddressInvalid)
    + FieldError(forwardAddress, IsValidIPAddress(parsers, forwardAddress), ForwardAddressRequired, ForwardAddressInvalid)
  }

  /** ValidateRule: the messages joined with "; ", empty exactly when all four fields are valid. */
  function ValidateRule(parsers: Parsers, listenPort: string, listenAddress: string, forwardPort: string, forwardAddress: string): (r: string)
    ensures r == Join("; ", RuleErrors(parsers, listenPort, listenAddress, forwardPort, forwardAddress))
    ensures r == "" <==>
      IsValidPort(listenPort) && IsValidPort(forwardPort)
      && IsValidIPAddress(parsers, listenAddress) && IsValidIPAddress(parsers, forwardAddress)
  {
    var errors := RuleErrors(parsers, listenPort, listenAddress, forwardPort, forwardAddress);
    BlankPortInvalid(listenPort);
    BlankPortInvalid(forwardPort);
    assert forall i :: 0 <= i < |errors| ==> errors[i] != "";
    JoinEmptyIff("; ", errors);
    Join("; ", errors)
  }

  /** ValidateRule's possible messages in the order it checks: each field's "required", then its range or address message. */
  const RuleMessages: seq<string> := [ListenPortRequired, ListenPortRange] + [ForwardPortRequired, ForwardPortRange]
    + [ListenAddressRequired, ListenAddressInvalid] + [ForwardAddressRequired, ForwardAddressInvalid]

  /** A field's two checks: blank, or filled in but invalid. */
  function FieldChecks(value: string, valid: bool): (failed: seq<bool>)
    ensures |failed| == 2
  {
    [IsBlank(value), !IsBlank(value) && !valid]
  }

  /** The if / else-if on one field reports what its two checks report. */
  lemma FieldErrorAsChecks(value: string, valid: bool, required: string, invalid: string)
    ensures FieldError(value, valid, required, invalid) == Failures(FieldChecks(value, valid), [required, invalid])
  {
    var f := FieldChecks(value, valid);
    assert f[1..] == [f[1]] && [required, invalid][1..] == [invalid];
    assert Failures([f[1]], [invalid]) == ErrorIf(f[1], invalid) + Failures([], []);
  }

  /** The eight messages are eight different texts. */
  lemma RuleMessagesDistinct()
    ensures Distinct(RuleMessages)
  {
    assert |ListenPortRequired| == 23 && |ForwardPortRequired| == 24;
    assert |ListenAddressRequired| == 26 && |ForwardAddressRequired| == 27;
    assert |ListenPortRange| == 39 && |ForwardPortRange| == 40;
    assert |ListenAddressInvalid| == 54 && |ForwardAddressInvalid| == 55;
  }

  /** ValidateRule's eight checks, field by field. */
  function RuleChecks(lp: string, lpOk: bool, fp: string, fpOk: bool, la: string, laOk: bool, fa: string, faOk: bool): (failed: seq<bool>)
    ensures |failed| == |RuleMessages|
  {
    FieldChecks(lp, lpOk) + FieldChecks(fp, fpOk) + FieldChecks(la, laOk) + FieldChecks(fa, faOk)
  }

  /** The four fields' messages are what the eight checks report. */
  lemma FieldsAsChecks(lp: string, lpOk: bool, fp: string, fpOk: bool, la: string, laOk: bool, fa: string, faOk: bool)
    ensures FieldError(lp, lpOk, ListenPortRequired, ListenPortRange)
            + FieldError(fp, fpOk, ForwardPortRequired, ForwardPortRange)
            + FieldError(la, laOk, ListenAddressRequired, ListenAddressInvalid)
            + FieldError(fa, faOk, ForwardAddressRequired, ForwardAddressInvalid)
            == Failures(RuleChecks(lp, lpOk, fp, fpOk, la, laOk, fa, faOk), RuleMessages)
  {
    var c1, c2, c3, c4 := FieldChecks(lp, lpOk), FieldChecks(fp, fpOk), FieldChecks(la, laOk), FieldChecks(fa, faOk);
    var m1, m2 := [ListenPortRequired, ListenPortRange], [ForwardPortRequired, ForwardPortRange];
    var m3, m4 := [ListenAddressRequired, ListenAddressInvalid], [ForwardAddressRequired, ForwardAddressInvalid];
    FieldErrorAsChecks(lp, lpOk, ListenPortRequired, ListenPortRange);
    FieldErrorAsChecks(fp, fpOk, ForwardPortRequired, ForwardPortRange);
    FieldErrorAsChecks(la, laOk, ListenAddressRequired, ListenAddressInvalid);
    FieldErrorAsChecks(fa, faOk, ForwardAddressRequired, ForwardAddressInvalid);
    FailuresAppend(c1, m1, c2, m2);
    FailuresAppend(c1 + c2, m1 + m2, c3, m3);
    FailuresAppend(c1 + c2 + c3, m1 + m2 + m3, c4, m4);
  }

  /**
   * The messages come out in the order ValidateRule checks: listen port,
   * forward port, listen address, forward address.
   */
  lemma RuleErrorsInCheckOrder(parsers: Parsers, listenPort: string, listenAddress: string, forwardPort: string, forwardAddress: string)
    ensures var errors := RuleErrors(parsers, listenPort, listenAddress, forwardPort, forwardAddress);
      (forall i :: 0 <= i < |errors| ==> errors[i] in RuleMessages)
      && forall i, j :: 0 <= i < j < |errors| ==> IndexOf(RuleMessages, errors[i]) < IndexOf(RuleMessages, errors[j])
  {
    var lpOk, fpOk := IsValidPort(listenPort), IsValidPort(forwardPort);
    var laOk, faOk := IsValidIPAddress(parsers, listenAddress), IsValidIPAddress(parsers, forwardAddress);
    var failed := RuleChecks(listenPort, lpOk, forwardPort, fpOk, listenAddress, laOk, forwardAddress, faOk);
    FieldsAsChecks(listenPort, lpOk, forwardPort, fpOk, listenAddress, laOk, forwardAddress, faOk);
    var errors := Failures(failed, RuleMessages);
    assert RuleErrors(parsers, listenPort, listenAddress, forwardPort, forwardAddress) == errors;
    RuleMessagesDistinct();
    FailuresFromChecks(failed, RuleMessages);
    FailuresInCheckOrder(failed, RuleMessages);
    forall i | 0 <= i < |errors|
      ensures errors[i] in RuleMessages
    {
      assert RuleMessages[IndexOf(RuleMessages, errors[i])] == errors[i];
    }
  }

  /**
   * Each field contributes at most one message: "required" exactly when it is
   * blank, the range or address message exactly when it is filled in but
   * invalid.
   */
  lemma RuleErrorsPerField(parsers: Parsers, listenPort: string, listenAddress: string, forwardPort: string, forwardAddress: string)
    ensures var errors := RuleErrors(parsers, listenPort, listenAddress, forwardPort, forwardAddress);
      |errors| <= 4
      && (ListenPortRequired in errors <==> IsBlank(listenPort))
      && (ListenPortRange in errors <==> !IsBlank(listenPort) && !IsValidPort(listenPort))
      && (ForwardPortRequired in errors <==> IsBlank(forwardPort))
      && (ForwardPortRange in errors <==> !IsBlank(forwardPort) && !IsValidPort(forwardPort))
      && (ListenAddressRequired in errors <==> IsBlank(listenAddress))
      && (ListenAddressInvalid in errors <==> !IsBlank(listenAddress) && !IsValidIPAddress(parsers, listenAddress))
      && (ForwardAddressRequired in errors <==> IsBlank(forwardAddress))
      && (ForwardAddressInvalid in errors <==> !IsBlank(forwardAddress) && !IsValidIPAddress(parsers, forwardAddress))
  {
    FieldsMembers(listenPort, IsValidPort(listenPort), forwardPort, IsValidPort(forwardPort),
                  listenAddress, IsValidIPAddress(parsers, listenAddress),
                  forwardAddress, IsValidIPAddress(parsers, forwardAddress));
  }

  /** RuleErrorsPerField with each field's validity as a given flag. */
  lemma FieldsMembers(lp: string, lpOk: bool, fp: string, fpOk: bool, la: string, laOk: bool, fa: string, faOk: bool)
    ensures var errors := FieldError(lp, lpOk, ListenPortRequired, ListenPortRange)
                          + FieldError(fp, fpOk, ForwardPortRequired, ForwardPortRange)
                          + FieldError(la, laOk, ListenAddressRequired, ListenAddressInvalid)
                          + FieldError(fa, faOk, ForwardAddressRequired, ForwardAddressInvalid);
      |errors| <= 4
      && (ListenPortRequired in errors <==> IsBlank(lp))
      && (ListenPortRange in errors <==> !IsBlank(lp) && !lpOk)
      && (ForwardPortRequired in errors <==> IsBlank(fp))
      && (ForwardPortRange in errors <==> !IsBlank(fp) && !fpOk)
      && (ListenAddressRequired in errors <==> IsBlank(la))
      && (ListenAddressInvalid in errors <==> !IsBlank(la) && !laOk)
      && (ForwardAddressRequired in errors <==> IsBlank(fa))
      && (ForwardAddressInvalid in errors <==> !IsBlank(fa) && !faOk)
  {
    assert |ListenPortRequired| == 23 && |ForwardPortRequired| == 24;
    assert |ListenAddressRequired| == 26 && |ForwardAddressRequired| == 27;
    assert |ListenPortRange| == 39 && |ForwardPortRange| == 40;
    assert |ListenAddressInvalid| == 54 && |ForwardAddressInvalid| == 55;
    var a := FieldError(lp, lpOk, ListenPortRequired, ListenPortRange);
    var b := FieldError(fp, fpOk, ForwardPortRequired, ForwardPortRange);
    var c := FieldError(la, laOk, ListenAddressRequired, ListenAddressInvalid);
    var d := FieldError(fa, faOk, ForwardAddressRequired, ForwardAddressInvalid);
    forall m: string
      ensures m in a + b + c + d <==> m in a || m in b || m in c || m in d
    {
      assert a + b + c + d == a + (b + (c + d));
    }
  }
}

/** The client's rule: a forwarding entry with the inventory and metadata it was created from. */
module ClientRules {
  import opened Text
  import opened Platform
  import opened Protocols
  import TargetServers
  import ValidationService

  datatype PortForwardRule = PortForwardRule(
    listenPort: string,
    listenAddress: string,
    forwardPort: string,
    forwardAddress: string,
    protocol: ProtocolType,
    useDnsName: bool,
    originalAddress: string,
    description: string,
    category: string,
    tags: seq<string>,
    agentServerId: string,
    targetServerId: string,
    agentServerName: string,
    targetServerName: string,
    resolvedTargetAddress: string,
    createdDate: int,
    modifiedDate: int,
    /** The fields ServerId and ServerName fall back on. */
    legacyServerId: string,
    legacyServerName: string)

  /** A rule with every field at its initial value, created at `now`. */
  function NewRule(now: int): PortForwardRule {
    PortForwardRule("", "", "", "", V4ToV4, false, "", "", "", [], "", "", "", "", "", now, now, "", "")
  }

  /** The address shown for the rule: the resolved address, else the DNS name in use, else the forward address. */
  function DisplayAddress(r: PortForwardRule): (a: string)
    ensures a in {r.resolvedTargetAddress, r.originalAddress, r.forwardAddress}
    ensures !IsBlank(r.resolvedTargetAddress) ==> a == r.resolvedTargetAddress
    ensures a == r.originalAddress && a != r.forwardAddress && a != r.resolvedTargetAddress ==> r.useDnsName
    ensures IsBlank(a) ==> a == r.forwardAddress
    ensures IsBlank(r.resolvedTargetAddress) && r.useDnsName && !IsBlank(r.originalAddress) ==> a == r.originalAddress
    ensures IsBlank(r.resolvedTargetAddress) && !(r.useDnsName && !IsBlank(r.originalAddress)) ==> a == r.forwardAddress
  {
    if !IsBlank(r.resolvedTargetAddress) then r.resolvedTargetAddress
    else if r.useDnsName && !IsBlank(r.originalAddress) then r.originalAddress
    else r.forwardAddress
  }

  /** The agent-era id when it is set, otherwise the legacy one. */
  function ServerId(r: PortForwardRule): string
  {
    if !IsBlank(r.agentServerId) then r.agentServerId else r.legacyServerId
  }

  /** Writing ServerId writes whichever field the getter reads from. */
  function SetServerId(r: PortForwardRule, value: string): PortForwardRule
  {
    if !IsBlank(r.agentServerId) then r.(agentServerId := value) else r.(legacyServerId := value)
  }

  function ServerName(r: PortForwardRule): string
  {
    if !IsBlank(r.agentServerName) then r.agentServerName else r.legacyServerName
  }

  function SetServerName(r: PortForwardRule, value: string): PortForwardRule
  {
    if !IsBlank(r.agentServerName) then r.(agentServerName := value) else r.(legacyServerName := value)
  }

  /**
   * Reading back what was written gives it back, except for one case: a blank
   * value written over a set agent id, after which the getter falls back to
   * the legacy id.
   */
  lemma ServerIdReadBack(r: PortForwardRule, value: string)
    ensures !IsBlank(value) || IsBlank(r.agentServerId) ==> ServerId(SetServerId(r, value)) == value
    ensures IsBlank(value) && !IsBlank(r.agentServerId) ==> ServerId(SetServerId(r, value)) == r.legacyServerId
    ensures SetServerId(r, value).(agentServerId := r.agentServerId, legacyServerId := r.legacyServerId) == r
  {
  }

  lemma ServerNameReadBack(r: PortForwardRule, value: string)
    ensures !IsBlank(value) || IsBlank(r.agentServerName) ==> ServerName(SetServerName(r, value)) == value
    ensures IsBlank(value) && !IsBlank(r.agentServerName) ==> ServerName(SetServerName(r, value)) == r.legacyServerName
    ensures SetServerName(r, value).(agentServerName := r.agentServerName, legacyServerName := r.legacyServerName) == r
  {
  }

  /** "<server> (<address>)" when a server name is known, else the address alone. */
  function ServerInfo(r: PortForwardRule): (info: string)
    ensures IsBlank(ServerName(r)) ==> info == DisplayAddress(r)
    ensures !IsBlank(ServerName(r)) ==>
      StartsWith(info, ServerName(r) + " (") && |info| == |ServerName(r)| + |DisplayAddress(r)| + 3
      && info[|info| - 1] == ')' && info[|ServerName(r)| + 2 .. |info| - 1] == DisplayAddress(r)
  {
    if !IsBlank(ServerName(r)) then ServerName(r) + " (" + DisplayAddress(r) + ")" else DisplayAddress(r)
  }

  /** The tags separated by ", ", or the empty string. */
  function TagsText(r: PortForwardRule): (t: string)
    ensures r.tags == [] ==> t == ""
    ensures |r.tags| > 0 ==> t == Join(", ", r.tags)
  {
    if |r.tags| > 0 then Join(", ", r.tags) else ""
  }

  /** The badge colour of a category; the match ignores letter case. */
  function CategoryBadgeColor(category: string): (color: string)
    ensures color in {"#2196F3", "#4CAF50", "#FF9800", "#9C27B0", "#607D8B", "#757575"}
    ensures color == "#757575" <==> ToLower(category) !in {"web", "database", "admin", "api", "monitoring"}
    ensures ToLower(category) == "web" ==> color == "#2196F3"
    ensures ToLower(category) == "database" ==> color == "#4CAF50"
    ensures ToLower(category) == "admin" ==> color == "#FF9800"
    ensures ToLower(category) == "api" ==> color == "#9C27B0"
    ensures ToLower(category) == "monitoring" ==> color == "#607D8B"
  {
    match ToLower(category)
    case "web" => "#2196F3"
    case "database" => "#4CAF50"
    case "admin" => "#FF9800"
    case "api" => "#9C27B0"
    case "monitoring" => "#607D8B"
    case _ => "#757575"
  }

  /** Categories that differ only in letter case get the same colour. */
  lemma BadgeColorIgnoresCase(a: string, b: string)
    requires EqualsIgnoreCase(a, b)
    ensures CategoryBadgeColor(a) == CategoryBadgeColor(b)
  {
  }

  /** The description cut to 47 characters plus "..." when it is longer than 50. */
  function ShortDescription(description: string): (s: string)
    ensures |s| <= 50
    ensures |description| <= 50 ==> s == description
    ensures |description| > 50 ==> s == description[..47] + "..." && StartsWith(description, s[..47])
  {
    if |description| > 50 then description[..47] + "..." else description
  }

  /** Shortening twice changes nothing more. */
  lemma ShortDescriptionIdempotent(description: string)
    ensures ShortDescription(ShortDescription(description)) == ShortDescription(description)
  {
  }

  /** A non-empty description, two valid ports, and two addresses that are literals, localhost or host names. */
  predicate IsValid(parsers: Parsers, r: PortForwardRule) {
    !IsBlank(r.description)
    && ValidationService.IsValidPort(r.listenPort) && ValidationService.IsValidPort(r.forwardPort)
    && TargetServers.IsValidDnsNameOrIp(parsers, r.listenAddress)
    && TargetServers.IsValidDnsNameOrIp(parsers, r.forwardAddress)
  }

  /**
   * A rule the validation service passes is a valid client rule once it has
   * a description: the client's address check accepts everything the
   * service's does, and host names besides.
   */
  lemma ServiceValidImpliesRuleValid(parsers: Parsers, r: PortForwardRule)
    requires ValidationService.ValidateRule(parsers, r.listenPort, r.listenAddress, r.forwardPort, r.forwardAddress) == ""
    requires !IsBlank(r.description)
    ensures IsValid(parsers, r)
  {
  }

  /** A freshly created rule has no description and so is never valid. */
  lemma NewRuleInvalid(parsers: Parsers, now: int)
    ensures !IsValid(parsers, NewRule(now))
  {
  }
}

/** The stand-alone manager's rule: the four netsh fields and a protocol. */
module ManagerRules {
  import opened Text
  import opened Platform
  import opened Protocols
  import ValidationService

  datatype PortForwardRule = PortForwardRule(
    listenPort: string,
    listenAddress: string,
    forwardPort: string,
    forwardAddress: string,
    protocol: ProtocolType)

  function NewRule(): PortForwardRule {
    PortForwardRule("", "", "", "", V4ToV4)
  }

  /** Two valid ports and two addresses that are literals or localhost. */
  predicate IsValid(parsers: Parsers, r: PortForwardRule) {
    ValidationService.IsValidPort(r.listenPort) && ValidationService.IsValidPort(r.forwardPort)
    && ValidationService.IsValidIPAddress(parsers, r.listenAddress)
    && ValidationService.IsValidIPAddress(parsers, r.forwardAddress)
  }

  /** The manager accepts a rule exactly when the client's validation service reports nothing. */
  lemma ValidIffServiceSilent(parsers: Parsers, r: PortForwardRule)
    ensures IsValid(parsers, r)
        <==> ValidationService.ValidateRule(parsers, r.listenPort, r.listenAddress, r.forwardPort, r.forwardAddress) == ""
  {
  }

  /** A host name that is neither an address literal nor localhost is refused as a forward address. */
  lemma HostNamesRefused(parsers: Parsers, r: PortForwardRule)
    requires !parsers.isIpLiteral(r.forwardAddress) && !EqualsIgnoreCase(r.forwardAddress, "localhost")
    ensures !IsValid(parsers, r)
  {
  }
}

=== FILE: server_service.dfy ===
/**
 * The client's server inventory: agent servers, target servers, silos and
 * A/B server pairs, held as lists the operations add to, overwrite in place
 * and remove from, with the lookups and the pair-to-address mapping the
 * failover configuration is built from.
 */
module Inventory {
  import opened Common
  import opened Text
  import opened Platform
  import opened Mappings
  import opened ServerPairs
  import opened TargetServers
  import opened AgentServers
  import opened Silos
  import opened Dns

  /** The position of the first element whose key is exactly `k` (FirstOrDefault on an Id). */
  function FirstWithKey<T>(s: seq<T>, key: T -> string, k: string): (r: Option<nat>)
    ensures r.Some? ==> r.value < |s| && key(s[r.value]) == k
                        && forall j :: 0 <= j < r.value ==> key(s[j]) != k
    ensures r.None? <==> forall j :: 0 <= j < |s| ==> key(s[j]) != k
  {
    if s == [] then None
    else if key(s[0]) == k then Some(0)
    else match FirstWithKey(s[1..], key, k)
      case None => None
      case Some(i) => Some(i + 1)
  }

  function AgentIdOf(a: AgentServer): string { a.id }
  function TargetIdOf(t: TargetServer): string { t.id }
  function SiloIdOf(s: Silo): string { s.id }
  function PairIdOf(p: ServerPair): string { p.id }

  /** Collection.Remove of the element at `i`. */
  function RemoveAt<T>(s: seq<T>, i: nat): (r: seq<T>)
    requires i < |s|
    ensures |r| == |s| - 1
    ensures forall j :: 0 <= j < i ==> r[j] == s[j]
    ensures forall j :: i <= j < |r| ==> r[j] == s[j + 1]
  {
    s[..i] + s[i + 1..]
  }

  // ---------------------------------------------------------------- agents

  /** GetAgentServersBySilo: the agents whose SiloId is exactly `siloId`, in order. */
  function AgentsInSilo(agents: seq<AgentServer>, siloId: string): (r: seq<AgentServer>)
    ensures |r| <= |agents|
    ensures forall a :: a in r <==> a in agents && a.siloId == siloId
  {
    if agents == [] then []
    else
      (if agents[0].siloId == siloId then [agents[0]] else []) + AgentsInSilo(agents[1..], siloId)
  }

  /** Each agent of the silo comes out as many times as it is listed, and no other agent does. */
  lemma {:induction false} AgentsInSiloCounts(agents: seq<AgentServer>, siloId: string)
    ensures forall a :: multiset(AgentsInSilo(agents, siloId))[a]
                        == if a.siloId == siloId then multiset(agents)[a] else 0
  {
    if agents != [] {
      assert agents == [agents[0]] + agents[1..];
      AgentsInSiloCounts(agents[1..], siloId);
    }
  }

  /** Where keeps the list's order: an agent added last comes out last when it is in the silo. */
  lemma {:induction false} AgentsInSiloSnoc(agents: seq<AgentServer>, a: AgentServer, siloId: string)
    ensures AgentsInSilo(agents + [a], siloId)
            == AgentsInSilo(agents, siloId) + (if a.siloId == siloId then [a] else [])
  {
    if agents == [] {
      assert [] + [a] == [a];
    } else {
      assert (agents + [a])[1..] == agents[1..] + [a];
      AgentsInSiloSnoc(agents[1..], a, siloId);
    }
  }

  /** UpdateSiloHealthAsync on the silo list: the first silo with that id gathers its agents and re-rates itself. */
  function RefreshedSilos(silos: seq<Silo>, agents: seq<AgentServer>, siloId: string, now: int): (r: seq<Silo>)
    ensures |r| == |silos|
    ensures forall k :: 0 <= k < |r| ==> r[k].id == silos[k].id
    ensures FirstWithKey(silos, SiloIdOf, siloId).None? ==> r == silos
    ensures FirstWithKey(silos, SiloIdOf, siloId).Some? ==>
      var i := FirstWithKey(silos, SiloIdOf, siloId).value;
      r[i].agentServers == AgentsInSilo(agents, siloId)
      && forall k :: 0 <= k < |r| && k != i ==> r[k] == silos[k]
  {
    match FirstWithKey(silos, SiloIdOf, siloId)
    case None => silos
    case Some(i) => silos[i := UpdateHealthStatus(silos[i].(agentServers := AgentsInSilo(agents, siloId)), now)]
  }

  /**
   * After a refresh the silo lists exactly the agents assigned to it and its
   * status is Unknown exactly when there are none; no other silo changes.
   */
  lemma RefreshedSiloMembers(silos: seq<Silo>, agents: seq<AgentServer>, siloId: string, now: int)
    requires FirstWithKey(silos, SiloIdOf, siloId).Some?
    ensures var i := FirstWithKey(silos, SiloIdOf, siloId).value;
      var r := RefreshedSilos(silos, agents, siloId, now);
      |r| == |silos|
      && (forall j :: 0 <= j < |silos| && j != i ==> r[j] == silos[j])
      && (forall a :: a in r[i].agentServers <==> a in agents && a.siloId == siloId)
      && (r[i].status == UnknownStatus <==> AgentsInSilo(agents, siloId) == [])
      && r[i].id == silos[i].id && r[i].name == silos[i].name && r[i].role == silos[i].role
  {
  }

  /** UpdateAgentServerAsync's in-place overwrite: the editable fields change, identity and live status do not. */
  function Overwritten(existing: AgentServer, edited: AgentServer): (r: AgentServer)
    ensures r.id == existing.id && r.status == existing.status && r.lastSeen == existing.lastSeen
    ensures r.version == existing.version && r.ruleCount == existing.ruleCount
    ensures r.name == edited.name && r.agentUrl == edited.agentUrl && r.secretKey == edited.secretKey
    ensures r.description == edited.description && r.siloId == edited.siloId
    ensures r.environment == edited.environment && r.tags == edited.tags
  {
    existing.(name := edited.name, agentUrl := edited.agentUrl, secretKey := edited.secretKey,
              description := edited.description, siloId := edited.siloId,
              environment := edited.environment, tags := edited.tags)
  }

  /** The silo refreshes after an agent moves from `oldSiloId` to `newSiloId`: the old silo first, then the new one. */
  function SilosAfterMove(silos: seq<Silo>, agents: seq<AgentServer>, oldSiloId: string, newSiloId: string, now: int): seq<Silo> {
    var afterOld := if !IsBlank(oldSiloId) && oldSiloId != newSiloId then RefreshedSilos(silos, agents, oldSiloId, now) else silos;
    if !IsBlank(newSiloId) then RefreshedSilos(afterOld, agents, newSiloId, now) else afterOld
  }

  /**
   * An agent moved between two silos leaves the old silo's member list and
   * appears in the new one's.
   */
  lemma MovedAgentChangesSilo(silos: seq<Silo>, agents: seq<AgentServer>, moved: AgentServer, oldSiloId: string, now: int)
    requires moved in agents
    requires !IsBlank(oldSiloId) && oldSiloId != moved.siloId && !IsBlank(moved.siloId)
    requires FirstWithKey(silos, SiloIdOf, oldSiloId).Some? && FirstWithKey(silos, SiloIdOf, moved.siloId).Some?
    ensures var r := SilosAfterMove(silos, agents, oldSiloId, moved.siloId, now);
      moved !in r[FirstWithKey(silos, SiloIdOf, oldSiloId).value].agentServers
      && moved in r[FirstWithKey(silos, SiloIdOf, moved.siloId).value].agentServers
  {
    var afterOld := RefreshedSilos(silos, agents, oldSiloId, now);
    // The first refresh leaves every id in place, so the second finds the same silo.
    SameKeysSameFirst(silos, afterOld, SiloIdOf, moved.siloId);
  }

  /** Two lists with the same key at every position have the same first match. */
  lemma {:induction false} SameKeysSameFirst<T>(s: seq<T>, t: seq<T>, key: T -> string, k: string)
    requires |s| == |t| && forall j :: 0 <= j < |s| ==> key(s[j]) == key(t[j])
    ensures FirstWithKey(s, key, k) == FirstWithKey(t, key, k)
  {
    if s != [] {
      SameKeysSameFirst(s[1..], t[1..], key, k);
    }
  }

  // --------------------------------------------------------------- targets

  /** A successful resolution records the address, the resolved flag and the check time; a failed one changes nothing. */
  function WithResolution(t: TargetServer, r: DnsResolutionResult, now: int): (u: TargetServer)
    ensures u.ipAddress == (if r.success then r.resolvedIp else t.ipAddress)
    ensures u.(ipAddress := t.ipAddress, isDnsResolved := t.isDnsResolved, lastDnsCheck := t.lastDnsCheck) == t
    ensures !r.success ==> u == t
  {
    if r.success then t.(ipAddress := r.resolvedIp, isDnsResolved := true, lastDnsCheck := now) else t
  }

  /** UpdateTargetServerAsync's in-place overwrite, before any re-resolution. */
  function EditedTarget(existing: TargetServer, edited: TargetServer): (r: TargetServer)
    ensures r.id == existing.id && r.ipAddress == existing.ipAddress
    ensures r.isDnsResolved == existing.isDnsResolved && r.lastDnsCheck == existing.lastDnsCheck
    ensures r.name == edited.name && r.dnsName == edited.dnsName && r.description == edited.description
    ensures r.environment == edited.environment && r.tags == edited.tags
  {
    existing.(name := edited.name, dnsName := edited.dnsName, description := edited.description,
              environment := edited.environment, tags := edited.tags)
  }

  // ----------------------------------------------------------------- silos

  /** DeleteSiloAsync's loop body for one agent. */
  function Unassigned(a: AgentServer, siloId: string): AgentServer {
    if a.siloId == siloId then a.(siloId := "") else a
  }

  /** Every agent of the silo loses its assignment; every other agent is kept as it is. */
  function ClearedAssignments(agents: seq<AgentServer>, siloId: string): (r: seq<AgentServer>)
    ensures |r| == |agents|
    ensures forall j :: 0 <= j < |r| ==> r[j].siloId != siloId || siloId == ""
    ensures forall j :: 0 <= j < |r| && agents[j].siloId != siloId ==> r[j] == agents[j]
    ensures forall j :: 0 <= j < |r| ==> r[j].(siloId := agents[j].siloId) == agents[j]
  {
    seq(|agents|, j requires 0 <= j < |agents| => Unassigned(agents[j], siloId))
  }

  /** UpdateSiloAsync's in-place overwrite: health, members and the check time are kept. */
  function EditedSilo(existing: Silo, edited: Silo): (r: Silo)
    ensures r.id == existing.id && r.status == existing.status && r.lastHealthCheck == existing.lastHealthCheck
    ensures r.agentServers == existing.agentServers
    ensures r.name == edited.name && r.description == edited.description && r.dataCenter == edited.dataCenter
    ensures r.role == edited.role && r.properties == edited.properties && r.environments == edited.environments
  {
    existing.(name := edited.name, description := edited.description, dataCenter := edited.dataCenter,
              role := edited.role, properties := edited.properties, environments := edited.environments)
  }

  // ----------------------------------------------------------------- pairs

  /** No two pairs share a server, ignoring letter case. */
  predicate PairsDisjoint(pairs: seq<ServerPair>) {
    forall i, j :: 0 <= i < j < |pairs| ==>
      !ContainsServer(pairs[j], pairs[i].serverAId) && !ContainsServer(pairs[j], pairs[i].serverBId)
  }

  /** With disjoint pairs, a server id is in at most one pair. */
  lemma AtMostOnePair(pairs: seq<ServerPair>, serverId: string, i: nat, j: nat)
    requires PairsDisjoint(pairs)
    requires i < |pairs| && j < |pairs|
    requires ContainsServer(pairs[i], serverId) && ContainsServer(pairs[j], serverId)
    ensures i == j
  {
  }

  /** The first pair that contains the id, ignoring case. */
  function FirstPairContaining(pairs: seq<ServerPair>, serverId: string): (r: Option<nat>)
    ensures r.Some? ==> r.value < |pairs| && ContainsServer(pairs[r.value], serverId)
                        && forall j :: 0 <= j < r.value ==> !ContainsServer(pairs[j], serverId)
    ensures r.None? <==> forall j :: 0 <= j < |pairs| ==> !ContainsServer(pairs[j], serverId)
  {
    if pairs == [] then None
    else if ContainsServer(pairs[0], serverId) then Some(0)
    else match FirstPairContaining(pairs[1..], serverId)
      case None => None
      case Some(i) => Some(i + 1)
  }

  /** The description of a new pair: the given one, or "<A name> ↔ <B name>". */
  function PairDescription(description: string, nameA: string, nameB: string): (d: string)
    ensures description != "" ==> d == description
    ensures description == "" ==> d == nameA + " ↔ " + nameB
  {
    if description == "" then nameA + " ↔ " + nameB else description
  }

  /** The two addresses a pair maps, when both of its servers are still in the inventory. */
  function CompletePair(p: ServerPair, targets: seq<TargetServer>): (r: Option<(string, string)>)
    ensures r.Some? <==> FirstWithKey(targets, TargetIdOf, p.serverAId).Some? && FirstWithKey(targets, TargetIdOf, p.serverBId).Some?
  {
    match (FirstWithKey(targets, TargetIdOf, p.serverAId), FirstWithKey(targets, TargetIdOf, p.serverBId))
    case (Some(a), Some(b)) => Some((ResolvedAddress(targets[a]), ResolvedAddress(targets[b])))
    case _ => None
  }

  /** Each pair's (A address, B address), or nothing when one of its servers is gone. */
  function Links(pairs: seq<ServerPair>, targets: seq<TargetServer>): (r: seq<Option<(string, string)>>)
    ensures |r| == |pairs|
    ensures forall i :: 0 <= i < |pairs| ==> r[i] == CompletePair(pairs[i], targets)
  {
    seq(|pairs|, i requires 0 <= i < |pairs| => CompletePair(pairs[i], targets))
  }

  /** The mapping built by assigning mappings[a] = b for each present link, in order. */
  function AssignAll(links: seq<Option<(string, string)>>): (m: Mapping)
    ensures DistinctKeys(m)
  {
    if links == [] then []
    else
      var m := AssignAll(links[..|links| - 1]);
      match links[|links| - 1]
      case None => m
      case Some((a, b)) => PutKeepsDistinctKeys(m, a, b); Put(m, a, b)
  }

  /** GetServerPairMappings' result: complete pairs map their A address to their B address, in list order. */
  function PairMappings(pairs: seq<ServerPair>, targets: seq<TargetServer>): (m: Mapping)
    ensures DistinctKeys(m)
  {
    AssignAll(Links(pairs, targets))
  }

  /** The position of the last present link from `address`. */
  function LastLinkFrom(links: seq<Option<(string, string)>>, address: string): (r: Option<nat>)
    ensures r.Some? ==> r.value < |links| && links[r.value].Some? && links[r.value].value.0 == address
                        && forall j :: r.value < j < |links| ==> !(links[j].Some? && links[j].value.0 == address)
    ensures r.None? ==> forall j :: 0 <= j < |links| ==> !(links[j].Some? && links[j].value.0 == address)
  {
    if links == [] then None
    else if links[|links| - 1].Some? && links[|links| - 1].value.0 == address then Some(|links| - 1)
    else
      var init := links[..|links| - 1];
      assert forall j :: 0 <= j < |init| ==> init[j] == links[j];
      LastLinkFrom(init, address)
  }

  lemma {:induction false} AssignAllLastWins(links: seq<Option<(string, string)>>, address: string)
    ensures Lookup(AssignAll(links), address) ==
      match LastLinkFrom(links, address)
      case None => None
      case Some(i) => Some(links[i].value.1)
  {
    if links != [] {
      var init := links[..|links| - 1];
      AssignAllLastWins(init, address);
      assert forall j :: 0 <= j < |init| ==> init[j] == links[j];
      match links[|links| - 1]
      case None =>
      case Some((a, b)) => PutLookup(AssignAll(init), a, b, address);
    }
  }

  /**
   * An address maps to the B side of the last complete pair whose A side has
   * that address: later pairs overwrite earlier ones, and pairs with a
   * missing server contribute nothing.
   */
  lemma PairMappingsLastWins(pairs: seq<ServerPair>, targets: seq<TargetServer>, address: string)
    ensures var links := Links(pairs, targets);
      Lookup(PairMappings(pairs, targets), address) ==
        match LastLinkFrom(links, address)
        case None => None
        case Some(i) => Some(CompletePair(pairs[i], targets).value.1)
    ensures (forall j :: 0 <= j < |pairs| ==> CompletePair(pairs[j], targets).None?) ==>
      PairMappings(pairs, targets) == []
  {
    AssignAllLastWins(Links(pairs, targets), address);
    NoLinksNoMappings(Links(pairs, targets));
  }

  lemma {:induction false} NoLinksNoMappings(links: seq<Option<(string, string)>>)
    ensures (forall j :: 0 <= j < |links| ==> links[j].None?) ==> AssignAll(links) == []
  {
    if links != [] {
      var init := links[..|links| - 1];
      NoLinksNoMappings(init);
      assert forall j :: 0 <= j < |init| ==> init[j] == links[j];
    }
  }

  class ServerService {
    var agentServers: seq<AgentServer>
    var targetServers: seq<TargetServer>
    var silos: seq<Silo>
    var serverPairs: seq<ServerPair>
    const dns: DnsService
    const parsers: Parsers

    constructor (dns: DnsService, parsers: Parsers)
      ensures agentServers == [] && targetServers == [] && silos == [] && serverPairs == []
      ensures this.dns == dns && this.parsers == parsers
    {
      agentServers := [];
      targetServers := [];
      silos := [];
      serverPairs := [];
      this.dns := dns;
      this.parsers := parsers;
    }

    // -------------------------------------------------------------- agents

    /**
     * AddAgentServerAsync: an invalid agent or a taken id is refused; otherwise
     * the agent is appended and the silo it names is refreshed.
     */
    method AddAgentServer(a: AgentServer, now: int) returns (ok: bool)
      modifies this
      ensures ok <==> AgentServers.IsValid(parsers, a) && FirstWithKey(old(agentServers), AgentIdOf, a.id).None?
      ensures !ok ==> agentServers == old(agentServers) && silos == old(silos)
      ensures ok ==> agentServers == old(agentServers) + [a]
      ensures ok ==> silos == if !IsBlank(a.siloId) then RefreshedSilos(old(silos), agentServers, a.siloId, now) else old(silos)
      ensures targetServers == old(targetServers) && serverPairs == old(serverPairs)
    {
      if !AgentServers.IsValid(parsers, a) {
        return false;
      }
      if FirstWithKey(agentServers, AgentIdOf, a.id).Some? {
        return false;
      }
      agentServers := agentServers + [a];
      if !IsBlank(a.siloId) {
        UpdateSiloHealth(a.siloId, now);
      }
      ok := true;
    }

    /**
     * UpdateAgentServerAsync: the first agent with the same id takes the
     * edited fields; the old silo (when it changed) and the new silo are
     * refreshed, in that order.
     */
    method UpdateAgentServer(a: AgentServer, now: int) returns (ok: bool)
      modifies this
      ensures var idx := FirstWithKey(old(agentServers), AgentIdOf, a.id);
        ok <==> AgentServers.IsValid(parsers, a) && idx.Some?
      ensures !ok ==> agentServers == old(agentServers) && silos == old(silos)
      ensures ok ==> var i := FirstWithKey(old(agentServers), AgentIdOf, a.id).value;
        agentServers == old(agentServers)[i := Overwritten(old(agentServers)[i], a)]
        && silos == SilosAfterMove(old(silos), agentServers, old(agentServers)[i].siloId, a.siloId, now)
      ensures targetServers == old(targetServers) && serverPairs == old(serverPairs)
    {
      if !AgentServers.IsValid(parsers, a) {
        return false;
      }
      var idx := FirstWithKey(agentServers, AgentIdOf, a.id);
      if idx.None? {
        return false;
      }
      var i := idx.value;
      var oldSiloId := agentServers[i].siloId;
      agentServers := agentServers[i := Overwritten(agentServers[i], a)];
      if !IsBlank(oldSiloId) && oldSiloId != a.siloId {
        UpdateSiloHealth(oldSiloId, now);
      }
      if !IsBlank(a.siloId) {
        UpdateSiloHealth(a.siloId, now);
      }
      ok := true;
    }

    /**
     * DeleteAgentServerAsync: the agent's silo is refreshed while the agent is
     * still in the list, then the agent is removed, so the refreshed silo
     * still lists it.
     */
    method DeleteAgentServer(id: string, now: int) returns (ok: bool)
      modifies this
      ensures ok <==> FirstWithKey(old(agentServers), AgentIdOf, id).Some?
      ensures !ok ==> agentServers == old(agentServers) && silos == old(silos)
      ensures ok ==> var i := FirstWithKey(old(agentServers), AgentIdOf, id).value;
        var agent := old(agentServers)[i];
        agentServers == RemoveAt(old(agentServers), i)
        && silos == RefreshedSilos(old(silos), old(agentServers), agent.siloId, now)
      ensures ok ==> var agent := old(agentServers)[FirstWithKey(old(agentServers), AgentIdOf, id).value];
        var s := FirstWithKey(old(silos), SiloIdOf, agent.siloId);
        s.Some? ==> agent in silos[s.value].agentServers
      ensures targetServers == old(targetServers) && serverPairs == old(serverPairs)
    {
      var idx := FirstWithKey(agentServers, AgentIdOf, id);
      if idx.None? {
        return false;
      }
      var i := idx.value;
      var agent := agentServers[i];
      var s := FirstWithKey(silos, SiloIdOf, agent.siloId);
      if s.Some? {
        UpdateSiloHealth(silos[s.value].id, now);
        RefreshedSiloMembers(old(silos), old(agentServers), agent.siloId, now);
      }
      agentServers := RemoveAt(agentServers, i);
      ok := true;
    }

    /** GetAgentServer: the first agent with exactly that id. */
    function GetAgentServer(id: string): (r: Option<AgentServer>)
      reads this
      ensures r.Some? <==> exists j :: 0 <= j < |agentServers| && agentServers[j].id == id
      ensures r.Some? ==> r.value in agentServers && r.value.id == id
    {
      match FirstWithKey(agentServers, AgentIdOf, id)
      case None => None
      case Some(i) => Some(agentServers[i])
    }

    function GetAgentServersBySilo(siloId: string): (r: seq<AgentServer>)
      reads this
      ensures forall a :: a in r <==> a in agentServers && a.siloId == siloId
      ensures forall a :: multiset(r)[a] == if a.siloId == siloId then multiset(agentServers)[a] else 0
    {
      AgentsInSiloCounts(agentServers, siloId);
      AgentsInSilo(agentServers, siloId)
    }

    // ------------------------------------------------------------- targets

    /**
     * AddTargetServerAsync: an invalid target or a taken id is refused;
     * otherwise a target without an address is resolved first, and appended.
     */
    method AddTargetServer(t: TargetServer, now: int, lookup: LookupOutcome) returns (ok: bool)
      modifies this, dns
      ensures ok <==> TargetServers.IsValid(parsers, t) && FirstWithKey(old(targetServers), TargetIdOf, t.id).None?
      ensures !ok ==> targetServers == old(targetServers) && dns.cache == old(dns.cache)
      ensures ok && !(IsBlank(t.ipAddress) && !IsBlank(t.dnsName)) ==>
        targetServers == old(targetServers) + [t] && dns.cache == old(dns.cache)
      ensures ok && IsBlank(t.ipAddress) && !IsBlank(t.dnsName) ==>
        var out := Resolution(old(dns.cache), parsers, t.dnsName, now, lookup);
        targetServers == old(targetServers) + [WithResolution(t, out.0, now)] && dns.cache == out.1
      ensures agentServers == old(agentServers) && silos == old(silos) && serverPairs == old(serverPairs)
    {
      if !TargetServers.IsValid(parsers, t) {
        return false;
      }
      if FirstWithKey(targetServers, TargetIdOf, t.id).Some? {
        return false;
      }
      var added := t;
      if IsBlank(t.ipAddress) && !IsBlank(t.dnsName) {
        var r := dns.ResolveDns(parsers, t.dnsName, now, lookup);
        if r.success {
          added := t.(ipAddress := r.resolvedIp, isDnsResolved := true, lastDnsCheck := now);
        }
      }
      targetServers := targetServers + [added];
      ok := true;
    }

    /**
     * UpdateTargetServerAsync: the first target with the same id takes the
     * edited fields and is re-resolved; when resolution fails the previous
     * address is kept.
     */
    method UpdateTargetServer(t: TargetServer, now: int, lookup: LookupOutcome) returns (ok: bool)
      modifies this, dns
      ensures ok <==> TargetServers.IsValid(parsers, t) && FirstWithKey(old(targetServers), TargetIdOf, t.id).Some?
      ensures !ok ==> targetServers == old(targetServers) && dns.cache == old(dns.cache)
      ensures ok ==> var i := FirstWithKey(old(targetServers), TargetIdOf, t.id).value;
        var edited := EditedTarget(old(targetServers)[i], t);
        var out := Resolution(old(dns.cache), parsers, t.dnsName, now, lookup);
        targetServers == old(targetServers)[i := WithResolution(edited, out.0, now)] && dns.cache == out.1
      ensures agentServers == old(agentServers) && silos == old(silos) && serverPairs == old(serverPairs)
    {
      if !TargetServers.IsValid(parsers, t) {
        return false;
      }
      var idx := FirstWithKey(targetServers, TargetIdOf, t.id);
      if idx.None? {
        return false;
      }
      var i := idx.value;
      var edited := EditedTarget(targetServers[i], t);
      if !IsBlank(edited.dnsName) {
        var r := dns.ResolveDns(parsers, edited.dnsName, now, lookup);
        if r.success {
          edited := edited.(ipAddress := r.resolvedIp, isDnsResolved := true, lastDnsCheck := now);
        }
      }
      targetServers := targetServers[i := edited];
      ok := true;
    }

    /** DeleteTargetServerAsync: the first target with the id is removed; pairs naming it are left in place. */
    method DeleteTargetServer(id: string) returns (ok: bool)
      modifies this
      ensures ok <==> FirstWithKey(old(targetServers), TargetIdOf, id).Some?
      ensures ok ==> targetServers == RemoveAt(old(targetServers), FirstWithKey(old(targetServers), TargetIdOf, id).value)
      ensures !ok ==> targetServers == old(targetServers)
      ensures agentServers == old(agentServers) && silos == old(silos) && serverPairs == old(serverPairs)
    {
      var idx := FirstWithKey(targetServers, TargetIdOf, id);
      if idx.None? {
        return false;
      }
      targetServers := RemoveAt(targetServers, idx.value);
      ok := true;
    }

    function GetTargetServer(id: string): (r: Option<TargetServer>)
      reads this
      ensures r.Some? <==> exists j :: 0 <= j < |targetServers| && targetServers[j].id == id
      ensures r.Some? ==> r.value in targetServers && r.value.id == id
    {
      match FirstWithKey(targetServers, TargetIdOf, id)
      case None => None
      case Some(i) => Some(targetServers[i])
    }

    /**
     * ResolveTargetAddressAsync: "" for an unknown id; the stored address when
     * there is one; otherwise the resolved address (which is then stored), or
     * the DNS name when resolution fails. A non-blank answer is always the
     * target's ResolvedAddress afterwards.
     */
    method ResolveTargetAddress(id: string, now: int, lookup: LookupOutcome) returns (address: string)
      modifies this, dns
      ensures var idx := FirstWithKey(old(targetServers), TargetIdOf, id);
        idx.None? ==> address == "" && targetServers == old(targetServers) && dns.cache == old(dns.cache)
      ensures var idx := FirstWithKey(old(targetServers), TargetIdOf, id);
        idx.Some? && !IsBlank(old(targetServers)[idx.value].ipAddress) ==>
          address == old(targetServers)[idx.value].ipAddress
          && targetServers == old(targetServers) && dns.cache == old(dns.cache)
      ensures var idx := FirstWithKey(old(targetServers), TargetIdOf, id);
        idx.Some? && IsBlank(old(targetServers)[idx.value].ipAddress) ==>
          var t := old(targetServers)[idx.value];
          var out := Resolution(old(dns.cache), parsers, t.dnsName, now, lookup);
          dns.cache == out.1
          && targetServers == old(targetServers)[idx.value := WithResolution(t, out.0, now)]
          && address == (if out.0.success then out.0.resolvedIp else t.dnsName)
      ensures var idx := FirstWithKey(old(targetServers), TargetIdOf, id);
        idx.Some? && !IsBlank(address) ==> address == ResolvedAddress(targetServers[idx.value])
      ensures |targetServers| == |old(targetServers)|
      ensures agentServers == old(agentServers) && silos == old(silos) && serverPairs == old(serverPairs)
    {
      var idx := FirstWithKey(targetServers, TargetIdOf, id);
      if idx.None? {
        return "";
      }
      var i := idx.value;
      var t := targetServers[i];
      if !IsBlank(t.ipAddress) {
        return t.ipAddress;
      }
      var r := dns.ResolveDns(parsers, t.dnsName, now, lookup);
      if r.success {
        targetServers := targetServers[i := t.(ipAddress := r.resolvedIp, isDnsResolved := true, lastDnsCheck := now)];
        return r.resolvedIp;
      }
      address := t.dnsName;
    }

    // --------------------------------------------------------------- silos

    /** AddSiloAsync: an invalid silo or a taken id is refused; otherwise the silo is appended. */
    method AddSilo(s: Silo) returns (ok: bool)
      modifies this
      ensures ok <==> Silos.IsValid(s) && FirstWithKey(old(silos), SiloIdOf, s.id).None?
      ensures silos == if ok then old(silos) + [s] else old(silos)
      ensures agentServers == old(agentServers) && targetServers == old(targetServers) && serverPairs == old(serverPairs)
    {
      if !Silos.IsValid(s) {
        return false;
      }
      if FirstWithKey(silos, SiloIdOf, s.id).Some? {
        return false;
      }
      silos := silos + [s];
      ok := true;
    }

    /** UpdateSiloAsync: the first silo with the same id takes the edited fields. */
    method UpdateSilo(s: Silo) returns (ok: bool)
      modifies this
      ensures ok <==> Silos.IsValid(s) && FirstWithKey(old(silos), SiloIdOf, s.id).Some?
      ensures ok ==> var i := FirstWithKey(old(silos), SiloIdOf, s.id).value;
        silos == old(silos)[i := EditedSilo(old(silos)[i], s)]
      ensures !ok ==> silos == old(silos)
      ensures agentServers == old(agentServers) && targetServers == old(targetServers) && serverPairs == old(serverPairs)
    {
      if !Silos.IsValid(s) {
        return false;
      }
      var idx := FirstWithKey(silos, SiloIdOf, s.id);
      if idx.None? {
        return false;
      }
      silos := silos[idx.value := EditedSilo(silos[idx.value], s)];
      ok := true;
    }

    /** DeleteSiloAsync: every agent assigned to the silo is unassigned, then the silo is removed. */
    method DeleteSilo(siloId: string) returns (ok: bool)
      modifies this
      ensures ok <==> FirstWithKey(old(silos), SiloIdOf, siloId).Some?
      ensures ok ==> (silos == RemoveAt(old(silos), FirstWithKey(old(silos), SiloIdOf, siloId).value)
                      && agentServers == ClearedAssignments(old(agentServers), siloId))
      ensures !ok ==> silos == old(silos) && agentServers == old(agentServers)
      ensures targetServers == old(targetServers) && serverPairs == old(serverPairs)
    {
      var idx := FirstWithKey(silos, SiloIdOf, siloId);
      if idx.None? {
        return false;
      }
      ghost var before := agentServers;
      var k := 0;
      while k < |agentServers|
        invariant 0 <= k <= |agentServers| == |before|
        invariant forall j :: 0 <= j < k ==> agentServers[j] == Unassigned(before[j], siloId)
        invariant forall j :: k <= j < |before| ==> agentServers[j] == before[j]
        invariant silos == old(silos) && targetServers == old(targetServers) && serverPairs == old(serverPairs)
      {
        if agentServers[k].siloId == siloId {
          agentServers := agentServers[k := agentServers[k].(siloId := "")];
        }
        k := k + 1;
      }
      silos := RemoveAt(silos, idx.value);
      ok := true;
    }

    function GetSilo(id: string): (r: Option<Silo>)
      reads this
      ensures r.Some? <==> exists j :: 0 <= j < |silos| && silos[j].id == id
      ensures r.Some? ==> r.value in silos && r.value.id == id
    {
      match FirstWithKey(silos, SiloIdOf, id)
      case None => None
      case Some(i) => Some(silos[i])
    }

    /** UpdateSiloHealthAsync. */
    method UpdateSiloHealth(siloId: string, now: int)
      modifies this
      ensures silos == RefreshedSilos(old(silos), agentServers, siloId, now)
      ensures agentServers == old(agentServers) && targetServers == old(targetServers) && serverPairs == old(serverPairs)
    {
      var idx := FirstWithKey(silos, SiloIdOf, siloId);
      if idx.None? {
        return;
      }
      var i := idx.value;
      var gathered := silos[i].(agentServers := GetAgentServersBySilo(siloId));
      silos := silos[i := UpdateHealthStatus(gathered, now)];
    }

    // --------------------------------------------------------------- pairs

    /**
     * CreateServerPairAsync: both ids must name target servers and neither may
     * be in a pair already (ignoring case); the new pair is appended. The same
     * id may be given for both sides. Pairs stay disjoint.
     */
    method CreateServerPair(serverAId: string, serverBId: string, description: string, pairId: string, now: int)
      returns (ok: bool)
      modifies this
      ensures ok <==>
        FirstWithKey(old(targetServers), TargetIdOf, serverAId).Some?
        && FirstWithKey(old(targetServers), TargetIdOf, serverBId).Some?
        && FirstPairContaining(old(serverPairs), serverAId).None?
        && FirstPairContaining(old(serverPairs), serverBId).None?
      ensures ok ==>
        var a := old(targetServers)[FirstWithKey(old(targetServers), TargetIdOf, serverAId).value];
        var b := old(targetServers)[FirstWithKey(old(targetServers), TargetIdOf, serverBId).value];
        serverPairs == old(serverPairs) + [ServerPair(pairId, serverAId, serverBId, PairDescription(description, a.name, b.name), now)]
      ensures !ok ==> serverPairs == old(serverPairs)
      ensures PairsDisjoint(old(serverPairs)) ==> PairsDisjoint(serverPairs)
      ensures agentServers == old(agentServers) && targetServers == old(targetServers) && silos == old(silos)
    {
      var a := FirstWithKey(targetServers, TargetIdOf, serverAId);
      var b := FirstWithKey(targetServers, TargetIdOf, serverBId);
      if a.None? || b.None? {
        return false;
      }
      var existingA := FirstPairContaining(serverPairs, serverAId);
      var existingB := FirstPairContaining(serverPairs, serverBId);
      if existingA.Some? || existingB.Some? {
        return false;
      }
      var pair := ServerPair(pairId, serverAId, serverBId,
                             PairDescription(description, targetServers[a.value].name, targetServers[b.value].name), now);
      serverPairs := serverPairs + [pair];
      ok := true;
    }

    /** DeleteServerPairAsync: the first pair with exactly that id is removed. */
    method DeleteServerPair(pairId: string) returns (ok: bool)
      modifies this
      ensures ok <==> FirstWithKey(old(serverPairs), PairIdOf, pairId).Some?
      ensures ok ==> serverPairs == RemoveAt(old(serverPairs), FirstWithKey(old(serverPairs), PairIdOf, pairId).value)
      ensures !ok ==> serverPairs == old(serverPairs)
      ensures PairsDisjoint(old(serverPairs)) ==> PairsDisjoint(serverPairs)
      ensures agentServers == old(agentServers) && targetServers == old(targetServers) && silos == old(silos)
    {
      var idx := FirstWithKey(serverPairs, PairIdOf, pairId);
      if idx.None? {
        return false;
      }
      serverPairs := RemoveAt(serverPairs, idx.value);
      ok := true;
    }

    /** GetServerPair: the first pair containing the id. */
    function GetServerPair(serverId: string): (r: Option<ServerPair>)
      reads this
      ensures r.Some? ==> r.value in serverPairs && ContainsServer(r.value, serverId)
      ensures r.None? <==> forall j :: 0 <= j < |serverPairs| ==> !ContainsServer(serverPairs[j], serverId)
    {
      match FirstPairContaining(serverPairs, serverId)
      case None => None
      case Some(i) => Some(serverPairs[i])
    }

    /** IsServerPaired agrees with GetServerPair. */
    predicate IsServerPaired(serverId: string)
      reads this
      ensures IsServerPaired(serverId) <==> GetServerPair(serverId).Some?
    {
      exists j :: 0 <= j < |serverPairs| && ContainsServer(serverPairs[j], serverId)
    }

    /**
     * GetPairedServer: the partner, on the first pair containing the id, of a
     * target that is still in the inventory; nothing when the partner was
     * deleted.
     */
    function GetPairedServer(serverId: string): (r: Option<TargetServer>)
      reads this
      ensures r.Some? ==> (GetServerPair(serverId).Some? && r.value in targetServers
                           && r.value.id == GetPartnerServerId(GetServerPair(serverId).value, serverId).value)
      ensures GetServerPair(serverId).Some?
        && (forall j :: 0 <= j < |targetServers| ==>
              targetServers[j].id != GetPartnerServerId(GetServerPair(serverId).value, serverId).value)
        ==> r.None?
      ensures forall k :: 0 <= k < |targetServers| && GetServerPair(serverId).Some?
                          && targetServers[k].id == GetPartnerServerId(GetServerPair(serverId).value, serverId).value
                          && (forall j :: 0 <= j < k ==> targetServers[j].id != targetServers[k].id)
                          ==> r == Some(targetServers[k])
    {
      match GetServerPair(serverId)
      case None => None
      case Some(pair) =>
        match GetPartnerServerId(pair, serverId)
        case None => None
        case Some(partnerId) =>
          match FirstWithKey(targetServers, TargetIdOf, partnerId)
          case None => None
          case Some(i) => Some(targetServers[i])
    }

    /** GetServerPairMappings. */
    method GetServerPairMappings() returns (mappings: Mapping)
      ensures mappings == PairMappings(serverPairs, targetServers)
    {
      mappings := [];
      var i := 0;
      ghost var links := Links(serverPairs, targetServers);
      while i < |serverPairs|
        invariant 0 <= i <= |serverPairs|
        invariant mappings == AssignAll(links[..i])
      {
        var pair := serverPairs[i];
        var a := FirstWithKey(targetServers, TargetIdOf, pair.serverAId);
        var b := FirstWithKey(targetServers, TargetIdOf, pair.serverBId);
        if a.Some? && b.Some? {
          mappings := Put(mappings, ResolvedAddress(targetServers[a.value]), ResolvedAddress(targetServers[b.value]));
        }
        assert links[..i + 1][..i] == links[..i];
        i := i + 1;
      }
      assert links[..i] == links;
    }
  }
}
